=== FILE: README.md ===
# Ghost-style blog editor: a verified model of its core

This project models the core logic of a small React/Tiptap blog editor in Dafny:

- the browser-storage blob store for uploaded media, together with its orphan cleanup;
- a second, index-free photo store;
- the Redux `posts` slice;
- the editor's autosave, publish and title/excerpt rules;
- the input parsers for YouTube URLs, Picsum ids, HTML snippets and file uploads;
- the document node schemas (iframe, raw HTML, bookmark, styled paragraph);
- the metadata fallback for bookmarks;
- the post list's search filter, "time ago" label, preview and delete dialog.

Code that mutates state in place is modelled as classes. Those are the media store, the photo store, the posts slice, the paragraph node view and the autosave/publish dispatchers. Each method's new state is given by a value-level function of the old one, and the properties are lemmas about those functions. Parsers, renderers and decision rules are modelled as functions.

Clocks, random numbers and ISO timestamps are parameters. So are file contents (the data URL a `FileReader` produces), editor text and HTML, and URL hostnames and pathnames. Strings are sequences of characters, and case mapping covers ASCII only.

Modules, one per source file plus three shared helpers:

| module | file | models |
|---|---|---|
| `Wrappers` | wrappers.dfy | `Option`, `Result` |
| `Strings` | strings.dfy | `trim`, `toLowerCase`, `includes`, `split`, `replace` of one character, decimal printing |
| `Dom` | dom.dfy | an element as a tag plus an attribute map |
| `MediaStore` | media_store.dfy | `ImageStorage` and `cleanupUnusedImages` in src/components/MediaInputHandlers.jsx |
| `MediaInputs` | media_inputs.dfy | the upload, YouTube, HTML and Picsum handlers of the same file |
| `PhotoStore` | photo_store.dfy | src/utils/imageStorage.js |
| `PostsSlice` | posts_slice.dfy | src/store/postsSlice.js |
| `BlogEditor` | blog_editor.dfy | src/components/BlogEditor.jsx |
| `RawHtml` | raw_html.dfy | src/extensions/RawHTMLExtension.js |
| `Bookmark` | bookmark.dfy | src/extensions/BookmarkExtension.js |
| `StyledParagraph` | styled_paragraph.dfy | src/extensions/StyledParagraph.js |
| `Metadata` | metadata.dfy | src/utils/metadataFetcher.js |
| `PostsList` | posts_list.dfy | src/components/PostsList.jsx |

## Model

| member | source | states |
|---|---|---|
| MediaStore.RecordKeysDistinct | src/components/MediaInputHandlers.jsx:17-21 | Record keys `blog-image-<id>` are injective in the id and never equal the index key `blog-images`, so records and the index can be modelled as separate fields |
| MediaStore.Put | src/components/MediaInputHandlers.jsx:17-21 | Storing writes the record under its id and appends the id to a readable index without any presence check; an unreadable index stays unreadable |
| MediaStore.Store | src/components/MediaInputHandlers.jsx:17-21 | The two `setItem` calls with their quota outcomes. Success means both writes fit and the index was readable, and gives `Put`. A refused record write changes nothing. A refused index write keeps the record and leaves the index as it was. An unreadable index is reported after the record is written |
| MediaStore.RefusedIndexOrphansRecord | src/components/MediaInputHandlers.jsx:17-21 | When only the index write is refused, the record is stored but no index lists it, so `getAllImages` misses it and cleanup never deletes it |
| MediaStore.PutTwiceDuplicates | src/components/MediaInputHandlers.jsx:17-21 | Storing the same id twice puts it in the index twice, and the second record wins |
| MediaStore.Lookup | src/components/MediaInputHandlers.jsx:33-41 | `getImage` gives the record exactly when the key exists and parses, and `null` otherwise |
| MediaStore.Resolve | src/components/MediaInputHandlers.jsx:43-51 | `getAllImages` resolves the indexed ids and drops the ones without a record, so it yields no more records than the index holds ids |
| MediaStore.ResolveMembers | src/components/MediaInputHandlers.jsx:43-51 | A record is listed by `getAllImages` iff some indexed id points at it |
| MediaStore.ResolveAppend | src/components/MediaInputHandlers.jsx:46 | Resolving keeps index order: resolving a concatenation is the concatenation of the resolutions |
| MediaStore.FilterOut | src/components/MediaInputHandlers.jsx:57 | The index filter keeps exactly the ids not being deleted |
| MediaStore.FilterOutCounts | src/components/MediaInputHandlers.jsx:57 | The filter removes every occurrence of a deleted id and keeps every other id's count |
| MediaStore.FilterOutAppend | src/components/MediaInputHandlers.jsx:57 | The filter keeps the survivors in their relative order |
| MediaStore.DeleteAll | src/components/MediaInputHandlers.jsx:53-58 | Deleting removes exactly the given keys, leaves every other record as it was, and filters the index |
| MediaStore.DeleteRemovesEveryOccurrence | src/components/MediaInputHandlers.jsx:53-58 | After `deleteImage(id)` the id is nowhere in the index and its record is gone, while other ids keep their counts |
| MediaStore.DeleteAllTwice | src/components/MediaInputHandlers.jsx:53-58 | Two rounds of deletion equal one round with the union of the ids |
| MediaStore.MatchAt | src/components/MediaInputHandlers.jsx:663 | A match of `data-image-id="([^"]+)"` at the front of the text captures a non-empty value without `"` |
| MediaStore.ImageIdRefs | src/components/MediaInputHandlers.jsx:663-667 | Every collected id is non-empty, has no `"`, and occurs as `data-image-id="<id>"` in the content |
| MediaStore.RefFoundAtFront | src/components/MediaInputHandlers.jsx:663-667 | An attribute at the front of the content is collected first, followed by the ids in the rest |
| MediaStore.ExecStep | src/components/MediaInputHandlers.jsx:665-667 | One `regex.exec` step from `lastIndex` yields the next collected id, or ends when none remain |
| MediaStore.CleanedDeletesExactly | src/components/MediaInputHandlers.jsx:659-674 | Cleanup deletes a record iff it is indexed, parses, and its id is not referenced in the content; all other records are untouched |
| MediaStore.CleanedIdempotent | src/components/MediaInputHandlers.jsx:659-674 | Running cleanup twice on the same content equals running it once |
| MediaStore.EmbedRecordsAreCleanedUp | src/components/MediaInputHandlers.jsx:193-196 | A stored YouTube or HTML record whose id the content does not reference in a `data-image-id` attribute is deleted by cleanup |
| MediaStore.RefsNeedImageIdAttr | src/components/MediaInputHandlers.jsx:661-667 | Content that yields any id contains the text `data-image-id="` |
| MediaStore.CleanupWithoutImageIdsDeletesIndexed | src/components/MediaInputHandlers.jsx:659-674 | Against content with no `data-image-id` attribute, cleanup deletes every stored, parsable, indexed record |
| MediaStore.DeleteAllWellKeyed | src/components/MediaInputHandlers.jsx:53-58 | Deletion keeps every record stored under its own id |
| MediaStore.BlobStore.constructor | src/components/MediaInputHandlers.jsx:19 | An empty store: no records, and an index that reads as `[]` |
| MediaStore.BlobStore.StoreRecord | src/components/MediaInputHandlers.jsx:193-196 | The record write, the index read and the index write give the state and error `Store` describes, including a write the browser refuses for lack of quota |
| MediaStore.BlobStore.StoreImage | src/components/MediaInputHandlers.jsx:6-27 | `storeImage` resolves with the record iff both writes fit and the index is readable. Otherwise it rejects with the error `Store` gives, and the store is left as `Store` says |
| MediaStore.BlobStore.GetImage | src/components/MediaInputHandlers.jsx:33-41 | Returns `Lookup` of the current state |
| MediaStore.BlobStore.GetAllImages | src/components/MediaInputHandlers.jsx:43-51 | Returns the resolved index; each result is indexed and is what `getImage` gives for its id |
| MediaStore.BlobStore.DeleteImage | src/components/MediaInputHandlers.jsx:53-58 | The new state is `Delete` of the old one |
| MediaStore.BlobStore.CollectImageIds | src/components/MediaInputHandlers.jsx:661-667 | The `while (regex.exec(...))` loop collects exactly the referenced ids, in order of appearance |
| MediaStore.BlobStore.CleanupUnusedImages | src/components/MediaInputHandlers.jsx:659-674 | The new state is `Cleaned` of the old one and the content |
| MediaInputs.CheckUpload | src/components/MediaInputHandlers.jsx:80-89 | The size limit is checked first and the MIME type second; a file passes iff size ≤ 5 MiB and its type starts with `image/` |
| MediaInputs.ImageAttrs | src/components/MediaInputHandlers.jsx:95-101 | The attributes the handler passes to `setImage` hold the data URL as `src` and the storage id as `data-image-id`; the Image node keeps only `src` and `alt` of them (see Left out) |
| MediaInputs.UploadEffect | src/components/MediaInputHandlers.jsx:76-113 | A rejected file changes nothing. An accepted one is stored as `Store` says, and is inserted as an image node iff both writes fit and the index is readable. Otherwise the failure (storage full or unreadable index) is reported and nothing is inserted |
| MediaInputs.Reported | src/components/MediaInputHandlers.jsx:110-112 | A store error maps to its own failure kind, one for one. The distinction is the model's own: the handler shows one generic alert for every error |
| MediaInputs.UploadImage | src/components/MediaInputHandlers.jsx:76-113 | Against the live store, the upload handler gives the state and outcome of `UploadEffect` |
| MediaInputs.MarkerEnd | src/components/MediaInputHandlers.jsx:161 | A YouTube marker (`youtube.com/watch?v=`, `youtu.be/`, `youtube.com/embed/`) found at q starts with 'y' and ends inside the URL |
| MediaInputs.VideoIdAt | src/components/MediaInputHandlers.jsx:161 | A candidate id is exactly 11 characters from `[A-Za-z0-9_-]` |
| MediaInputs.FindVideoIdFromSpec | src/components/MediaInputHandlers.jsx:161-162 | The scan finds an id iff some marker at or after q is followed by 11 id characters, and it returns the leftmost such id |
| MediaInputs.FindVideoId | src/components/MediaInputHandlers.jsx:161-168 | A URL is accepted iff some marker occurrence is followed by 11 id characters; the id is those characters at the leftmost such occurrence |
| MediaInputs.YouTubeRegexAccepts | src/components/MediaInputHandlers.jsx:161 | The full regex, with its optional scheme and `www.` prefix and trailing `\S+`, captures exactly what the marker scan finds |
| MediaInputs.RegexMatchFromIsFind | src/components/MediaInputHandlers.jsx:161-162 | From any start position, the leftmost regex match and the marker scan agree |
| MediaInputs.YouTubeIframeAttrs | src/components/MediaInputHandlers.jsx:173-183 | Of the attributes the handler passes to `insertContent`, `src` is the embed URL of the video id and `data-media-id`/`data-youtube-id` are the media id and the video id; the iframe node keeps only its six declared attributes (see Left out) |
| MediaInputs.YouTubeEffect | src/components/MediaInputHandlers.jsx:160-196 | An iframe is inserted iff the URL matches. A URL that does not match changes nothing and is reported as invalid |
| MediaInputs.YouTubeEffectSpec | src/components/MediaInputHandlers.jsx:160-196 | An invalid URL changes nothing and is rejected. For a valid one the iframe is always inserted. A refused record write leaves the store as it was; otherwise the `youtube` record is stored under the media id the handler passes as the iframe's `data-media-id`. The id is appended only when both writes fit and the index is readable, and each failure is reported |
| MediaInputs.InsertYouTube | src/components/MediaInputHandlers.jsx:160-196 | Against the live store, the YouTube handler gives the state and outcome of `YouTubeEffect` |
| MediaInputs.HtmlEffect | src/components/MediaInputHandlers.jsx:254-284 | Code that is blank under JavaScript `trim` (any Unicode white space) is rejected with nothing stored. Otherwise an `html` record with the trimmed code is stored as `Store` says, and the code as typed is inserted iff both writes fit and the index is readable |
| MediaInputs.InsertHtml | src/components/MediaInputHandlers.jsx:254-284 | Against the live store, the HTML handler gives the state and outcome of `HtmlEffect` |
| MediaInputs.DigitValue | src/components/MediaInputHandlers.jsx:546 | The value `parseInt` gives a digit character |
| MediaInputs.HexRun | src/components/MediaInputHandlers.jsx:546 | The run of hexadecimal digits read after a `0x` prefix |
| MediaInputs.DecimalRun | src/components/MediaInputHandlers.jsx:546 | The leading run of decimal digits `parseInt` reads |
| MediaInputs.ParseIntOfDigits | src/components/MediaInputHandlers.jsx:546 | `parseInt` of a digit string is its decimal value |
| MediaInputs.ParseInt | src/components/MediaInputHandlers.jsx:546 | `parseInt` after leading white space is NaN for empty input or a first character that is not a sign or digit. A leading non-zero digit gives a number. A negative result needs a leading `-` |
| MediaInputs.ParseIntOfDecimal | src/components/MediaInputHandlers.jsx:546 | `parseInt` inverts decimal printing |
| MediaInputs.ParseIntReadsHex | src/components/MediaInputHandlers.jsx:546 | `parseInt("0x1F")` is 31: a hex prefix is honoured |
| MediaInputs.PicsumMatchFrom | src/components/MediaInputHandlers.jsx:532 | `picsum\.photos\/id\/(\d+)` matches iff the marker occurs followed by a digit, and it captures an all-digit run that follows the marker |
| MediaInputs.PicsumRawId | src/components/MediaInputHandlers.jsx:532-544 | The raw id is the URL capture when there is one. Otherwise it is the first `/` part when there are 1 or 3 parts, and there is none for any other count |
| MediaInputs.CheckPicsumId | src/components/MediaInputHandlers.jsx:546-551 | An id is accepted iff `parseInt` gives a number in 0..1084, and the URL is `https://picsum.photos/id/<raw id>/800/600` |
| MediaInputs.PicsumRequest | src/components/MediaInputHandlers.jsx:521-551 | Blank input is rejected as empty, and a missing raw id as a bad format. Otherwise the result is the range check of the raw id of the trimmed input; an accepted URL is built from that id |
| MediaInputs.PicsumByRawId | src/components/MediaInputHandlers.jsx:521-551 | A trimmed, non-empty input with a raw id is decided by the range check on that id |
| MediaInputs.PicsumPlainIds | src/components/MediaInputHandlers.jsx:536-551 | A plain number is accepted iff it is at most 1084 |
| MediaInputs.PicsumIgnoresSizes | src/components/MediaInputHandlers.jsx:539-540 | `id/width/height` input uses the id and ignores the sizes |
| MediaInputs.PicsumRejectsTwoParts | src/components/MediaInputHandlers.jsx:541-543 | Two `/`-separated parts are rejected as a bad format |
| MediaInputs.PicsumAcceptsUrl | src/components/MediaInputHandlers.jsx:532-534 | A `https://picsum.photos/id/<n>` URL in range is accepted with id n |
| MediaInputs.SizesGoToCheck | src/components/MediaInputHandlers.jsx:536-546 | Three digit parts go to the range check with the first part |
| MediaInputs.PlainIdGoesToCheck | src/components/MediaInputHandlers.jsx:536-546 | One digit part goes to the range check as it is |
| MediaInputs.UrlGoesToCheck | src/components/MediaInputHandlers.jsx:532-546 | A picsum URL goes to the range check with the captured digits |
| PhotoStore.PhotoKeysDisjoint | src/utils/imageStorage.js:21 | `ghost_image_<id>` keys are injective and never collide with the media store's record or index keys |
| PhotoStore.GenerateId | src/utils/imageStorage.js:3 | Ids start with `img_` |
| PhotoStore.GenerateIdInjective | src/utils/imageStorage.js:3 | Two generated ids are equal iff their milliseconds and suffixes are |
| PhotoStore.Fetch | src/utils/imageStorage.js:33-41 | `getImage` gives the record iff the key holds a parsable record, and `null` otherwise |
| PhotoStore.Write | src/utils/imageStorage.js:20-26 | A successful write adds exactly the record's key and makes it fetchable; a failed write changes nothing; other ids are untouched |
| PhotoStore.Remove | src/utils/imageStorage.js:43-50 | Removal deletes only that key |
| PhotoStore.WriteThenRemove | src/utils/imageStorage.js:20-50 | Writing a fresh id and then removing it restores the store |
| PhotoStore.WritesKeepKeys | src/utils/imageStorage.js:11-21 | Every stored record keeps `id` equal to its key suffix |
| PhotoStore.PhotoStorage.constructor | src/utils/imageStorage.js:1 | An empty store |
| PhotoStore.PhotoStorage.StoreImage | src/utils/imageStorage.js:6-31 | Builds `{id, data, name, size, type, timestamp}` under a generated id, writes it, and resolves with it iff the write succeeds; no index is kept |
| PhotoStore.PhotoStorage.GetImage | src/utils/imageStorage.js:33-41 | Returns `Fetch`; a result's id is the requested id |
| PhotoStore.PhotoStorage.DeleteImage | src/utils/imageStorage.js:43-50 | The new map is `Remove` of the old one |
| PostsSlice.Normalised | src/store/postsSlice.js:22 | `imageIds` defaults to `[]`; the rest of the payload and any present `imageIds` are kept |
| PostsSlice.WithAdded | src/store/postsSlice.js:17-25 | `addPost` adds one post in front of the unchanged list. It is the payload with both times stamped and `imageIds` defaulted, all other fields kept |
| PostsSlice.WithoutId | src/store/postsSlice.js:36-38 | `deletePost` leaves no post with the id, keeps exactly the other posts and never grows the list |
| PostsSlice.FindIndex | src/store/postsSlice.js:27 | `findIndex` is -1 iff no post has the id, and otherwise the first index that has it |
| PostsSlice.WithUpdated | src/store/postsSlice.js:26-35 | `updatePost` keeps the length and the ids, and changes nothing without a match. The first match becomes the payload itself, stamped and normalised, with nothing merged from the old post; every other position is unchanged |
| PostsSlice.CurrentPost | src/store/postsSlice.js:39-44 | A missing payload gives `null`; any other is normalised |
| PostsSlice.AddPostAtFront | src/store/postsSlice.js:17-25 | `addPost` puts the stamped, normalised payload at index 0, with the previous posts after it in order |
| PostsSlice.AddPostDuplicates | src/store/postsSlice.js:17-25 | `addPost` does not check ids: each add makes one more post with that id |
| PostsSlice.UpdateAfterAdd | src/store/postsSlice.js:17-34 | Updating a just-added post rewrites the front with the new payload, not a merge, and leaves the rest as it was |
| PostsSlice.UpdateKeepsCounts | src/store/postsSlice.js:26-35 | `updatePost` never changes how often an id occurs or where it is first found |
| PostsSlice.SameIds | src/store/postsSlice.js:27 | Lists with the same ids position by position agree on `findIndex` and on counts |
| PostsSlice.DeletePostSpec | src/store/postsSlice.js:36-38 | `deletePost` keeps exactly the posts without the id, removes as many posts as had it, and keeps the order |
| PostsSlice.DeletePostIdempotent | src/store/postsSlice.js:36-38 | Deleting twice is deleting once, and deleting an absent id changes nothing |
| PostsSlice.DeleteAfterAdd | src/store/postsSlice.js:17-38 | Deleting the id of a just-added post undoes the add, along with any older copies of that id |
| PostsSlice.PostsStore.constructor | src/store/postsSlice.js:3-8 | The initial state: no posts, no current post, not loading, never saved |
| PostsSlice.PostsStore.SetPosts | src/store/postsSlice.js:14-16 | Replaces `posts` only |
| PostsSlice.PostsStore.AddPost | src/store/postsSlice.js:17-25 | The new state is the old one with `posts` as `addPost` leaves them |
| PostsSlice.PostsStore.UpdatePost | src/store/postsSlice.js:26-35 | The new state is the old one with `posts` as `updatePost` leaves them |
| PostsSlice.PostsStore.DeletePost | src/store/postsSlice.js:36-38 | The new state is the old one with `posts` filtered by id |
| PostsSlice.PostsStore.SetCurrentPost | src/store/postsSlice.js:39-44 | Replaces `currentPost` only |
| PostsSlice.PostsStore.SetLoading | src/store/postsSlice.js:45-47 | Replaces `isLoading` only |
| PostsSlice.PostsStore.SetLastSaved | src/store/postsSlice.js:48-50 | Replaces `lastSaved` only |
| BlogEditor.RunEnd | src/components/BlogEditor.jsx:23 | The `[^&\n?#]+` run ends at the first `&`, newline, `?` or `#`, or at the end |
| BlogEditor.LooseIdAt | src/components/BlogEditor.jsx:23 | A loose id follows a YouTube marker and is a non-empty run without stop characters |
| BlogEditor.FindLooseIdFromSpec | src/components/BlogEditor.jsx:23 | The scan finds a loose id iff one exists at or after q, and it returns the leftmost |
| BlogEditor.EmbedSrc | src/components/BlogEditor.jsx:22-39 | `createYouTubeEmbed` gives `null` iff no marker is followed by a non-stop character (so always when no marker occurs). Otherwise it gives the embed base followed by the run after the leftmost such marker |
| BlogEditor.EmbedSrcTakesRunAfterMarker | src/components/BlogEditor.jsx:22-29 | For `youtu.be/<id><rest>`, the src is the embed base plus everything up to the first stop character |
| BlogEditor.StrictIdIsPrefixOfLoose | src/components/BlogEditor.jsx:23 | Where the strict 11-character id matches, the loose run matches too and starts with it |
| BlogEditor.StrictAcceptedIsEmbedded | src/components/BlogEditor.jsx:22-24 | Every URL the input handler accepts also yields an embed |
| BlogEditor.AttrOr | src/components/BlogEditor.jsx:47-68 | An attribute is read from the element, or its default when absent |
| BlogEditor.ParseIframe | src/components/BlogEditor.jsx:70-76 | Every `iframe` element is parsed, and only those; a bare one gets the schema defaults (`frameborder` 0, `allowfullscreen` true) |
| BlogEditor.RenderIframe | src/components/BlogEditor.jsx:78-80 | Renders an `iframe` that always carries `frameborder` and `allowfullscreen` |
| BlogEditor.IframeRoundTrip | src/components/BlogEditor.jsx:47-80 | Parsing a rendered iframe gives its attributes back |
| BlogEditor.Excerpt | src/components/BlogEditor.jsx:157-158 | The excerpt is '' iff the text is empty, and otherwise the first min(\|text\|, 160) characters plus '...', so at most 163 long |
| BlogEditor.AutosaveTitle | src/components/BlogEditor.jsx:162 | `title \|\| 'Untitled Post'`: a non-empty title is kept as it is |
| BlogEditor.PublishTitle | src/components/BlogEditor.jsx:525 | The trimmed title, or 'Untitled Post' when the title is blank under JavaScript `trim` (any Unicode white space or line terminator); never blank |
| BlogEditor.WideSpaceTitleIsUntitled | src/components/BlogEditor.jsx:525 | A title of an em space, an ideographic space and a byte order mark is published as 'Untitled Post', while autosave keeps it |
| BlogEditor.TitleDefaultsDiffer | src/components/BlogEditor.jsx:525 | An all-whitespace title survives autosave but becomes 'Untitled Post' on publish |
| BlogEditor.SavedPost | src/components/BlogEditor.jsx:160-166 | The autosaved post takes the new title, content, excerpt and time. Every other field of the current post (id, status, creation time, cover, tags, image ids) is kept by the spread |
| BlogEditor.AddOrUpdate | src/components/BlogEditor.jsx:172-181 | Adds the post when no post has its id, and otherwise updates it |
| BlogEditor.AddOrUpdateLands | src/components/BlogEditor.jsx:172-181 | Afterwards the first post with the id carries the new fields; the id occurs once more only when it was absent |
| BlogEditor.AutosaveEffect | src/components/BlogEditor.jsx:155-189 | No save means no change. A save sets `lastSaved`; a new post is added or updated, and an existing post is updated |
| BlogEditor.AutosaveNewPost | src/components/BlogEditor.jsx:170-183 | A saved new post is findable by id with the autosave fields, and saving it again makes no second copy |
| BlogEditor.AutosaveExistingPost | src/components/BlogEditor.jsx:184-187 | Saving an existing post keeps the list's length and ids, and still sets `lastSaved` when the post is not in the list |
| BlogEditor.Autosave | src/components/BlogEditor.jsx:155-189 | The dispatches leave the store in the state `AutosaveEffect` gives |
| BlogEditor.DebouncedGate | src/components/BlogEditor.jsx:308-319 | Nothing is saved before initialisation. A new post needs a title and a text that are non-blank under JavaScript `trim`, and an existing post is always saved |
| BlogEditor.Gate | src/components/BlogEditor.jsx:310-315 | The typing timeout saves iff the editor is initialised and either the trimmed title and text are both non-empty or the post is not new |
| BlogEditor.TitleTimeoutMatchesTyping | src/components/BlogEditor.jsx:509-519 | The title-change timeout skips the `isInitialized` test, but `autosave` makes it itself, so it has the effect of the typing timeout |
| BlogEditor.TypingTimeout | src/components/BlogEditor.jsx:308-319 | The typing timeout's body leaves the store in the state the gate and autosave give |
| BlogEditor.PublishEffect | src/components/BlogEditor.jsx:523-554 | Publishing happens and navigates iff there is a current post and an editor. It adds or updates the published post and sets `lastSaved`; otherwise nothing changes |
| BlogEditor.PublishLands | src/components/BlogEditor.jsx:530-547 | After publishing, the first post with the id is 'published' with a non-blank title, and an existing post is not duplicated |
| BlogEditor.Publish | src/components/BlogEditor.jsx:523-554 | The dispatches and the navigation flag are those of `PublishEffect` |
| BlogEditor.EscapeAsWritten | src/components/BlogEditor.jsx:436 | The escape as written leaves no raw `"` in the attribute value, and for a snippet without `&` it is the corrected escape, so the value reads back as the snippet |
| BlogEditor.EscapeAsWrittenCons | src/components/BlogEditor.jsx:436 | Each `"` becomes `&quot;` and every other character is kept, in order |
| BlogEditor.EscapeAsWrittenDecodesReferences | src/components/BlogEditor.jsx:436 | The attribute as written reads back as the snippet with its own `&quot;` and `&amp;` references decoded |
| BlogEditor.EscapeAsWrittenLosesReferences | src/components/BlogEditor.jsx:436 | As written, data `&amp;` is read back as `&` |
| BlogEditor.Escape | src/components/BlogEditor.jsx:436 | The corrected escape also leaves no raw `"` |
| BlogEditor.EscapeRoundTrip | src/components/BlogEditor.jsx:436 | With `&` escaped first, every snippet reads back exactly |
| BlogEditor.EscapeCons | src/components/BlogEditor.jsx:436 | The corrected escape rewrites each character on its own: `&` to `&amp;`, `"` to `&quot;`, anything else to itself |
| BlogEditor.RawHtmlWrapperAsWritten | src/components/BlogEditor.jsx:432-436 | The wrapper as written: nothing for empty data, otherwise the wrapper `div` whose attribute value has no raw `"` and reads back as the data with its own references decoded, which is the data itself when it holds no `&` |
| BlogEditor.DecodeCons | src/components/BlogEditor.jsx:436 | An attribute reader turns each escaped character back into that character and then reads the rest independently |
| BlogEditor.RawHtmlWrapper | src/components/BlogEditor.jsx:432-436 | The corrected wrapper (escaping `&` first): empty data inserts nothing. Otherwise the wrapper is `<div data-raw-html="true" data-html-content="…">`, whose value has no raw `"` and decodes to the data |
| BlogEditor.CoverEffect | src/components/BlogEditor.jsx:577-598 | A cover upload is rejected iff the file is over 5 MiB or not an image, and then the cover is unchanged; an accepted file becomes the cover |
| RawHtml.ParseRawHtml | src/extensions/RawHTMLExtension.js:20-29 | Only a `div` with `data-raw-html` is parsed, and its `htmlContent` is the `data-html-content` attribute |
| RawHtml.HtmlContentAttrs | src/extensions/RawHTMLExtension.js:13-15 | The attribute-level render emits no `data-html-content` |
| RawHtml.RenderRawHtml | src/extensions/RawHTMLExtension.js:31-33 | Renders a `div` with `data-raw-html="true"` whose `data-html-content` is the node's content; the content hole is not modelled (see Left out) |
| RawHtml.RawHtmlRoundTrip | src/extensions/RawHTMLExtension.js:20-33 | Parsing a rendered node gives the node back |
| RawHtml.WrapperParsesBack | src/extensions/RawHTMLExtension.js:23-26 | With the corrected escape, the wrapper parses into a node holding the original snippet |
| RawHtml.WrapperAsWrittenLosesReference | src/extensions/RawHTMLExtension.js:23-26 | With the escape as written, the wrapper for the snippet `&amp;` parses into a node holding `&` |
| Bookmark.ParseBookmark | src/extensions/BookmarkExtension.js:35-41 | Only a `div` with `data-bookmark` is parsed; with no other attributes every field is `null` |
| Dom.SetOpt | src/extensions/BookmarkExtension.js:43-45 | A set attribute is written and a `null` one left out, with the others unchanged |
| Bookmark.RenderBookmark | src/extensions/BookmarkExtension.js:43-45 | Renders a `div` carrying `data-bookmark=""` |
| Bookmark.BookmarkRoundTrip | src/extensions/BookmarkExtension.js:12-45 | Every rendered bookmark is matched by the parser again, with the same six attributes |
| Bookmark.SetBookmark | src/extensions/BookmarkExtension.js:53-57 | `setBookmark` makes one `bookmark` node whose attributes are exactly the options |
| Bookmark.SetBookmarkSurvivesHtml | src/extensions/BookmarkExtension.js:43-57 | An inserted bookmark renders to markup that parses back to its options |
| StyledParagraph.ParseParagraph | src/extensions/StyledParagraph.js:18-28 | A `p` is parsed; a truthy style attribute becomes the style, otherwise there is none |
| StyledParagraph.RenderParagraph | src/extensions/StyledParagraph.js:10-13 | The style attribute is emitted unchanged iff the style is truthy |
| StyledParagraph.ParagraphRoundTrip | src/extensions/StyledParagraph.js:9-31 | Render then parse gives the style back, and an empty style as none |
| StyledParagraph.Declaration | src/extensions/StyledParagraph.js:43-44 | A declaration it keeps has a non-empty property and value, neither containing ':'. Which declaration each piece makes is stated by `DeclarationOfPair`, `DeclarationDropsThirdPiece` and `DeclarationWithoutColon` |
| StyledParagraph.DeclarationsOf | src/extensions/StyledParagraph.js:42-47 | The declarations applied, in order, at most one per piece |
| StyledParagraph.DeclarationDropsThirdPiece | src/extensions/StyledParagraph.js:43-44 | `p:v:w` declares exactly what `p:v` does: text after a second ':' is dropped |
| StyledParagraph.DeclarationOfPair | src/extensions/StyledParagraph.js:43-44 | `p:v` declares the trimmed property as the trimmed value exactly when both are non-empty, and declares nothing otherwise |
| StyledParagraph.DeclarationWithoutColon | src/extensions/StyledParagraph.js:43-44 | A piece without ':' has no value and declares nothing |
| StyledParagraph.SpacedDeclaration | src/extensions/StyledParagraph.js:43-45 | The everyday form `property: value` (as in `color: red`) forces that property to that value |
| StyledParagraph.DeclarationsSplit | src/extensions/StyledParagraph.js:42 | Declarations of `a;b` are those of `a` followed by those of `b` |
| StyledParagraph.ForcedKeys | src/extensions/StyledParagraph.js:45 | A property is forced iff some applied declaration names it |
| StyledParagraph.ForcedLastWins | src/extensions/StyledParagraph.js:45 | A later declaration of the same property overrides an earlier one |
| StyledParagraph.Shown | src/extensions/StyledParagraph.js:38-48 | A truthy style is set as the attribute; otherwise the paragraph shows no style |
| StyledParagraph.UpdateAsWritten | src/extensions/StyledParagraph.js:53-70 | As written, `update` always returns true and restyles only when the new style differs from the creation-time style |
| StyledParagraph.UpdateAsWrittenKeepsStaleStyle | src/extensions/StyledParagraph.js:55 | As written, styles A then B then A leave B on screen |
| StyledParagraph.UpdateView | src/extensions/StyledParagraph.js:53-70 | The corrected `update` always returns true, and afterwards the paragraph shows the new style |
| StyledParagraph.UpdatesTrackLastStyle | src/extensions/StyledParagraph.js:53-70 | After any sequence of corrected updates the paragraph shows the last style |
| StyledParagraph.ParagraphView.constructor | src/extensions/StyledParagraph.js:35-48 | A new view shows the node's style |
| StyledParagraph.ParagraphView.ApplyStyle | src/extensions/StyledParagraph.js:40-47 | Sets the attribute, and the `forEach` loop forces exactly the declarations of the style, later ones winning |
| StyledParagraph.ParagraphView.Update | src/extensions/StyledParagraph.js:53-70 | The corrected `update` (comparing with the style shown now): the view changes as `UpdateView` says, and an empty style removes the attribute |
| Metadata.BaseMapping | src/utils/metadataFetcher.js:118-164 | A mapped hostname gets its entry; any other hostname gets itself as title and 'Visit <host> for more information' |
| Metadata.InheritedHostHasNoTitle | src/utils/metadataFetcher.js:161 | As written, a hostname naming an inherited member (`constructor`, or an opaque host such as `toString`) is not a mapped hostname, hits that member, and gets no title or description, where the own-entry lookup gives it itself as title |
| Metadata.BaseMappingAgrees | src/utils/metadataFetcher.js:161-164 | For any hostname that names none of the twelve members an object literal inherits from `Object.prototype`, the lookup as written agrees with the own-entry lookup |
| Metadata.BaseMappingAsWritten | src/utils/metadataFetcher.js:161-164 | As written, exactly the hostnames naming a member inherited from `Object.prototype` (`constructor`, `__proto__`, `toString`, `toLocaleString`, `valueOf`, `hasOwnProperty`, `isPrototypeOf`, `propertyIsEnumerable` and the four `__define…__`/`__lookup…__` accessors) get no title or description. Any other unmapped hostname gets itself as title and 'Visit <host> for more information' |
| Metadata.Capitalise | src/utils/metadataFetcher.js:176 | Upper-cases exactly the word characters at a word start |
| Metadata.CapitaliseIdempotent | src/utils/metadataFetcher.js:176 | Capitalising twice is capitalising once |
| Metadata.CleanTitle | src/utils/metadataFetcher.js:173-176 | The cleaned segment has the same length and no '-' or '_' |
| Metadata.NonEmpty | src/utils/metadataFetcher.js:170 | Keeps exactly the non-empty path parts |
| Metadata.PathTitleLastSegment | src/utils/metadataFetcher.js:168-181 | For `<dir>/<seg>` with or without a trailing '/', the title is '<clean seg> - <base>' when seg is longer than 3, and the base otherwise |
| Metadata.EnhancedFallback | src/utils/metadataFetcher.js:117-194 | The fallback has the sz=64 and sz=16 favicon URLs, the domain as site, the input URL, the mapping's description, and the base title for '' or '/' |
| Metadata.ExactHostnameOnly | src/utils/metadataFetcher.js:118-164 | `github.com` is mapped and `www.github.com` is not |
| Metadata.FirstTruthy | src/utils/metadataFetcher.js:23-35 | Picks the first present, non-empty candidate, or the fallback when there is none |
| Metadata.Prefix | src/utils/metadataFetcher.js:37-38 | `substring(0, n)` keeps at most n characters, and short strings whole |
| Metadata.Scraped | src/utils/metadataFetcher.js:23-47 | The first proxy's title is at most 100 characters and its description at most 200; og:title wins when present |
| Metadata.ScrapedAlt | src/utils/metadataFetcher.js:67-88 | The same bounds hold for the second proxy |
| Metadata.ScrapedAltIgnoresTwitter | src/utils/metadataFetcher.js:67-76 | The second proxy reads no Twitter tags |
| Metadata.ScrapedUntitledPage | src/utils/metadataFetcher.js:23-26 | A page without title tags is titled 'Content from <domain>' |
| Metadata.ErrorFallback | src/utils/metadataFetcher.js:100-113 | The outer `catch` record for a given hostname: the favicon URLs, the domain as site, and the input URL |
| PostsList.Filter | src/components/PostsList.jsx:51-63 | A post is listed iff it matches the query |
| PostsList.MatchesIffOccurs | src/components/PostsList.jsx:51-62 | A post is listed iff the lower-cased query occurs in one of its lower-cased fields: title, excerpt, content or a tag |
| PostsList.QueryCaseIgnored | src/components/PostsList.jsx:58-61 | The search ignores the case of the query |
| PostsList.FilterKeepsOrder | src/components/PostsList.jsx:51 | The filter keeps the store's order |
| PostsList.EmptyQueryListsAll | src/components/PostsList.jsx:51-62 | The empty query lists every post, even one without a title, excerpt, content or tags |
| PostsList.FilterIgnoresQueryCase | src/components/PostsList.jsx:57-61 | Lower-casing the query changes nothing |
| PostsList.RelativeTime | src/components/PostsList.jsx:13-37 | A missing or invalid date is 'Unknown'. Under a minute (or in the future) is 'Just now'. Each other label's number is the floored minutes, hours or days, within the bucket's bounds; a week or more is a calendar date |
| PostsList.FloorBounds | src/components/PostsList.jsx:22-25 | Flooring minutes, then hours, then days equals flooring the difference by an hour and by a day |
| PostsList.LabelText | src/components/PostsList.jsx:14-36 | Each label's text: 'Unknown', 'Just now', 'N minutes ago', 'N hours ago', 'N days ago', or the calendar date |
| PostsList.RelativeTimeCounts | src/components/PostsList.jsx:22-30 | Within the first week, the minutes, hours and days of the label are the elapsed milliseconds floor-divided by the unit |
| PostsList.LabelTextNamesElapsed | src/components/PostsList.jsx:22-36 | The text shown for each elapsed time: 'Just now' under a minute, then minutes, hours and days as floored counts, and the calendar date from a week on |
| PostsList.NinetySecondsAgo | src/components/PostsList.jsx:27-28 | Ninety seconds ago is '1 minutes ago' |
| PostsList.ShownDate | src/components/PostsList.jsx:158 | The list shows `updatedAt`, else `createdAt`, else now, so the date is never missing |
| PostsList.StripTags | src/components/PostsList.jsx:153 | Removing `<[^>]*>` shortens the text, adds no characters, and leaves no `<` followed later by `>` |
| PostsList.StripTagsPlainText | src/components/PostsList.jsx:153 | Text without '<' is shown unchanged |
| PostsList.StripTagsDropsTag | src/components/PostsList.jsx:153 | A tag after plain text is dropped, and the text on both sides is kept |
| PostsList.Preview | src/components/PostsList.jsx:153 | Missing or empty content shows 'No content available'; other content is shown without its tags |
| PostsList.EmptyParagraphPreview | src/components/PostsList.jsx:153 | The content `<p></p>` previews as blank, not as 'No content available' |
| PostsList.OpenDelete | src/components/PostsList.jsx:73-80 | The dialog opens on the id, with the first matching post's title, or 'Untitled Post' when none matches |
| PostsList.ConfirmDelete | src/components/PostsList.jsx:82-91 | The dialog closes; posts with the id are deleted iff the id is truthy (set and not 0) |
| PostsList.CancelDelete | src/components/PostsList.jsx:93-99 | The dialog closes with no post id and an empty title; this is the dialog state that confirming leaves too |
| PostsList.OpenThenConfirm | src/components/PostsList.jsx:73-91 | Opening on a non-zero id and confirming removes exactly the posts with that id, keeps the rest in order, and touches no other field |
| PostsList.ZeroIdIsKept | src/components/PostsList.jsx:83 | An id of 0 is falsy, so confirming never deletes such a post |

## Left out

- `FileReader` reads and their `onerror` paths: a read is given as its resulting data URL.
- `Date.now`, `Math.random`, `new Date().toISOString()` and `navigate('/')`: ids, timestamps and the navigation flag are inputs or outputs. Where the source reads the clock several times in one handler, the model uses one reading.
- `JSON.parse`/`JSON.stringify`: a stored value is a record or unparsable, and the index is a list or unreadable. A missing index reads as `[]`, as every reader defaults it.
- The proxy fetches and `DOMParser` scraping of `fetchMetadata`: the page's tags, the hostname and the pathname are inputs. A path that `new URL` rejects is not modelled.
- Metadata.EnhancedFallback: models the own-entry lookup. The as-written inherited lookup, and its write of `title` onto a shared object that later calls would see, appear only in `Metadata.BaseMappingAsWritten`.
- Metadata.Capitalise: upper-cases ASCII letters only, like every case mapping in the model.
- PostsList.MatchesIffOccurs: `toLowerCase` is ASCII-only.
- Metadata.ErrorFallback: the outer `catch` of `fetchMetadata` is entered only when `new URL(url)` throws, and then its own `new URL(url)` throws again, so the record is never returned. The model gives the record for a hostname, and the rejected promise is not modelled.
- PostsList.RelativeTime: does not parse date strings; `new Date(s)` is the input, and `toLocaleDateString` is the opaque `calendar` text.
- Throttling (`throttle(2000, …)`), `setTimeout` delays and React effect ordering: only the decision made when a timer fires is modelled.
- The editor's load effect, which fills the title, content and cover from the store (src/components/BlogEditor.jsx:110-146).
- Selection, toolbar, scrolling and modal UI.
- The inline key-handler script of the YouTube placeholder.
- The Picsum image-load probe and its fallback chain.
- The bookmark loading placeholder flow.
- Tiptap internals: `getHTML`/`getText`, `insertContent`, `mergeAttributes`, and the coercion of attribute values from strings. Parsing and rendering are modelled over elements given as a tag plus an attribute map.
- The DOM node views of the raw-HTML node and the bookmark.
- The styled paragraph's node view is modelled as a class whose fields hold the style attribute and the forced properties. Setting or removing the `style` attribute replaces or clears those properties, as it does in the DOM; the rest of a real element is not modelled.
- RawHtml.RenderRawHtml: drops the `0` content hole that `renderHTML` returns (src/extensions/RawHTMLExtension.js:32) for a node declared `atom` with no `content` (:5-6), which makes it a leaf. ProseMirror's serialiser rejects a content hole in a leaf node's render spec, so `getHTML()` may throw whenever the document holds a raw-HTML node, and autosave and publish both call it. The serialiser is not part of this model, so `RawHtml.RawHtmlRoundTrip` states the round trip of the render without the hole, which the program may never reach.
- The `data-*` attributes the handlers pass to `setImage` and `insertContent` (src/components/MediaInputHandlers.jsx:99-100 and :180-182, and the Picsum `<img>` markup at :557 and :608) are dropped by the editor: the Image node is configured with no extra attributes (src/components/BlogEditor.jsx:271-275) and the iframe node declares only `src`, `width`, `height`, `frameborder`, `allowfullscreen` and `class` (src/components/BlogEditor.jsx:47-68). So `data-image-id`, `data-image-name`, `data-media-id`, `data-media-type` and `data-youtube-id` never reach the document or `getHTML()`. The model's handlers state what is passed, not what the schema keeps. One consequence is that `cleanupUnusedImages`, which nothing in the program calls, would delete every indexed record when run on the editor's HTML (`MediaStore.CleanupWithoutImageIdsDeletesIndexed`).
- HTML attribute decoding covers only `&quot;` and `&amp;`, the two references the wrapper can produce or meet.
- JavaScript strings are UTF-16; the model counts characters, so lengths (160, 100, 200) are in characters.
- The sync of posts to `ghostBlogPosts` in src/components/GhostBlogEditor.jsx is persistence glue and is not part of this model.
- The `window.prompt` variants of the handlers are modelled together with the modal variants. They accept the same inputs and store the same records; only how a failure surfaces (alert or thrown error) differs.

## Findings

| source | as written | input that shows it | evidently intended | confidence | as-written member | corrected member |
|---|---|---|---|---|---|---|
| src/components/BlogEditor.jsx:436 | Only `"` is escaped into `&quot;`; `&` is left as it is | the snippet `&amp;` (or `<a title="&quot;x&quot;">`) is read back from `data-html-content` as `&` (or with raw quotes) | escape `&` first, then `"`, so that the attribute decodes to the snippet | high; not executed | BlogEditor.EscapeAsWrittenLosesReferences | BlogEditor.EscapeRoundTrip |
| src/extensions/StyledParagraph.js:55 | `update` compares the new style with the style the node had when the view was created | style `color: red`, then `color: blue`, then `color: red`: the last update is skipped and blue stays on screen | compare with the style currently shown | high; not executed | StyledParagraph.UpdateAsWrittenKeepsStaleStyle | StyledParagraph.UpdatesTrackLastStyle |
| src/utils/metadataFetcher.js:161 | `domainMappings[domain]` also finds members inherited from `Object.prototype` | `http://constructor/`, or the opaque host of `foo://toString/` (which keeps its case), gives title and description `undefined` | look up the table's own entries only | medium; not executed | Metadata.InheritedHostHasNoTitle | Metadata.BaseMapping |

=== FILE: blog_editor.dfy ===
/**
 * The decisions src/components/BlogEditor.jsx makes around the Tiptap editor:
 * the YouTube embed built from a pasted URL, the `iframe` node schema, the
 * debounced autosave and its add-or-update choice, publishing, the raw-HTML
 * wrapper and the cover-image check. The editor is seen through its
 * `getHTML()` and `getText()` results, and every `new Date().toISOString()`
 * inside one handler is one clock reading `now`, all passed in.
 */
module BlogEditor {
  import opened Wrappers
  import opened Strings
  import opened PostsSlice
  import MediaStore
  import Dom
  import MediaInputs

  // ---------------------------------------------------------------------
  // createYouTubeEmbed
  // ---------------------------------------------------------------------

  /** The characters `[^&\n?#]` excludes. */
  predicate IsStopChar(c: char) {
    c == '&' || c == '\n' || c == '?' || c == '#'
  }

  /** The end of the run of non-stop characters that starts at `i`. */
  function RunEnd(s: string, i: nat): (j: nat)
    requires i <= |s|
    ensures i <= j <= |s|
    ensures forall k :: i <= k < j ==> !IsStopChar(s[k])
    ensures j < |s| ==> IsStopChar(s[j])
    decreases |s| - i
  {
    if i < |s| && !IsStopChar(s[i]) then RunEnd(s, i + 1) else i
  }

  /**
   * The capture of `(?:youtube\.com\/watch\?v=|youtu\.be\/|youtube\.com\/embed\/)([^&\n?#]+)`
   * when the match starts at `q`: the greedy, non-empty run of non-stop
   * characters after the marker.
   */
  function LooseIdAt(s: string, q: nat): (r: Option<string>)
    ensures r.Some? ==> |r.value| > 0 && forall k :: 0 <= k < |r.value| ==> !IsStopChar(r.value[k])
    ensures r.Some? ==> MediaInputs.MarkerEnd(s, q).Some?
  {
    match MediaInputs.MarkerEnd(s, q)
    case None => None
    case Some(e) =>
      var j := RunEnd(s, e);
      if e < j then Some(s[e..j]) else None
  }

  /** The leftmost match at or after `q`, as `String.prototype.match` finds it. */
  function FindLooseIdFrom(s: string, q: nat): (r: Option<string>)
    requires q <= |s|
    decreases |s| - q
  {
    if LooseIdAt(s, q).Some? then LooseIdAt(s, q)
    else if q == |s| then None
    else FindLooseIdFrom(s, q + 1)
  }

  /**
   * The scan from `q` finds a match iff one starts at or after `q`, and then
   * it is the capture of the leftmost one.
   */
  lemma {:induction false} FindLooseIdFromSpec(s: string, q: nat)
    requires q <= |s|
    ensures FindLooseIdFrom(s, q).Some? <==> exists j: nat :: q <= j && LooseIdAt(s, j).Some?
    ensures FindLooseIdFrom(s, q).Some? ==>
      exists j: nat :: q <= j && LooseIdAt(s, j) == FindLooseIdFrom(s, q) && forall i :: q <= i < j ==> LooseIdAt(s, i).None?
    decreases |s| - q
  {
    if LooseIdAt(s, q).Some? {
      assert LooseIdAt(s, q) == FindLooseIdFrom(s, q);
    } else if q == |s| {
      assert forall j: nat :: q <= j ==> LooseIdAt(s, j).None?;
    } else {
      FindLooseIdFromSpec(s, q + 1);
      assert FindLooseIdFrom(s, q) == FindLooseIdFrom(s, q + 1);
      forall j: nat | q <= j && LooseIdAt(s, j).Some?
        ensures q + 1 <= j
      {
      }
    }
  }

  /**
   * The `src` of the iframe `createYouTubeEmbed(url)` builds, or `None` for
   * its `null`. The markup around the iframe is constant text.
   */
  function EmbedSrc(url: string): (r: Option<string>)
    ensures r.None? <==> forall q: nat :: LooseIdAt(url, q).None?
    ensures (forall q: nat :: MediaInputs.MarkerEnd(url, q).None?) ==> r.None?
    ensures r.Some? ==> exists id :: r.value == MediaInputs.YouTubeEmbedBase + id && |id| > 0
    ensures r.Some? ==>
      exists q: nat :: LooseIdAt(url, q).Some? && (forall j: nat :: j < q ==> LooseIdAt(url, j).None?)
                       && r.value == MediaInputs.YouTubeEmbedBase + LooseIdAt(url, q).value
  {
    FindLooseIdFromSpec(url, 0);
    match FindLooseIdFrom(url, 0)
    case None => None
    case Some(id) => Some(MediaInputs.YouTubeEmbedBase + id)
  }

  /**
   * A URL whose first marker is the short `youtu.be/` one at the front embeds
   * the characters after it up to the first `&`, newline, `?` or `#`.
   */
  lemma EmbedSrcTakesRunAfterMarker(id: string, rest: string)
    requires |id| > 0 && forall k :: 0 <= k < |id| ==> !IsStopChar(id[k])
    requires rest == [] || IsStopChar(rest[0])
    ensures EmbedSrc(MediaInputs.ShortMarker + id + rest) == Some(MediaInputs.YouTubeEmbedBase + id)
  {
    var s := MediaInputs.ShortMarker + id + rest;
    var e := |MediaInputs.ShortMarker|;
    assert OccursAt(s, MediaInputs.ShortMarker, 0);
    assert !OccursAt(s, MediaInputs.WatchMarker, 0) by { assert s[5] == '.'; }
    assert MediaInputs.MarkerEnd(s, 0) == Some(e);
    assert forall k :: e <= k < e + |id| ==> s[k] == id[k - e];
    if e + |id| < |s| {
      assert s[e + |id|] == rest[0];
    }
    assert RunEnd(s, e) == e + |id|;
    assert s[e..e + |id|] == id;
    assert LooseIdAt(s, 0) == Some(id);
  }

  /**
   * The 11-character id the strict parser of the modal reads at a marker is a
   * prefix of what the editor's embed reads there.
   */
  lemma StrictIdIsPrefixOfLoose(s: string, q: nat)
    requires MediaInputs.VideoIdAt(s, q).Some?
    ensures LooseIdAt(s, q).Some?
    ensures MediaInputs.VideoIdAt(s, q).value <= LooseIdAt(s, q).value
  {
    var e := MediaInputs.MarkerEnd(s, q).value;
    var n := MediaInputs.VideoIdLength;
    assert forall k :: e <= k < e + n ==> MediaInputs.IsIdChar(s[k]);
  }

  /** Every URL the strict YouTube parser accepts also gets an embed. */
  lemma StrictAcceptedIsEmbedded(url: string)
    requires MediaInputs.FindVideoId(url).Some?
    ensures EmbedSrc(url).Some?
  {
    var q: nat :| MediaInputs.VideoIdAt(url, q).Some?;
    StrictIdIsPrefixOfLoose(url, q);
  }

  // ---------------------------------------------------------------------
  // IframeExtension
  // ---------------------------------------------------------------------

  const IframeName := "iframe"
  const IframeGroup := "block"
  const IframeIsAtom := true

  /**
   * The six iframe attributes. `frameborder` and `allowfullscreen` default
   * to the number 0 and `true`, held here as their attribute text.
   */
  datatype IframeAttrs = IframeAttrs(
    src: Option<string>, width: Option<string>, height: Option<string>,
    frameborder: string, allowfullscreen: string, cssClass: Option<string>)

  const DefaultIframe := IframeAttrs(None, None, None, "0", "true", None)

  /** An attribute read from the element, or its default when the element lacks it. */
  function AttrOr(e: Dom.Element, name: string, fallback: string): (r: string)
    ensures name in e.attrs ==> r == e.attrs[name]
    ensures name !in e.attrs ==> r == fallback
  {
    Dom.Attr(e, name).GetOr(fallback)
  }

  /** `parseHTML`: every `iframe` element, and nothing else, becomes an iframe node. */
  function ParseIframe(e: Dom.Element): (r: Option<IframeAttrs>)
    ensures r.Some? <==> e.tag == "iframe"
    ensures r.Some? && e.attrs == map[] ==> r.value == DefaultIframe
  {
    if e.tag == "iframe" then
      Some(IframeAttrs(Dom.Attr(e, "src"), Dom.Attr(e, "width"), Dom.Attr(e, "height"),
                       AttrOr(e, "frameborder", "0"), AttrOr(e, "allowfullscreen", "true"),
                       Dom.Attr(e, "class")))
    else None
  }

  /** `renderHTML`: an `iframe` element with every attribute that is set. */
  function RenderIframe(a: IframeAttrs): (e: Dom.Element)
    ensures e.tag == "iframe"
    ensures "frameborder" in e.attrs && "allowfullscreen" in e.attrs
  {
    var m0 := map["frameborder" := a.frameborder, "allowfullscreen" := a.allowfullscreen];
    var m1 := Dom.SetOpt(m0, "src", a.src);
    var m2 := Dom.SetOpt(m1, "width", a.width);
    var m3 := Dom.SetOpt(m2, "height", a.height);
    Dom.Element("iframe", Dom.SetOpt(m3, "class", a.cssClass))
  }

  /** Rendering an iframe node and parsing it back gives the same attributes. */
  lemma IframeRoundTrip(a: IframeAttrs)
    ensures ParseIframe(RenderIframe(a)) == Some(a)
  {
  }

  // ---------------------------------------------------------------------
  // Excerpt and titles
  // ---------------------------------------------------------------------

  const ExcerptLength: nat := 160
  const UntitledPost := "Untitled Post"

  /**
   * `getText().substring(0, 160)`, followed by '...' whenever it is
   * non-empty (even when nothing was cut), and '' for an empty text.
   */
  function Excerpt(text: string): (r: string)
    ensures |r| <= ExcerptLength + 3
    ensures r == [] <==> text == []
    ensures r != [] ==> |r| >= 4 && r[|r| - 3..] == "..." && r[..|r| - 3] <= text
    ensures r != [] ==> |r| - 3 == if |text| < ExcerptLength then |text| else ExcerptLength
  {
    var cut := if |text| <= ExcerptLength then text else text[..ExcerptLength];
    if |cut| > 0 then cut + "..." else ""
  }

  /** The autosave title: `title || 'Untitled Post'`. */
  function AutosaveTitle(title: string): (r: string)
    ensures r == UntitledPost <==> title == [] || title == UntitledPost
    ensures title != [] ==> r == title
  {
    if title == [] then UntitledPost else title
  }

  /** The publish title: `postTitle.trim() || 'Untitled Post'`; never blank. */
  function PublishTitle(title: string): (r: string)
    ensures !Blank(r)
    ensures Blank(title) ==> r == UntitledPost
    ensures !Blank(title) ==> r == Trim(title)
  {
    var t := Trim(title);
    TrimEmptyIffBlank(title);
    if t == [] then
      assert UntitledPost[0] == 'U';
      UntitledPost
    else
      assert !IsSpace(t[0]);
      t
  }

  /**
   * A title made only of white space is kept by autosave but replaced by
   * 'Untitled Post' on publish.
   */
  lemma TitleDefaultsDiffer(title: string)
    requires title != [] && Blank(title)
    ensures AutosaveTitle(title) == title
    ensures PublishTitle(title) == UntitledPost
    ensures AutosaveTitle(title) != PublishTitle(title)
  {
    assert UntitledPost[0] == 'U' && !IsSpace('U');
  }

  /**
   * `trim` removes every JavaScript white-space character, not only ASCII
   * ones: a title of an em space, an ideographic space and a byte order
   * mark is published as 'Untitled Post' although autosave keeps it.
   */
  lemma WideSpaceTitleIsUntitled()
    ensures PublishTitle("\U{2003}\U{3000}\U{FEFF}") == UntitledPost
    ensures AutosaveTitle("\U{2003}\U{3000}\U{FEFF}") == "\U{2003}\U{3000}\U{FEFF}"
  {
    TitleDefaultsDiffer("\U{2003}\U{3000}\U{FEFF}");
  }

  // ---------------------------------------------------------------------
  // Autosave
  // ---------------------------------------------------------------------

  /**
   * What the autosave closure sees: the current post, whether the editor
   * exists, the `isInitialized` flag and whether the route is `/new`.
   */
  datatype Session = Session(currentPost: Option<Post>, hasEditor: bool, isInitialized: bool, isNew: bool)

  /** `updatedPost`: the current post with the autosave title, content, excerpt and time. */
  function SavedPost(cur: Post, title: string, html: string, text: string, now: string): (p: Post)
    ensures p.id == cur.id && p.status == cur.status && p.createdAt == cur.createdAt
    ensures p.title == Some(AutosaveTitle(title)) && p.content == Some(html)
    ensures p.excerpt == Some(Excerpt(text)) && p.updatedAt == Some(now)
    ensures p.(title := cur.title, content := cur.content, excerpt := cur.excerpt, updatedAt := cur.updatedAt) == cur
  {
    cur.(title := Some(AutosaveTitle(title)), content := Some(html), excerpt := Some(Excerpt(text)), updatedAt := Some(now))
  }

  /** `addPost` when no post has the id, `updatePost` otherwise. */
  function AddOrUpdate(posts: seq<Post>, p: Post, now: string): (r: seq<Post>)
    ensures FindIndex(posts, p.id) == -1 ==> r == WithAdded(posts, p, now, now)
    ensures FindIndex(posts, p.id) != -1 ==> r == WithUpdated(posts, p, now)
  {
    if FindIndex(posts, p.id) == -1 then WithAdded(posts, p, now, now) else WithUpdated(posts, p, now)
  }

  /**
   * After `AddOrUpdate` the first post with the id is `p` (stamped and
   * normalised); the id occurs once more than before when it was absent and
   * as often as before otherwise.
   */
  lemma AddOrUpdateLands(posts: seq<Post>, p: Post, now: string)
    ensures var r := AddOrUpdate(posts, p, now);
      var i := FindIndex(r, p.id);
      i >= 0 && r[i].title == p.title && r[i].content == p.content
      && r[i].excerpt == p.excerpt && r[i].status == p.status && r[i].updatedAt == Some(now)
      && CountId(r, p.id) == if FindIndex(posts, p.id) == -1 then CountId(posts, p.id) + 1 else CountId(posts, p.id)
  {
    if FindIndex(posts, p.id) == -1 {
      AddPostAtFront(posts, p, now, now);
      AddPostDuplicates(posts, p, now, now);
    } else {
      UpdateKeepsCounts(posts, p, now, p.id);
    }
  }

  /** Whether a call of `autosave(title, html)` dispatches a save. */
  predicate Saves(ctx: Session, title: string, text: string) {
    ctx.currentPost.Some? && ctx.hasEditor && ctx.isInitialized
    && (!ctx.isNew || !Blank(title) || !Blank(text))
  }

  /**
   * The state after `autosave(title, html)` runs with editor text `text`: a
   * new post with real content is added (or updated once it exists), an
   * existing post is always updated, and `lastSaved` is set with every save.
   */
  function AutosaveEffect(s: Slice, ctx: Session, title: string, html: string, text: string, now: string): (r: Slice)
    ensures r.currentPost == s.currentPost && r.isLoading == s.isLoading
    ensures !Saves(ctx, title, text) ==> r == s
    ensures Saves(ctx, title, text) ==> r.lastSaved == Some(now)
    ensures Saves(ctx, title, text) && !ctx.isNew ==> r.posts == WithUpdated(s.posts, SavedPost(ctx.currentPost.value, title, html, text, now), now)
    ensures Saves(ctx, title, text) && ctx.isNew ==> r.posts == AddOrUpdate(s.posts, SavedPost(ctx.currentPost.value, title, html, text, now), now)
  {
    if ctx.currentPost.Some? && ctx.hasEditor && ctx.isInitialized then
      var updatedPost := SavedPost(ctx.currentPost.value, title, html, text, now);
      var hasRealContent := Trim(title) != [] || Trim(text) != [];
      TrimEmptyIffBlank(title);
      TrimEmptyIffBlank(text);
      if ctx.isNew then
        if hasRealContent then
          s.(posts := AddOrUpdate(s.posts, updatedPost, now), lastSaved := Some(now))
        else s
      else s.(posts := WithUpdated(s.posts, updatedPost, now), lastSaved := Some(now))
    else s
  }

  /**
   * A save of a new post leaves it findable by its id with the autosave
   * title, content and excerpt; saving it again updates it in place, so
   * repeated autosaves never make a second copy.
   */
  lemma AutosaveNewPost(s: Slice, ctx: Session, title: string, html: string, text: string, now: string, now2: string)
    requires Saves(ctx, title, text) && ctx.isNew
    ensures var id := ctx.currentPost.value.id;
      var r := AutosaveEffect(s, ctx, title, html, text, now);
      var i := FindIndex(r.posts, id);
      i >= 0 && r.posts[i].title == Some(AutosaveTitle(title)) && r.posts[i].content == Some(html)
      && r.posts[i].excerpt == Some(Excerpt(text))
      && CountId(AutosaveEffect(r, ctx, title, html, text, now2).posts, id) == CountId(r.posts, id)
  {
    var p := SavedPost(ctx.currentPost.value, title, html, text, now);
    AddOrUpdateLands(s.posts, p, now);
    var r := AutosaveEffect(s, ctx, title, html, text, now);
    var p2 := SavedPost(ctx.currentPost.value, title, html, text, now2);
    assert FindIndex(r.posts, p2.id) != -1;
    UpdateKeepsCounts(r.posts, p2, now2, p2.id);
  }

  /**
   * Autosave of an existing post only updates: the list keeps its length and
   * ids. When the post is not in the list nothing is stored, yet `lastSaved`
   * is still set.
   */
  lemma AutosaveExistingPost(s: Slice, ctx: Session, title: string, html: string, text: string, now: string)
    requires Saves(ctx, title, text) && !ctx.isNew
    ensures var r := AutosaveEffect(s, ctx, title, html, text, now);
      |r.posts| == |s.posts| && (forall k :: 0 <= k < |s.posts| ==> r.posts[k].id == s.posts[k].id)
      && (FindIndex(s.posts, ctx.currentPost.value.id) == -1 ==> r.posts == s.posts && r.lastSaved == Some(now))
  {
  }

  /** A mutable handle on the autosave: the dispatches one run makes, in order. */
  method Autosave(store: PostsStore, ctx: Session, title: string, html: string, text: string, now: string)
    modifies store
    ensures store.State() == AutosaveEffect(old(store.State()), ctx, title, html, text, now)
  {
    if ctx.currentPost.Some? && ctx.hasEditor && ctx.isInitialized {
      var updatedPost := SavedPost(ctx.currentPost.value, title, html, text, now);
      var hasRealContent := Trim(title) != [] || Trim(text) != [];
      if ctx.isNew {
        if hasRealContent {
          var existing := FindIndex(store.posts, ctx.currentPost.value.id);
          if existing == -1 {
            store.AddPost(updatedPost, now, now);
          } else {
            store.UpdatePost(updatedPost, now);
          }
          store.SetLastSaved(Some(now));
        }
      } else {
        store.UpdatePost(updatedPost, now);
        store.SetLastSaved(Some(now));
      }
    }
  }

  /**
   * The check the one-second typing timeout after a content change makes:
   * an initialised editor, and a title and text that are not empty once
   * trimmed, unless the post already exists.
   */
  function Gate(isInitialized: bool, isNew: bool, title: string, text: string): (g: bool)
    ensures g <==> isInitialized && ((|Trim(title)| > 0 && |Trim(text)| > 0) || !isNew)
  {
    TrimEmptyIffBlank(title);
    TrimEmptyIffBlank(text);
    isInitialized && ((!Blank(title) && !Blank(text)) || !isNew)
  }

  /** The state after the typing timeout fires. */
  function DebouncedEffect(s: Slice, ctx: Session, title: string, html: string, text: string, now: string): Slice {
    if Gate(ctx.isInitialized, ctx.isNew, title, text) then AutosaveEffect(s, ctx, title, html, text, now) else s
  }

  /**
   * Nothing is saved before initialisation, a new post needs both a title
   * and text, and an existing post is saved whenever the closure has a post
   * and an editor.
   */
  lemma DebouncedGate(s: Slice, ctx: Session, title: string, html: string, text: string, now: string)
    ensures var r := DebouncedEffect(s, ctx, title, html, text, now);
      (!ctx.isInitialized ==> r == s)
      && (ctx.isNew && (Blank(title) || Blank(text)) ==> r == s)
      && ((ctx.isNew && !Blank(title) && !Blank(text) && ctx.currentPost.Some? && ctx.hasEditor && ctx.isInitialized)
            ==> r.lastSaved == Some(now))
      && (!ctx.isNew && ctx.currentPost.Some? && ctx.hasEditor && ctx.isInitialized ==> r.lastSaved == Some(now))
  {
  }

  /**
   * The timeout after a title change, which skips the `isInitialized` test
   * (only the title and text test and the `isNew` test remain).
   */
  function TitleTimeoutEffect(s: Slice, ctx: Session, title: string, html: string, text: string, now: string): Slice {
    if (!Blank(title) && !Blank(text)) || !ctx.isNew then AutosaveEffect(s, ctx, title, html, text, now) else s
  }

  /**
   * The missing `isInitialized` test makes no difference: `autosave` makes
   * it itself, so a title change and a content change save alike.
   */
  lemma TitleTimeoutMatchesTyping(s: Slice, ctx: Session, title: string, html: string, text: string, now: string)
    ensures TitleTimeoutEffect(s, ctx, title, html, text, now) == DebouncedEffect(s, ctx, title, html, text, now)
  {
    if !ctx.isInitialized {
      assert !Saves(ctx, title, text);
    }
  }

  /** The typing timeout's body. */
  method TypingTimeout(store: PostsStore, ctx: Session, title: string, html: string, text: string, now: string)
    modifies store
    ensures store.State() == DebouncedEffect(old(store.State()), ctx, title, html, text, now)
  {
    if ctx.isInitialized {
      var hasContent := Trim(text) != [];
      var hasTitle := Trim(title) != [];
      TrimEmptyIffBlank(title);
      TrimEmptyIffBlank(text);
      if (hasTitle && hasContent) || !ctx.isNew {
        Autosave(store, ctx, title, html, text, now);
      }
    }
  }

  // ---------------------------------------------------------------------
  // publishPost
  // ---------------------------------------------------------------------

  /** `publishedPost`: trimmed title, content, excerpt, 'published' and the time. */
  function PublishedPost(cur: Post, title: string, html: string, text: string, now: string): Post {
    cur.(title := Some(PublishTitle(title)), content := Some(html), excerpt := Some(Excerpt(text)),
         status := "published", updatedAt := Some(now))
  }

  /**
   * `publishPost`: with a current post and an editor, the post is added or
   * updated as published, `lastSaved` is set and the view goes to '/';
   * otherwise nothing happens. The second component says whether it
   * navigates.
   */
  function PublishEffect(s: Slice, cur: Option<Post>, hasEditor: bool, title: string, html: string, text: string, now: string)
    : (r: (Slice, bool))
    ensures r.1 <==> cur.Some? && hasEditor
    ensures !r.1 ==> r.0 == s
    ensures r.1 ==> r.0 == s.(posts := AddOrUpdate(s.posts, PublishedPost(cur.value, title, html, text, now), now), lastSaved := Some(now))
  {
    if cur.Some? && hasEditor then
      (s.(posts := AddOrUpdate(s.posts, PublishedPost(cur.value, title, html, text, now), now), lastSaved := Some(now)), true)
    else (s, false)
  }

  /**
   * After publishing, the first post with the id is published, with a
   * non-blank title; a post already in the list is not duplicated.
   */
  lemma PublishLands(s: Slice, cur: Post, title: string, html: string, text: string, now: string)
    ensures var r := PublishEffect(s, Some(cur), true, title, html, text, now).0;
      var i := FindIndex(r.posts, cur.id);
      i >= 0 && r.posts[i].status == "published"
      && r.posts[i].title == Some(PublishTitle(title)) && !Blank(PublishTitle(title))
      && (FindIndex(s.posts, cur.id) != -1 ==> CountId(r.posts, cur.id) == CountId(s.posts, cur.id))
  {
    AddOrUpdateLands(s.posts, PublishedPost(cur, title, html, text, now), now);
  }

  /** `publishPost`'s dispatches; returns whether it navigates to '/'. */
  method Publish(store: PostsStore, cur: Option<Post>, hasEditor: bool, title: string, html: string, text: string, now: string)
    returns (navigated: bool)
    modifies store
    ensures (store.State(), navigated) == PublishEffect(old(store.State()), cur, hasEditor, title, html, text, now)
  {
    navigated := false;
    if cur.Some? && hasEditor {
      var publishedPost := PublishedPost(cur.value, title, html, text, now);
      var existing := FindIndex(store.posts, cur.value.id);
      if existing == -1 {
        store.AddPost(publishedPost, now, now);
      } else {
        store.UpdatePost(publishedPost, now);
      }
      store.SetLastSaved(Some(now));
      navigated := true;
    }
  }

  // ---------------------------------------------------------------------
  // Raw HTML insertion
  // ---------------------------------------------------------------------

  const RawHtmlOpen := "<div data-raw-html=\"true\" data-html-content=\""
  const RawHtmlClose := "\"></div>"
  const QuotEntity := "&quot;"
  const AmpEntity := "&amp;"

  /**
   * How an HTML parser reads an attribute value back, for the two character
   * references that matter here: `&quot;` is `"` and `&amp;` is `&`.
   */
  function DecodeAttr(v: string): string
    decreases |v|
  {
    if |v| == 0 then ""
    else if QuotEntity <= v then "\"" + DecodeAttr(v[|QuotEntity|..])
    else if AmpEntity <= v then "&" + DecodeAttr(v[|AmpEntity|..])
    else [v[0]] + DecodeAttr(v[1..])
  }

  /**
   * The attribute text as written: `data.replace(/"/g, '&quot;')`. A snippet
   * without `&` is escaped as the corrected `Escape` does, and so reads back
   * as itself.
   */
  function EscapeAsWritten(data: string): (v: string)
    ensures '"' !in v
    ensures '&' !in data ==> v == Escape(data) && DecodeAttr(v) == data
  {
    EscapeRoundTrip(data);
    ReplaceChar(data, '"', QuotEntity)
  }

  /** `EscapeAsWritten` works character by character: only `"` changes. */
  lemma EscapeAsWrittenCons(c: char, t: string)
    ensures EscapeAsWritten([c] + t) == (if c == '"' then QuotEntity else [c]) + EscapeAsWritten(t)
  {
    assert ([c] + t)[0] == c && ([c] + t)[1..] == t;
  }

  /**
   * A text without `&` is a prefix of what `EscapeAsWritten` writes only when
   * it is a prefix of the data itself: the escape adds nothing but `&quot;`.
   */
  lemma {:induction false} PrefixOfEscapedAsWritten(e: string, t: string)
    requires '&' !in e && e <= EscapeAsWritten(t)
    ensures e <= t
    decreases |e|
  {
    if |e| > 0 {
      assert EscapeAsWritten(t) != [];
      var c, rest := t[0], t[1..];
      assert t == [c] + rest;
      EscapeAsWrittenCons(c, rest);
      assert e[0] == EscapeAsWritten(t)[0];
      assert e[0] in e;
      assert c != '"';
      PrefixUncons(e, c, EscapeAsWritten(rest));
      PrefixOfEscapedAsWritten(e[1..], rest);
      PrefixCons(e, c, rest);
    }
  }

  /** A non-empty prefix of `[c] + t` starts with `c` and continues with a prefix of `t`. */
  lemma PrefixUncons(x: string, c: char, t: string)
    requires |x| > 0 && x <= [c] + t
    ensures x[0] == c && x[1..] <= t
  {
    assert ([c] + t)[1..] == t;
  }

  /** The converse of `PrefixUncons`. */
  lemma PrefixCons(x: string, c: char, t: string)
    requires |x| > 0 && x[0] == c && x[1..] <= t
    ensures x <= [c] + t
  {
    assert x == [c] + x[1..];
  }

  /** A character that starts no entity is read as itself. */
  lemma DecodePlain(c: char, t: string)
    requires !(QuotEntity <= [c] + t) && !(AmpEntity <= [c] + t)
    ensures DecodeAttr([c] + t) == [c] + DecodeAttr(t)
  {
    assert ([c] + t)[1..] == t;
  }

  /**
   * What the wrapper as written reads back is the data with its own character
   * references decoded: the escape of `"` is undone, and a `&quot;` or
   * `&amp;` the snippet already held is decoded too.
   */
  lemma {:induction false} EscapeAsWrittenDecodesReferences(data: string)
    ensures DecodeAttr(EscapeAsWritten(data)) == DecodeAttr(data)
    decreases |data|
  {
    if |data| > 0 {
      if QuotEntity <= data || AmpEntity <= data {
        var ent := if QuotEntity <= data then QuotEntity else AmpEntity;
        var rest := data[|ent|..];
        assert data == ent + rest;
        EscapeAsWrittenDecodesReferences(rest);
        DecodesAfterEntity(ent, rest);
      } else {
        var c, rest := data[0], data[1..];
        assert data == [c] + rest;
        EscapeAsWrittenDecodesReferences(rest);
        DecodesAfterChar(c, rest);
      }
    }
  }

  /** The step of `EscapeAsWrittenDecodesReferences` for an entity in front. */
  lemma DecodesAfterEntity(ent: string, rest: string)
    requires ent == QuotEntity || ent == AmpEntity
    requires DecodeAttr(EscapeAsWritten(rest)) == DecodeAttr(rest)
    ensures DecodeAttr(EscapeAsWritten(ent + rest)) == DecodeAttr(ent + rest)
  {
    ReplaceCharAppend(ent, rest, '"', QuotEntity);
    assert EscapeAsWritten(ent + rest) == ent + EscapeAsWritten(rest);
    DecodeEntity(ent, EscapeAsWritten(rest));
    DecodeEntity(ent, rest);
  }

  /** The step of `EscapeAsWrittenDecodesReferences` for a character that starts no entity. */
  lemma DecodesAfterChar(c: char, rest: string)
    requires !(QuotEntity <= [c] + rest) && !(AmpEntity <= [c] + rest)
    requires DecodeAttr(EscapeAsWritten(rest)) == DecodeAttr(rest)
    ensures DecodeAttr(EscapeAsWritten([c] + rest)) == DecodeAttr([c] + rest)
  {
    var tail := EscapeAsWritten(rest);
    EscapeAsWrittenCons(c, rest);
    DecodePlain(c, rest);
    if c == '"' {
      DecodeCons(c, tail);
    } else {
      NoEntityAfterChar(QuotEntity, c, rest);
      NoEntityAfterChar(AmpEntity, c, rest);
      DecodePlain(c, tail);
    }
  }

  /** An entity that does not start the data does not start its escape either. */
  lemma NoEntityAfterChar(ent: string, c: char, rest: string)
    requires ent == QuotEntity || ent == AmpEntity
    requires !(ent <= [c] + rest)
    ensures !(ent <= [c] + EscapeAsWritten(rest))
  {
    if ent <= [c] + EscapeAsWritten(rest) {
      PrefixUncons(ent, c, EscapeAsWritten(rest));
      PrefixOfEscapedAsWritten(ent[1..], rest);
      PrefixCons(ent, c, rest);
      assert false;
    }
  }

  /** An entity in front is decoded on its own, and the rest is read after it. */
  lemma DecodeEntity(ent: string, rest: string)
    requires ent == QuotEntity || ent == AmpEntity
    ensures DecodeAttr(ent + rest) == (if ent == QuotEntity then "\"" else "&") + DecodeAttr(rest)
  {
    var v := ent + rest;
    assert v[..|ent|] == ent && v[|ent|..] == rest;
    if ent == AmpEntity {
      assert v[1] == 'a' != QuotEntity[1];
    }
  }

  /**
   * As written, a snippet that already contains a character reference does
   * not survive: `&amp;` is read back as `&`.
   */
  lemma EscapeAsWrittenLosesReferences()
    ensures EscapeAsWritten(AmpEntity) == AmpEntity
    ensures DecodeAttr(EscapeAsWritten(AmpEntity)) == "&"
    ensures DecodeAttr(EscapeAsWritten(AmpEntity)) != AmpEntity
  {
    assert '"' !in AmpEntity;
    assert !(QuotEntity <= AmpEntity);
    assert AmpEntity[|AmpEntity|..] == "";
  }

  /** The attribute text escaped with `&` first, then `"`. */
  function Escape(data: string): (v: string)
    ensures '"' !in v
  {
    ReplaceChar(ReplaceChar(data, '&', AmpEntity), '"', QuotEntity)
  }

  /** What `Escape` writes for one character. */
  function EscapeChar(c: char): string {
    if c == '&' then AmpEntity else if c == '"' then QuotEntity else [c]
  }

  /** `Escape` works character by character. */
  lemma EscapeCons(c: char, t: string)
    ensures Escape([c] + t) == EscapeChar(c) + Escape(t)
  {
    var data := [c] + t;
    assert data[0] == c && data[1..] == t;
    var head := if c == '&' then AmpEntity else [c];
    assert ReplaceChar(data, '&', AmpEntity) == head + ReplaceChar(t, '&', AmpEntity);
    ReplaceCharAppend(head, ReplaceChar(t, '&', AmpEntity), '"', QuotEntity);
    if c == '&' {
      assert '"' !in AmpEntity;
    } else {
      assert ReplaceChar([c][1..], '"', QuotEntity) == "";
    }
  }

  /** Reading back what `Escape` wrote for `c` gives `c`, and the rest is read on its own. */
  lemma DecodeCons(c: char, rest: string)
    ensures DecodeAttr(EscapeChar(c) + rest) == [c] + DecodeAttr(rest)
  {
    var v := EscapeChar(c) + rest;
    if c == '&' {
      assert v[..|AmpEntity|] == AmpEntity && v[|AmpEntity|..] == rest;
      assert v[1] == 'a' != QuotEntity[1];
    } else if c == '"' {
      assert QuotEntity <= v;
      assert v[|QuotEntity|..] == rest;
    } else {
      assert v[0] == c && v[1..] == rest;
    }
  }

  /** Escaping `&` first makes every snippet read back exactly. */
  lemma {:induction false} EscapeRoundTrip(data: string)
    ensures DecodeAttr(Escape(data)) == data
    decreases |data|
  {
    if |data| > 0 {
      var c, t := data[0], data[1..];
      assert data == [c] + t;
      EscapeRoundTrip(t);
      EscapeCons(c, t);
      DecodeCons(c, Escape(t));
    } else {
      assert Escape(data) == "";
    }
  }

  /**
   * The markup `insertContent` receives, with the escape as written:
   * nothing for empty data, otherwise the wrapper `div` around the data with
   * every `"` replaced, so that the attribute value never ends early.
   */
  function RawHtmlWrapperAsWritten(data: string): (r: Option<string>)
    ensures r.None? <==> data == []
    ensures r.Some? ==>
      exists v :: r.value == RawHtmlOpen + v + RawHtmlClose && '"' !in v
                  && DecodeAttr(v) == DecodeAttr(data) && ('&' !in data ==> DecodeAttr(v) == data)
  {
    if data == [] then None
    else
      EscapeAsWrittenDecodesReferences(data);
      Some(RawHtmlOpen + EscapeAsWritten(data) + RawHtmlClose)
  }

  /**
   * The raw-HTML wrapper: nothing for empty data, otherwise a `div` marked
   * `data-raw-html="true"` whose `data-html-content` holds the data escaped
   * so that it has no raw `"` and reads back as the data.
   */
  function RawHtmlWrapper(data: string): (r: Option<string>)
    ensures r.None? <==> data == []
    ensures r.Some? ==> exists v :: r.value == RawHtmlOpen + v + RawHtmlClose && '"' !in v && DecodeAttr(v) == data
  {
    if data == [] then None
    else
      EscapeRoundTrip(data);
      Some(RawHtmlOpen + Escape(data) + RawHtmlClose)
  }

  // ---------------------------------------------------------------------
  // Cover image
  // ---------------------------------------------------------------------

  /**
   * `handleCoverImageUpload`: with no file nothing happens; a file over 5 MB
   * or not of an `image/` type is rejected (the alert) and the cover stays;
   * otherwise the cover becomes the file's data URL `data`.
   */
  function CoverEffect(cover: Option<string>, file: Option<MediaStore.FileInfo>, data: string)
    : (r: (Option<string>, Option<MediaInputs.Failure>))
    ensures r.1.Some? ==> r.0 == cover
    ensures file.None? ==> r == (cover, None)
    ensures file.Some? ==> r.1 == MediaInputs.CheckUpload(file.value)
    ensures file.Some? && r.1.None? ==> r.0 == Some(data)
    ensures r.1.Some? <==> file.Some? && (file.value.size > MediaInputs.MaxFileSize || !("image/" <= file.value.mime))
  {
    match file
    case None => (cover, None)
    case Some(f) =>
      var check := MediaInputs.CheckUpload(f);
      if check.Some? then (cover, check) else (Some(data), None)
  }
}

=== FILE: bookmark.dfy ===
/**
 * The `bookmark` node of src/extensions/BookmarkExtension.js: an atom block
 * with six optional text attributes, parsed from any `<div data-bookmark>`
 * and rendered as such a `div` with its set attributes.
 */
module Bookmark {
  import opened Wrappers
  import Dom

  const NodeName := "bookmark"
  const NodeGroup := "block"
  const NodeIsAtom := true
  const Marker := "data-bookmark"

  /** The six attributes; each defaults to `null` (`None`). */
  datatype BookmarkAttrs = BookmarkAttrs(
    url: Option<string>, title: Option<string>, description: Option<string>,
    image: Option<string>, favicon: Option<string>, site: Option<string>)

  const DefaultAttrs := BookmarkAttrs(None, None, None, None, None, None)

  /** A node in the document: its type name and attributes. */
  datatype BookmarkNode = BookmarkNode(typeName: string, attrs: BookmarkAttrs)

  /**
   * `parseHTML`: the rule `div[data-bookmark]`; each attribute is read from
   * the element's attribute of the same name, `null` when absent.
   */
  function ParseBookmark(e: Dom.Element): (r: Option<BookmarkAttrs>)
    ensures r.Some? <==> e.tag == "div" && Dom.HasAttr(e, Marker)
    ensures r.Some? && e.attrs.Keys == {Marker} ==> r.value == DefaultAttrs
  {
    if e.tag == "div" && Dom.HasAttr(e, Marker) then
      Some(BookmarkAttrs(Dom.Attr(e, "url"), Dom.Attr(e, "title"), Dom.Attr(e, "description"),
                         Dom.Attr(e, "image"), Dom.Attr(e, "favicon"), Dom.Attr(e, "site")))
    else None
  }

  /** `renderHTML`: a `div` with the set attributes merged with `data-bookmark=''`. */
  function RenderBookmark(a: BookmarkAttrs): (e: Dom.Element)
    ensures e.tag == "div"
    ensures Marker in e.attrs && e.attrs[Marker] == ""
  {
    var m0 := map[Marker := ""];
    var m1 := Dom.SetOpt(m0, "url", a.url);
    var m2 := Dom.SetOpt(m1, "title", a.title);
    var m3 := Dom.SetOpt(m2, "description", a.description);
    var m4 := Dom.SetOpt(m3, "image", a.image);
    var m5 := Dom.SetOpt(m4, "favicon", a.favicon);
    Dom.Element("div", Dom.SetOpt(m5, "site", a.site))
  }

  /**
   * Every rendered bookmark is matched by the parser again, with the same
   * attributes.
   */
  lemma BookmarkRoundTrip(a: BookmarkAttrs)
    ensures ParseBookmark(RenderBookmark(a)) == Some(a)
  {
  }

  /** `setBookmark(options)`: one node of type 'bookmark' whose attributes are the options. */
  function SetBookmark(options: BookmarkAttrs): (n: BookmarkNode)
    ensures n.typeName == NodeName && n.attrs == options
  {
    BookmarkNode(NodeName, options)
  }

  /** A node inserted by `setBookmark` renders to markup that parses back to its options. */
  lemma SetBookmarkSurvivesHtml(options: BookmarkAttrs)
    ensures ParseBookmark(RenderBookmark(SetBookmark(options).attrs)) == Some(options)
  {
    BookmarkRoundTrip(options);
  }
}

=== FILE: dom.dfy ===
/**
 * The slice of the DOM the editor's node schemas look at: an element is its
 * tag name and its attributes. `getAttribute(name)` is `Attr(e, name)`, with
 * `None` standing for `null`.
 */
module Dom {
  import opened Wrappers

  datatype Element = Element(tag: string, attrs: map<string, string>)

  /** `element.getAttribute(name)`. */
  function Attr(e: Element, name: string): (r: Option<string>)
    ensures r.Some? <==> name in e.attrs
    ensures r.Some? ==> r.value == e.attrs[name]
  {
    if name in e.attrs then Some(e.attrs[name]) else None
  }

  /** `element.hasAttribute(name)`. */
  predicate HasAttr(e: Element, name: string) {
    name in e.attrs
  }

  /** `m` with the attribute `name` written when it is set and left out when it is `null`. */
  function SetOpt(m: map<string, string>, name: string, v: Option<string>): (r: map<string, string>)
    requires name !in m
    ensures Attr(Element("div", r), name) == v
    ensures forall k :: k != name ==> (k in r <==> k in m) && (k in m ==> r[k] == m[k])
  {
    if v.Some? then m[name := v.value] else m
  }
}

=== FILE: media_inputs.dfy ===
/**
 * The input handlers of src/components/MediaInputHandlers.jsx: the upload
 * checks, the YouTube URL parser and embed, the HTML snippet input and the
 * Picsum id parser. Clock readings (`Date.now()`), random numbers and the
 * ISO timestamp are parameters; the blob store is the `BlobStore` of module
 * `MediaStore`.
 *
 * A rejection is a `Failure` value. The modal variant of each handler throws
 * it to the modal, the `window.prompt` variant alerts it (YouTube, Picsum)
 * or does nothing (blank HTML); which one runs does not change what is
 * accepted, what is stored or what is inserted.
 */
module MediaInputs {
  import opened Wrappers
  import opened Strings
  import opened MediaStore

  datatype Failure =
    | FileTooLarge        // 'File too large. Maximum size is 5MB.'
    | NotAnImage          // 'Please select an image file.'
    | InvalidYouTubeUrl   // 'Invalid YouTube URL. Please enter a valid YouTube video URL.'
    | EmptyHtml           // 'HTML code cannot be empty'
    | EmptyInput          // 'Input cannot be empty'
    | InvalidFormat       // 'Invalid format. ...'
    | InvalidImageId      // 'Invalid image ID. Enter a number between 0 and 1084. ...'
    | IndexUnreadable     // `JSON.parse` of the `blog-images` index threw
    | StorageFull         // a `localStorage.setItem` threw `QuotaExceededError`

  /** The failure a handler reports for an error thrown by a store. */
  function Reported(e: StoreError): (f: Failure)
    ensures f == IndexUnreadable <==> e == IndexNotArray
    ensures f == StorageFull <==> e == QuotaExceeded
  {
    match e
    case IndexNotArray => IndexUnreadable
    case QuotaExceeded => StorageFull
  }

  /** What a handler asks the editor to insert: a node with attributes, or raw markup. */
  datatype Insertion =
    | NodeInsert(nodeType: string, attrs: map<string, string>)
    | HtmlInsert(html: string)

  /** The visible result of one handler run: what was inserted, and what went wrong. */
  datatype Outcome = Outcome(inserted: Option<Insertion>, failure: Option<Failure>)

  // ---------------------------------------------------------------------
  // Upload checks
  // ---------------------------------------------------------------------

  const MaxFileSize: nat := 5 * 1024 * 1024

  /**
   * The two checks made before an upload is stored, in the source's order:
   * the size limit first, then the MIME type.
   */
  function CheckUpload(file: FileInfo): (r: Option<Failure>)
    ensures r.None? <==> file.size <= MaxFileSize && "image/" <= file.mime
    ensures r == Some(FileTooLarge) <==> file.size > MaxFileSize
    ensures r == Some(NotAnImage) <==> file.size <= MaxFileSize && !("image/" <= file.mime)
  {
    if file.size > MaxFileSize then Some(FileTooLarge)
    else if !("image/" <= file.mime) then Some(NotAnImage)
    else None
  }

  /**
   * The attributes the upload handler passes to `setImage`. The Image node
   * keeps only `src` and `alt` of them; the `data-*` ones are dropped.
   */
  function ImageAttrs(imageId: string, rec: MediaRecord): (a: map<string, string>)
    requires rec.Image?
    ensures a.Keys == {"src", "alt", "data-image-id", "data-image-name"}
    ensures a["src"] == rec.data && a["data-image-id"] == imageId
  {
    map["src" := rec.data, "alt" := rec.name, "data-image-id" := imageId, "data-image-name" := rec.name]
  }

  /**
   * `ImageUploadHandler` once the file is read as the data URL `data`:
   * checks, stores, and inserts the image node. A store that rejects (the
   * index is unreadable, or the browser refuses a write) is caught and
   * alerted, and nothing is inserted; what the store wrote before it threw
   * stays.
   */
  function UploadEffect(st: StoreState, file: FileInfo, imageId: string, data: string, timestamp: string, quota: Quota)
    : (r: (StoreState, Outcome))
    ensures CheckUpload(file).Some? ==> r == (st, Outcome(None, CheckUpload(file)))
    ensures CheckUpload(file).None? ==>
      var rec := Image(imageId, file.name, file.mime, file.size, data, timestamp);
      r.0 == Store(st, rec, quota).0
      && (quota != RecordRefused ==> Lookup(r.0, imageId) == Some(rec))
      && (r.1.failure.None? <==> quota == Fits && st.index.Some?)
      && (r.1.failure == Some(StorageFull) <==> quota == RecordRefused || (quota == IndexRefused && st.index.Some?))
      && (r.1.failure == Some(IndexUnreadable) <==> quota != RecordRefused && st.index.None?)
      && (r.1.inserted.Some? <==> r.1.failure.None?)
      && (r.1.inserted.Some? ==>
            r.1.inserted.value.NodeInsert?
            && r.1.inserted.value.nodeType == "image"
            && "data-image-id" in r.1.inserted.value.attrs && r.1.inserted.value.attrs["data-image-id"] == imageId
            && "src" in r.1.inserted.value.attrs && r.1.inserted.value.attrs["src"] == data)
  {
    match CheckUpload(file)
    case Some(f) => (st, Outcome(None, Some(f)))
    case None =>
      var rec := Image(imageId, file.name, file.mime, file.size, data, timestamp);
      var (after, err) := Store(st, rec, quota);
      if err.None? then (after, Outcome(Some(NodeInsert("image", ImageAttrs(imageId, rec))), None))
      else (after, Outcome(None, Some(Reported(err.value))))
  }

  /** The upload handler against the live store. */
  method UploadImage(store: BlobStore, file: FileInfo, imageId: string, data: string, timestamp: string, quota: Quota)
    returns (out: Outcome)
    requires store.Valid()
    modifies store
    ensures store.Valid()
    ensures (store.State(), out) == UploadEffect(old(store.State()), file, imageId, data, timestamp, quota)
  {
    var rejected := CheckUpload(file);
    if rejected.Some? {
      return Outcome(None, rejected);
    }
    var stored := store.StoreImage(file, imageId, data, timestamp, quota);
    match stored {
      case Ok(rec) =>
        out := Outcome(Some(NodeInsert("image", ImageAttrs(imageId, rec))), None);
      case Err(e) =>
        out := Outcome(None, Some(Reported(e)));
    }
  }

  // ---------------------------------------------------------------------
  // YouTube URLs
  // ---------------------------------------------------------------------

  const WatchMarker := "youtube.com/watch?v="
  const ShortMarker := "youtu.be/"
  const EmbedMarker := "youtube.com/embed/"
  const VideoIdLength: nat := 11

  /** `[\w\-]`: an ASCII letter, digit, `_` or `-`. */
  predicate IsIdChar(c: char) {
    'A' <= c <= 'Z' || 'a' <= c <= 'z' || '0' <= c <= '9' || c == '_' || c == '-'
  }

  /** Where the video id starts when one of the three markers sits at `q`. */
  function MarkerEnd(s: string, q: nat): (r: Option<nat>)
    ensures r.Some? ==> q < r.value <= |s| && s[q] == 'y'
  {
    if OccursAt(s, WatchMarker, q) then Some(q + |WatchMarker|)
    else if OccursAt(s, ShortMarker, q) then Some(q + |ShortMarker|)
    else if OccursAt(s, EmbedMarker, q) then Some(q + |EmbedMarker|)
    else None
  }

  /** The 11-character id that follows a marker at `q`, if one does. */
  function VideoIdAt(s: string, q: nat): (r: Option<string>)
    ensures r.Some? ==> q < |s| && s[q] == 'y'
    ensures r.Some? ==> |r.value| == VideoIdLength && forall k :: 0 <= k < |r.value| ==> IsIdChar(r.value[k])
  {
    match MarkerEnd(s, q)
    case None => None
    case Some(e) =>
      if e + VideoIdLength <= |s| && forall k :: e <= k < e + VideoIdLength ==> IsIdChar(s[k])
      then Some(s[e..e + VideoIdLength])
      else None
  }

  /** The id after the leftmost marker at or after `q` that is followed by an id. */
  function FindVideoIdFrom(s: string, q: nat): Option<string>
    requires q <= |s|
    decreases |s| - q
  {
    if VideoIdAt(s, q).Some? then VideoIdAt(s, q)
    else if q == |s| then None
    else FindVideoIdFrom(s, q + 1)
  }

  /**
   * The scan from `q` finds an id iff some marker at or after `q` is followed
   * by one, and then it is the id at the leftmost such marker.
   */
  lemma {:induction false} FindVideoIdFromSpec(s: string, q: nat)
    requires q <= |s|
    ensures FindVideoIdFrom(s, q).Some? <==> exists j: nat :: q <= j && VideoIdAt(s, j).Some?
    ensures FindVideoIdFrom(s, q).Some? ==>
      exists j: nat :: q <= j && VideoIdAt(s, j) == FindVideoIdFrom(s, q) && forall i :: q <= i < j ==> VideoIdAt(s, i).None?
    decreases |s| - q
  {
    if VideoIdAt(s, q).Some? {
      assert VideoIdAt(s, q) == FindVideoIdFrom(s, q);
    } else if q == |s| {
      assert forall j: nat :: q <= j ==> VideoIdAt(s, j).None?;
    } else {
      FindVideoIdFromSpec(s, q + 1);
      assert FindVideoIdFrom(s, q) == FindVideoIdFrom(s, q + 1);
      forall j: nat | q <= j && VideoIdAt(s, j).Some?
        ensures q + 1 <= j
      {
      }
    }
  }

  /**
   * The video id a URL carries: the 11 characters after the leftmost marker
   * that is followed by 11 id characters.
   */
  function FindVideoId(s: string): (r: Option<string>)
    ensures r.Some? <==> exists q: nat :: VideoIdAt(s, q).Some?
    ensures r.Some? ==> |r.value| == VideoIdLength
    ensures r.Some? ==> exists q: nat :: VideoIdAt(s, q) == r && forall i :: 0 <= i < q ==> VideoIdAt(s, i).None?
  {
    FindVideoIdFromSpec(s, 0);
    FindVideoIdFrom(s, 0)
  }

  /**
   * The optional `(?:https?:\/\/)?(?:www\.)?` in front of the markers, in the
   * order a backtracking regex engine tries them (both groups greedy).
   */
  const SchemePrefixes: seq<string> := ["https://www.", "https://", "http://www.", "http://", "www.", ""]

  /** The first scheme prefix (from the `i`th on) with which the regex matches at `p`. */
  function PrefixChoice(s: string, p: nat, i: nat): (r: Option<nat>)
    requires i <= |SchemePrefixes|
    ensures r.Some? ==>
      (i <= r.value < |SchemePrefixes|
       && OccursAt(s, SchemePrefixes[r.value], p)
       && VideoIdAt(s, p + |SchemePrefixes[r.value]|).Some?)
    ensures r.None? && i < |SchemePrefixes| ==> VideoIdAt(s, p).None?
    decreases |SchemePrefixes| - i
  {
    if i == |SchemePrefixes| then None
    else if OccursAt(s, SchemePrefixes[i], p) && VideoIdAt(s, p + |SchemePrefixes[i]|).Some? then Some(i)
    else
      LastPrefixEmpty(s, p, i);
      PrefixChoice(s, p, i + 1)
  }

  /** The last prefix is empty, so it fits wherever a marker with an id sits. */
  lemma LastPrefixEmpty(s: string, p: nat, i: nat)
    requires i < |SchemePrefixes|
    requires !(OccursAt(s, SchemePrefixes[i], p) && VideoIdAt(s, p + |SchemePrefixes[i]|).Some?)
    ensures i == |SchemePrefixes| - 1 ==> VideoIdAt(s, p).None?
  {
    if i == |SchemePrefixes| - 1 {
      assert SchemePrefixes[i] == "";
    }
  }

  /** Capture group 1 of the strict YouTube regex when the match starts at `p`. */
  function RegexMatchAt(s: string, p: nat): Option<string> {
    match PrefixChoice(s, p, 0)
    case None => None
    case Some(i) => VideoIdAt(s, p + |SchemePrefixes[i]|)
  }

  /** `match(regex)` scanning start positions from `p` on. */
  function RegexMatchFrom(s: string, p: nat): Option<string>
    requires p <= |s|
    decreases |s| - p
  {
    if RegexMatchAt(s, p).Some? then RegexMatchAt(s, p)
    else if p == |s| then None
    else RegexMatchFrom(s, p + 1)
  }

  /** `youtubeUrl.match(regex)[1]` for the strict regex of the YouTube handler (or `None`). */
  function YouTubeRegexMatch(url: string): Option<string> {
    RegexMatchFrom(url, 0)
  }

  /** No scheme prefix contains a 'y', the first letter of every marker. */
  lemma PrefixesHaveNoY(i: nat, k: nat)
    requires i < |SchemePrefixes| && k < |SchemePrefixes[i]|
    ensures SchemePrefixes[i][k] != 'y'
  {
  }

  /** No marker starts inside a scheme prefix. */
  lemma NoMarkerInsidePrefix(s: string, p: nat, i: nat, j: nat)
    requires i < |SchemePrefixes| && OccursAt(s, SchemePrefixes[i], p)
    requires p <= j < p + |SchemePrefixes[i]|
    ensures VideoIdAt(s, j).None?
  {
    assert s[p..p + |SchemePrefixes[i]|][j - p] == s[j];
    PrefixesHaveNoY(i, j - p);
  }

  /** Scanning over positions where no id follows a marker does not change the result. */
  lemma {:induction false} FindSkips(s: string, a: nat, b: nat)
    requires a <= b <= |s|
    requires forall i :: a <= i < b ==> VideoIdAt(s, i).None?
    ensures FindVideoIdFrom(s, a) == FindVideoIdFrom(s, b)
    decreases b - a
  {
    if a < b {
      FindSkips(s, a + 1, b);
    }
  }

  /** Where a marker with an id sits at `p`, the match starting at `p` takes no prefix. */
  lemma MatchAtMarker(s: string, p: nat)
    requires VideoIdAt(s, p).Some?
    ensures RegexMatchAt(s, p) == VideoIdAt(s, p)
  {
    var i := PrefixChoice(s, p, 0).value;
    if |SchemePrefixes[i]| > 0 {
      NoMarkerInsidePrefix(s, p, i, p);
    }
  }

  /**
   * Where a match starts at `p`, its prefix covers no marker, so the id it
   * captures is the next one a plain scan finds.
   */
  lemma MatchPastPrefix(s: string, p: nat)
    requires p <= |s| && RegexMatchAt(s, p).Some?
    ensures RegexMatchAt(s, p) == FindVideoIdFrom(s, p)
  {
    var q := MatchStart(s, p);
    FindSkips(s, p, q);
    FindAtMarker(s, q);
  }

  /** The match at `p` takes the id at the end of a prefix that holds no marker. */
  lemma MatchStart(s: string, p: nat) returns (q: nat)
    requires RegexMatchAt(s, p).Some?
    ensures p <= q <= |s| && VideoIdAt(s, q).Some? && RegexMatchAt(s, p) == VideoIdAt(s, q)
    ensures forall j :: p <= j < q ==> VideoIdAt(s, j).None?
  {
    var i := PrefixChoice(s, p, 0).value;
    q := p + |SchemePrefixes[i]|;
    forall j | p <= j < q
      ensures VideoIdAt(s, j).None?
    {
      NoMarkerInsidePrefix(s, p, i, j);
    }
  }

  /** A scan that starts at a marker with an id returns that id. */
  lemma FindAtMarker(s: string, q: nat)
    requires VideoIdAt(s, q).Some?
    ensures FindVideoIdFrom(s, q) == VideoIdAt(s, q)
  {
  }

  /**
   * The optional scheme and `www.` never change the captured id: the regex's
   * capture is always the id after the leftmost marker that has one.
   */
  lemma {:induction false} RegexMatchFromIsFind(s: string, p: nat)
    requires p <= |s|
    ensures RegexMatchFrom(s, p) == FindVideoIdFrom(s, p)
    decreases |s| - p
  {
    if VideoIdAt(s, p).Some? {
      MatchAtMarker(s, p);
    } else if RegexMatchAt(s, p).Some? {
      MatchPastPrefix(s, p);
    } else if p < |s| {
      RegexMatchFromIsFind(s, p + 1);
    }
  }

  /**
   * The strict YouTube regex accepts a URL exactly when some marker is
   * followed by 11 id characters, and then captures the id after the
   * leftmost such marker.
   */
  lemma YouTubeRegexAccepts(url: string)
    ensures YouTubeRegexMatch(url) == FindVideoId(url)
    ensures YouTubeRegexMatch(url).Some? <==> exists q: nat :: VideoIdAt(url, q).Some?
  {
    RegexMatchFromIsFind(url, 0);
  }

  const YouTubeEmbedBase := "https://www.youtube.com/embed/"

  /** `${kind}_${Date.now()}_${Math.floor(Math.random() * 10000)}`. */
  function MediaId(kind: string, now: nat, rand: nat): string {
    kind + "_" + NatToString(now) + "_" + NatToString(rand)
  }

  /**
   * The attributes the YouTube handler passes to `insertContent`. The iframe
   * node declares only `src`, `width`, `height`, `frameborder`,
   * `allowfullscreen` and `class`; the `data-*` ones are dropped.
   */
  function YouTubeIframeAttrs(videoId: string, mediaId: string): (a: map<string, string>)
    ensures a.Keys == {"src", "width", "height", "frameborder", "allowfullscreen", "class",
                       "data-media-id", "data-media-type", "data-youtube-id"}
    ensures a["src"] == YouTubeEmbedBase + videoId
    ensures a["data-media-id"] == mediaId && a["data-youtube-id"] == videoId
  {
    map[
      "src" := YouTubeEmbedBase + videoId,
      "width" := "100%",
      "height" := "400",
      "frameborder" := "0",
      "allowfullscreen" := "true",
      "class" := "rounded-lg w-full h-96 my-4",
      "data-media-id" := mediaId,
      "data-media-type" := "youtube",
      "data-youtube-id" := videoId
    ]
  }

  /**
   * The YouTube handler with an editor: parse, insert the iframe, write the
   * record, then read-modify-write the index. A write that throws does so
   * after the iframe is in, so the embed stays in the document whatever the
   * store did.
   */
  function YouTubeEffect(st: StoreState, url: string, now: nat, rand: nat, timestamp: string, quota: Quota)
    : (r: (StoreState, Outcome))
    ensures r.1.inserted.Some? <==> YouTubeRegexMatch(url).Some?
    ensures r.1.inserted.None? ==> r == (st, Outcome(None, Some(InvalidYouTubeUrl)))
    ensures r.1.failure != Some(InvalidYouTubeUrl) <==> r.1.inserted.Some?
  {
    match YouTubeRegexMatch(url)
    case None => (st, Outcome(None, Some(InvalidYouTubeUrl)))
    case Some(videoId) =>
      var mediaId := MediaId("youtube", now, rand);
      var node := NodeInsert("iframe", YouTubeIframeAttrs(videoId, mediaId));
      var (after, err) := Store(st, YouTube(mediaId, videoId, url, timestamp), quota);
      (after, Outcome(Some(node), if err.None? then None else Some(Reported(err.value))))
  }

  /**
   * A URL without an id is rejected and nothing changes; otherwise the iframe
   * is always inserted, and the media id passed as the iframe's
   * `data-media-id` keys the record when the record write goes through (the
   * iframe node does not keep that attribute). When the browser refuses the
   * record write the embed is in the document with no record; when it
   * refuses the index write the record is stored but unindexed.
   */
  lemma YouTubeEffectSpec(st: StoreState, url: string, now: nat, rand: nat, timestamp: string, quota: Quota)
    ensures var (after, out) := YouTubeEffect(st, url, now, rand, timestamp, quota);
      (FindVideoId(url).None? ==> after == st && out == Outcome(None, Some(InvalidYouTubeUrl)))
      && (FindVideoId(url).Some? ==>
            var v := FindVideoId(url).value;
            var id := MediaId("youtube", now, rand);
            (quota == RecordRefused ==> after == st)
            && (quota != RecordRefused ==> Lookup(after, id) == Some(YouTube(id, v, url, timestamp)))
            && (quota == Fits && st.index.Some? ==> after.index == Some(st.index.value + [id]))
            && (quota != Fits ==> after.index == st.index)
            && (out.failure.None? <==> quota == Fits && st.index.Some?)
            && (out.failure == Some(StorageFull) <==> quota == RecordRefused || (quota == IndexRefused && st.index.Some?))
            && (out.failure == Some(IndexUnreadable) <==> quota != RecordRefused && st.index.None?)
            && out.inserted.Some? && out.inserted.value.NodeInsert?
            && out.inserted.value.nodeType == "iframe"
            && out.inserted.value.attrs["data-media-id"] == id
            && out.inserted.value.attrs["data-youtube-id"] == v
            && out.inserted.value.attrs["src"] == YouTubeEmbedBase + v)
  {
    YouTubeRegexAccepts(url);
  }

  /** The YouTube handler against the live store. */
  method InsertYouTube(store: BlobStore, url: string, now: nat, rand: nat, timestamp: string, quota: Quota)
    returns (out: Outcome)
    requires store.Valid()
    modifies store
    ensures store.Valid()
    ensures (store.State(), out) == YouTubeEffect(old(store.State()), url, now, rand, timestamp, quota)
  {
    var m := YouTubeRegexMatch(url);
    if m.None? {
      return Outcome(None, Some(InvalidYouTubeUrl));
    }
    var videoId := m.value;
    var mediaId := MediaId("youtube", now, rand);
    var node := NodeInsert("iframe", YouTubeIframeAttrs(videoId, mediaId));
    var err := store.StoreRecord(YouTube(mediaId, videoId, url, timestamp), quota);
    out := Outcome(Some(node), if err.None? then None else Some(Reported(err.value)));
  }

  // ---------------------------------------------------------------------
  // HTML snippets
  // ---------------------------------------------------------------------

  /**
   * The HTML handler with an editor: blank code is rejected; otherwise the
   * trimmed code is stored as an `html` record and the code as typed is
   * inserted. A write that throws (unreadable index, refused `setItem`) is
   * caught and alerted before anything is inserted; what it already wrote
   * stays.
   */
  function HtmlEffect(st: StoreState, code: string, now: nat, rand: nat, timestamp: string, quota: Quota)
    : (r: (StoreState, Outcome))
    ensures Blank(code) ==> r == (st, Outcome(None, Some(EmptyHtml)))
    ensures !Blank(code) ==>
      var id := MediaId("html", now, rand);
      var rec := Html(id, Trim(code), timestamp);
      r.0 == Store(st, rec, quota).0
      && (quota != RecordRefused ==> Lookup(r.0, id) == Some(rec))
      && (r.1.failure.None? <==> quota == Fits && st.index.Some?)
      && (r.1.failure == Some(StorageFull) <==> quota == RecordRefused || (quota == IndexRefused && st.index.Some?))
      && (r.1.inserted.Some? <==> r.1.failure.None?)
      && (r.1.inserted.Some? ==> r.1.inserted.value == HtmlInsert(code))
  {
    TrimEmptyIffBlank(code);
    if Trim(code) == [] then (st, Outcome(None, Some(EmptyHtml)))
    else
      var id := MediaId("html", now, rand);
      var (after, err) := Store(st, Html(id, Trim(code), timestamp), quota);
      if err.None? then (after, Outcome(Some(HtmlInsert(code)), None))
      else (after, Outcome(None, Some(Reported(err.value))))
  }

  /** The HTML handler against the live store. */
  method InsertHtml(store: BlobStore, code: string, now: nat, rand: nat, timestamp: string, quota: Quota)
    returns (out: Outcome)
    requires store.Valid()
    modifies store
    ensures store.Valid()
    ensures (store.State(), out) == HtmlEffect(old(store.State()), code, now, rand, timestamp, quota)
  {
    var trimmed := Trim(code);
    TrimEmptyIffBlank(code);
    if trimmed == [] {
      return Outcome(None, Some(EmptyHtml));
    }
    var mediaId := MediaId("html", now, rand);
    var err := store.StoreRecord(Html(mediaId, trimmed, timestamp), quota);
    if err.None? {
      out := Outcome(Some(HtmlInsert(code)), None);
    } else {
      out := Outcome(None, Some(Reported(err.value)));
    }
  }

  // ---------------------------------------------------------------------
  // `parseInt`
  // ---------------------------------------------------------------------

  /** The value of a digit character in bases up to 36, or 36 when it is not a digit. */
  function DigitValue(c: char): (v: nat)
    ensures v <= 36
    ensures IsDigit(c) ==> v == c as int - '0' as int
  {
    if '0' <= c <= '9' then c as int - '0' as int
    else if 'a' <= c <= 'z' then c as int - 'a' as int + 10
    else if 'A' <= c <= 'Z' then c as int - 'A' as int + 10
    else 36
  }

  /** Length of the longest prefix of `s` made of hexadecimal digits. */
  function HexRun(s: string): (n: nat)
    ensures n <= |s|
    ensures forall k :: 0 <= k < n ==> DigitValue(s[k]) < 16
    ensures n < |s| ==> DigitValue(s[n]) >= 16
    decreases |s|
  {
    if |s| > 0 && DigitValue(s[0]) < 16 then 1 + HexRun(s[1..]) else 0
  }

  /** The value of a string of hexadecimal digits. */
  function HexValue(s: string): nat
    requires forall k :: 0 <= k < |s| ==> DigitValue(s[k]) < 16
    decreases |s|
  {
    if |s| == 0 then 0 else 16 * HexValue(s[..|s| - 1]) + DigitValue(s[|s| - 1])
  }

  /** Length of the longest prefix of `s` made of decimal digits. */
  function DecimalRun(s: string): (n: nat)
    ensures n <= |s|
    ensures forall k :: 0 <= k < n ==> IsDigit(s[k])
    ensures n < |s| ==> !IsDigit(s[n])
    decreases |s|
  {
    if |s| > 0 && IsDigit(s[0]) then 1 + DecimalRun(s[1..]) else 0
  }

  /** The decimal run of digits followed by a non-digit is exactly those digits. */
  lemma DecimalRunOf(d: string, rest: string)
    requires forall k :: 0 <= k < |d| ==> IsDigit(d[k])
    requires rest == [] || !IsDigit(rest[0])
    ensures DecimalRun(d + rest) == |d|
  {
    var s := d + rest;
    assert forall k :: 0 <= k < |d| ==> s[k] == d[k];
    if |rest| > 0 {
      assert s[|d|] == rest[0];
    }
  }

  /**
   * The digits after the sign: `0x`/`0X` selects base 16, anything else base
   * 10; `None` when no digit follows.
   */
  function ParseUnsigned(u: string): Option<nat> {
    if |u| >= 2 && u[0] == '0' && (u[1] == 'x' || u[1] == 'X') then
      var n := HexRun(u[2..]);
      if n == 0 then None else Some(HexValue(u[2..][..n]))
    else
      var n := DecimalRun(u);
      if n == 0 then None else Some(DecimalValue(u[..n]))
  }

  /**
   * `parseInt(s)` without a radix: leading white space, an optional sign,
   * then the digits; `None` stands for NaN. `-0` comes out as 0.
   */
  function ParseInt(s: string): (r: Option<int>)
    ensures TrimStart(s) == [] ==> r.None?
    ensures var t := TrimStart(s); |t| > 0 && !IsDigit(t[0]) && t[0] != '-' && t[0] != '+' ==> r.None?
    ensures var t := TrimStart(s); |t| > 0 && '1' <= t[0] <= '9' ==> r.Some? && r.value >= 0
    ensures r.Some? && r.value < 0 ==> TrimStart(s)[0] == '-'
  {
    var t := TrimStart(s);
    var negative := |t| > 0 && t[0] == '-';
    var digits := if |t| > 0 && (t[0] == '-' || t[0] == '+') then t[1..] else t;
    match ParseUnsigned(digits)
    case None => None
    case Some(v) => Some(if negative then 0 - v else v as int)
  }

  /** `parseInt` reads a run of decimal digits as its decimal value. */
  lemma ParseIntOfDigits(d: string)
    requires AllDigits(d)
    ensures ParseInt(d) == Some(DecimalValue(d))
  {
    assert TrimStart(d) == d;
    assert !(|d| >= 2 && d[0] == '0' && (d[1] == 'x' || d[1] == 'X'));
    DecimalRunOf(d, []);
    assert d + [] == d;
    assert d[..|d|] == d;
  }

  /** `parseInt` reads back the decimal rendering of every natural number. */
  lemma ParseIntOfDecimal(n: nat)
    ensures ParseInt(NatToString(n)) == Some(n)
  {
    ParseIntOfDigits(NatToString(n));
  }

  /** `parseInt` takes a hexadecimal literal: `parseInt("0x1F")` is 31. */
  lemma ParseIntReadsHex()
    ensures ParseInt("0x1F") == Some(31)
  {
    assert TrimStart("0x1F") == "0x1F";
    var h := "0x1F"[2..];
    assert h == "1F";
    assert HexRun(h) == 2;
    assert h[..2] == h;
    assert HexValue("1") == 1;
    assert "1F"[..1] == "1";
  }

  // ---------------------------------------------------------------------
  // Picsum ids
  // ---------------------------------------------------------------------

  const PicsumMarker := "picsum.photos/id/"
  const MaxPicsumId := 1084

  /** `/picsum\.photos\/id\/(\d+)/` matches at `q`. */
  predicate PicsumMatchAt(s: string, q: nat) {
    OccursAt(s, PicsumMarker, q) && q + |PicsumMarker| < |s| && IsDigit(s[q + |PicsumMarker|])
  }

  /** Capture group 1 of `/picsum\.photos\/id\/(\d+)/` for the leftmost match at `p` or later. */
  function PicsumMatchFrom(s: string, p: nat): (r: Option<string>)
    requires p <= |s|
    ensures r.Some? <==> exists q: nat :: p <= q && PicsumMatchAt(s, q)
    ensures r.Some? ==> AllDigits(r.value) && exists q: nat :: p <= q && OccursAt(s, PicsumMarker + r.value, q)
    decreases |s| - p
  {
    if PicsumMatchAt(s, p) then
      var e := p + |PicsumMarker|;
      var n := DecimalRun(s[e..]);
      var d := s[e..e + n];
      assert n > 0 && forall k :: 0 <= k < n ==> d[k] == s[e..][k];
      assert s[p..p + |PicsumMarker + d|] == PicsumMarker + d;
      assert OccursAt(s, PicsumMarker + d, p);
      Some(d)
    else if p == |s| then None
    else PicsumMatchFrom(s, p + 1)
  }

  /** A marker occurrence starts with "pi". */
  lemma MarkerStart(s: string, q: nat)
    ensures OccursAt(s, PicsumMarker, q) ==> s[q] == 'p' && s[q + 1] == 'i'
  {
    if OccursAt(s, PicsumMarker, q) {
      assert s[q..q + |PicsumMarker|][0] == s[q];
      assert s[q..q + |PicsumMarker|][1] == s[q + 1];
    }
  }

  /** Positions without a match can be skipped. */
  lemma {:induction false} PicsumSkips(s: string, a: nat, b: nat)
    requires a <= b <= |s|
    requires forall q: nat :: a <= q < b ==> !PicsumMatchAt(s, q)
    ensures PicsumMatchFrom(s, a) == PicsumMatchFrom(s, b)
    decreases b - a
  {
    if a < b {
      PicsumSkips(s, a + 1, b);
    }
  }

  /** A string without a 'p' has no Picsum match. */
  lemma NoPicsumMatchWithoutP(s: string)
    requires 'p' !in s
    ensures PicsumMatchFrom(s, 0).None?
  {
    forall q: nat ensures !PicsumMatchAt(s, q) {
      MarkerStart(s, q);
    }
  }

  /** The URL a Picsum id leads to. */
  function PicsumUrl(imageId: string): string {
    "https://picsum.photos/id/" + imageId + "/800/600"
  }

  /**
   * The raw id the handler takes from the trimmed input: the digits after
   * the leftmost `picsum.photos/id/`, else the first '/'-separated part when
   * there are one or three parts.
   */
  function PicsumRawId(input: string): (r: Option<string>)
    ensures r.None? <==> PicsumMatchFrom(input, 0).None? && |Split(input, '/')| !in {1, 3}
    ensures PicsumMatchFrom(input, 0).Some? ==> r == PicsumMatchFrom(input, 0) && AllDigits(r.value)
  {
    match PicsumMatchFrom(input, 0)
    case Some(d) => Some(d)
    case None =>
      var parts := Split(input, '/');
      if |parts| == 1 || |parts| == 3 then Some(parts[0]) else None
  }

  /** The range check on the raw id and the URL built from it. */
  function CheckPicsumId(imageId: string): (r: Result<(string, string), Failure>)
    ensures r.Ok? <==> ParseInt(imageId).Some? && 0 <= ParseInt(imageId).value <= MaxPicsumId
    ensures r.Ok? ==> r.value == (imageId, PicsumUrl(imageId))
    ensures r.Err? ==> r.error == InvalidImageId
  {
    var numericId := ParseInt(imageId);
    if numericId.None? || numericId.value < 0 || numericId.value > MaxPicsumId then Err(InvalidImageId)
    else Ok((imageId, PicsumUrl(imageId)))
  }

  /**
   * The Picsum handler's parse of the user's input: the raw id it uses and
   * the image URL it builds from it, or why the input is rejected.
   */
  function PicsumRequest(userInput: string): (r: Result<(string, string), Failure>)
    ensures Blank(userInput) <==> r == Err(EmptyInput)
    ensures r.Ok? ==> r.value.1 == PicsumUrl(r.value.0)
    ensures r.Ok? ==> ParseInt(r.value.0).Some? && 0 <= ParseInt(r.value.0).value <= MaxPicsumId
    ensures r == Err(InvalidFormat) <==> !Blank(userInput) && PicsumRawId(Trim(userInput)).None?
    ensures !Blank(userInput) && PicsumRawId(Trim(userInput)).Some? ==>
      r == CheckPicsumId(PicsumRawId(Trim(userInput)).value)
  {
    TrimEmptyIffBlank(userInput);
    var input := Trim(userInput);
    if input == [] then Err(EmptyInput)
    else
      match PicsumRawId(input)
      case None => Err(InvalidFormat)
      case Some(imageId) => CheckPicsumId(imageId)
  }

  /** A run of digits is its own trim. */
  lemma DigitsTrim(s: string)
    requires AllDigits(s)
    ensures s != [] && Trim(s) == s
  {
    TrimUnchanged(s);
  }

  /** A run of digits is its own raw id. */
  lemma PicsumDigitsRawId(s: string)
    requires AllDigits(s)
    ensures PicsumRawId(s) == Some(s)
  {
    assert 'p' !in s;
    NoPicsumMatchWithoutP(s);
    assert '/' !in s;
    SplitNone(s, '/');
  }

  /** A non-blank input whose raw id is known is decided by the range check on that id. */
  lemma PicsumByRawId(s: string, imageId: string)
    requires s != [] && Trim(s) == s && PicsumRawId(s) == Some(imageId)
    ensures PicsumRequest(s) == CheckPicsumId(imageId)
  {
    TrimEmptyIffBlank(s);
  }

  /** The range check accepts the decimal rendering of 0 to 1084 and rejects that of anything larger. */
  lemma CheckDecimalId(n: nat)
    ensures n <= MaxPicsumId ==> CheckPicsumId(NatToString(n)) == Ok((NatToString(n), PicsumUrl(NatToString(n))))
    ensures n > MaxPicsumId ==> CheckPicsumId(NatToString(n)) == Err(InvalidImageId)
  {
    ParseIntOfDecimal(n);
  }

  /** A run of digits typed on its own goes straight to the range check. */
  lemma PlainIdGoesToCheck(s: string)
    requires AllDigits(s)
    ensures PicsumRequest(s) == CheckPicsumId(s)
  {
    DigitsTrim(s);
    PicsumDigitsRawId(s);
    PicsumByRawId(s, s);
  }

  /** Every id from 0 to 1084 typed on its own is accepted and used as typed; larger ones are rejected. */
  lemma PicsumPlainIds(n: nat)
    ensures n <= MaxPicsumId ==> PicsumRequest(NatToString(n)) == Ok((NatToString(n), PicsumUrl(NatToString(n))))
    ensures n > MaxPicsumId ==> PicsumRequest(NatToString(n)) == Err(InvalidImageId)
  {
    PlainIdGoesToCheck(NatToString(n));
    CheckDecimalId(n);
  }

  /** A string that starts and ends with a digit is its own trim. */
  lemma TrimDigitEnds(s: string)
    requires |s| > 0 && IsDigit(s[0]) && IsDigit(s[|s| - 1])
    ensures Trim(s) == s
  {
    TrimUnchanged(s);
  }

  /** Digits and slashes hold no 'p'. */
  lemma DigitsAndSlashesHaveNoP(s: string)
    requires forall k :: 0 <= k < |s| ==> IsDigit(s[k]) || s[k] == '/'
    ensures 'p' !in s
  {
  }

  /** `id/width/height` splits into its three parts. */
  lemma SplitThree(d: string, w: string, h: string)
    requires AllDigits(d) && AllDigits(w) && AllDigits(h)
    ensures Split(d + "/" + w + "/" + h, '/') == [d, w, h]
  {
    assert '/' !in d && '/' !in w && '/' !in h;
    assert d + "/" + w + "/" + h == d + ['/'] + (w + ['/'] + h);
    SplitAt(d, w + ['/'] + h, '/');
    SplitAt(w, h, '/');
    SplitNone(h, '/');
  }

  /** `a/b` splits into its two parts. */
  lemma SplitTwo(a: string, b: string)
    requires AllDigits(a) && AllDigits(b)
    ensures Split(a + "/" + b, '/') == [a, b]
  {
    assert '/' !in a && '/' !in b;
    SplitAt(a, b, '/');
    SplitNone(b, '/');
  }

  /** `id/width/height` with digits only has the id as its raw id. */
  lemma SizesRawId(d: string, w: string, h: string)
    requires AllDigits(d) && AllDigits(w) && AllDigits(h)
    ensures PicsumRawId(d + "/" + w + "/" + h) == Some(d)
  {
    var s := d + "/" + w + "/" + h;
    assert forall k :: 0 <= k < |s| ==> IsDigit(s[k]) || s[k] == '/';
    DigitsAndSlashesHaveNoP(s);
    NoPicsumMatchWithoutP(s);
    SplitThree(d, w, h);
  }

  /** The `id/width/height` form is accepted for ids up to 1084, and the sizes are ignored. */
  lemma PicsumIgnoresSizes(n: nat, w: string, h: string)
    requires n <= MaxPicsumId
    requires AllDigits(w) && AllDigits(h)
    ensures PicsumRequest(NatToString(n) + "/" + w + "/" + h) == Ok((NatToString(n), PicsumUrl(NatToString(n))))
  {
    SizesGoToCheck(NatToString(n), w, h);
    CheckDecimalId(n);
  }

  /** `id/width/height` goes to the range check with the id. */
  lemma SizesGoToCheck(d: string, w: string, h: string)
    requires AllDigits(d) && AllDigits(w) && AllDigits(h)
    ensures PicsumRequest(d + "/" + w + "/" + h) == CheckPicsumId(d)
  {
    var s := d + "/" + w + "/" + h;
    assert s[0] == d[0] && s[|s| - 1] == h[|h| - 1];
    TrimDigitEnds(s);
    SizesRawId(d, w, h);
    PicsumByRawId(s, d);
  }

  /** `a/b` with digits only has no raw id. */
  lemma TwoPartsNoRawId(a: string, b: string)
    requires AllDigits(a) && AllDigits(b)
    ensures PicsumRawId(a + "/" + b).None?
  {
    var s := a + "/" + b;
    assert forall k :: 0 <= k < |s| ==> IsDigit(s[k]) || s[k] == '/';
    DigitsAndSlashesHaveNoP(s);
    NoPicsumMatchWithoutP(s);
    SplitTwo(a, b);
  }

  /** Two slash-separated parts are neither an id nor an `id/width/height` triple. */
  lemma PicsumRejectsTwoParts(a: string, b: string)
    requires AllDigits(a) && AllDigits(b)
    ensures PicsumRequest(a + "/" + b) == Err(InvalidFormat)
  {
    var s := a + "/" + b;
    assert s[0] == a[0] && s[|s| - 1] == b[|b| - 1];
    TrimDigitEnds(s);
    TwoPartsNoRawId(a, b);
    TrimEmptyIffBlank(s);
  }

  /** A full Picsum URL is accepted for ids up to 1084: the digits after `picsum.photos/id/` are the id. */
  lemma PicsumAcceptsUrl(d: string, tail: string)
    requires AllDigits(d) && DecimalValue(d) <= MaxPicsumId
    requires tail == [] || (tail[0] == '/' && !IsSpace(tail[|tail| - 1]))
    ensures PicsumRequest("https://picsum.photos/id/" + d + tail) == Ok((d, PicsumUrl(d)))
  {
    UrlGoesToCheck(d, tail);
    ParseIntOfDigits(d);
  }

  /** A full Picsum URL goes to the range check with the digits after the marker. */
  lemma UrlGoesToCheck(d: string, tail: string)
    requires AllDigits(d)
    requires tail == [] || (tail[0] == '/' && !IsSpace(tail[|tail| - 1]))
    ensures PicsumRequest("https://picsum.photos/id/" + d + tail) == CheckPicsumId(d)
  {
    var s := "https://picsum.photos/id/" + d + tail;
    UrlTrim(d, tail);
    PicsumMatchAtUrl(d, tail);
    PicsumByRawId(s, d);
  }

  /** A full Picsum URL is its own trim. */
  lemma UrlTrim(d: string, tail: string)
    requires AllDigits(d)
    requires tail == [] || !IsSpace(tail[|tail| - 1])
    ensures Trim("https://picsum.photos/id/" + d + tail) == "https://picsum.photos/id/" + d + tail
  {
    var s := "https://picsum.photos/id/" + d + tail;
    assert s[0] == 'h';
    if tail == [] {
      assert s[|s| - 1] == d[|d| - 1];
    } else {
      assert s[|s| - 1] == tail[|tail| - 1];
    }
    TrimUnchanged(s);
  }

  /** No Picsum match starts inside a leading `https://`. */
  lemma NoMatchInScheme(s: string)
    requires |s| >= 8 && s[..8] == "https://"
    ensures forall q: nat :: q < 8 ==> !PicsumMatchAt(s, q)
  {
    forall q: nat | q < 8 ensures !PicsumMatchAt(s, q) {
      MarkerStart(s, q);
      assert s[q] == s[..8][q];
      if q == 3 {
        assert s[4] == s[..8][4];
      }
    }
  }

  /** Right after `https://` the marker is followed by the id's digits. */
  lemma MatchAfterScheme(d: string, tail: string)
    requires AllDigits(d)
    requires tail == [] || tail[0] == '/'
    ensures PicsumMatchFrom("https://picsum.photos/id/" + d + tail, 8) == Some(d)
  {
    var s := "https://picsum.photos/id/" + d + tail;
    assert s[8..25] == PicsumMarker;
    assert s[25..] == d + tail;
    assert s[25] == d[0];
    DecimalRunOf(d, tail);
    assert s[25..25 + |d|] == d;
  }

  /** The leftmost Picsum match in a full URL is the one after the scheme. */
  lemma PicsumMatchAtUrl(d: string, tail: string)
    requires AllDigits(d)
    requires tail == [] || tail[0] == '/'
    ensures PicsumRawId("https://picsum.photos/id/" + d + tail) == Some(d)
  {
    var s := "https://picsum.photos/id/" + d + tail;
    assert s[..8] == "https://";
    NoMatchInScheme(s);
    PicsumSkips(s, 0, 8);
    MatchAfterScheme(d, tail);
  }
}

=== FILE: media_store.dfy ===
/**
 * The editor's media blob store (the `ImageStorage` object of
 * src/components/MediaInputHandlers.jsx) and its orphan cleanup.
 *
 * In the browser every record lives in localStorage under the key
 * `blog-image-<id>` as JSON, and the ordered list of ids lives under
 * `blog-images`. The model keys records by id (`RecordKey` is injective and
 * never equals `IndexKey`, so nothing is lost) and keeps the index apart:
 * `index == None` stands for an index whose text is not a JSON array, in
 * which case every reader that parses it throws. A missing index and the
 * text `[]` are the same to every reader (`getItem(...) || '[]'`), so both
 * are `Some([])`.
 */
module MediaStore {
  import opened Wrappers
  import opened Strings

  const RecordPrefix := "blog-image-"
  const IndexKey := "blog-images"

  /** The localStorage key of the record with the given id. */
  function RecordKey(id: string): string {
    RecordPrefix + id
  }

  /** Distinct ids never share a record key, and no record key is the index key. */
  lemma RecordKeysDistinct(a: string, b: string)
    ensures RecordKey(a) == RecordKey(b) ==> a == b
    ensures RecordKey(a) != IndexKey
  {
    if RecordKey(a) == RecordKey(b) {
      assert a == RecordKey(a)[|RecordPrefix|..];
      assert b == RecordKey(b)[|RecordPrefix|..];
    }
    if |RecordKey(a)| == |IndexKey| {
      assert RecordKey(a)[10] == '-' && IndexKey[10] == 's';
    }
  }

  /** A file picked by the user: its name, MIME type and size in bytes. */
  datatype FileInfo = FileInfo(name: string, mime: string, size: nat)

  /**
   * What the store holds. Uploaded images, YouTube embeds and HTML snippets
   * all share the `blog-image-` prefix and the one index.
   */
  datatype MediaRecord =
    | Image(id: string, name: string, mime: string, size: nat, data: string, timestamp: string)
    | YouTube(id: string, videoId: string, url: string, timestamp: string)
    | Html(id: string, htmlContent: string, timestamp: string)

  /** The value under a record key: a record, or text that `JSON.parse` rejects. */
  datatype Stored = Parsed(rec: MediaRecord) | Unparsable

  /** The whole store: records by id, and the index (None when it cannot be parsed). */
  datatype StoreState = StoreState(records: map<string, Stored>, index: Option<seq<string>>)

  /** Every parsed record sits under the key of its own id (every writer below keeps this). */
  predicate WellKeyed(st: StoreState) {
    forall id :: id in st.records && st.records[id].Parsed? ==> st.records[id].rec.id == id
  }

  /** The ids of `ids` that are not in `gone`, in their original order. */
  function FilterOut(ids: seq<string>, gone: set<string>): (r: seq<string>)
    ensures forall x :: x in r <==> x in ids && x !in gone
    ensures |r| <= |ids|
    decreases |ids|
  {
    if |ids| == 0 then []
    else if ids[0] in gone then FilterOut(ids[1..], gone)
    else [ids[0]] + FilterOut(ids[1..], gone)
  }

  /** Filtering distributes over concatenation, so the surviving ids keep their relative order. */
  lemma {:induction false} FilterOutAppend(a: seq<string>, b: seq<string>, gone: set<string>)
    ensures FilterOut(a + b, gone) == FilterOut(a, gone) + FilterOut(b, gone)
    decreases |a|
  {
    if |a| == 0 {
      assert a + b == b;
    } else {
      assert (a + b)[1..] == a[1..] + b;
      FilterOutAppend(a[1..], b, gone);
    }
  }

  /** Filtering by the empty set changes nothing. */
  lemma {:induction false} FilterOutNothing(ids: seq<string>)
    ensures FilterOut(ids, {}) == ids
    decreases |ids|
  {
    if |ids| > 0 {
      FilterOutNothing(ids[1..]);
    }
  }

  /** Filtering twice is filtering once by both sets. */
  lemma {:induction false} FilterOutTwice(ids: seq<string>, a: set<string>, b: set<string>)
    ensures FilterOut(FilterOut(ids, a), b) == FilterOut(ids, a + b)
    decreases |ids|
  {
    if |ids| > 0 {
      FilterOutTwice(ids[1..], a, b);
    }
  }

  /** `storeImage`'s write: the record under its key, and its id pushed onto the index (no presence check). */
  function Put(st: StoreState, rec: MediaRecord): (r: StoreState)
    ensures r.records == st.records[rec.id := Parsed(rec)]
    ensures st.index.Some? ==> r.index == Some(st.index.value + [rec.id])
    ensures st.index.None? ==> r.index == None
  {
    StoreState(st.records[rec.id := Parsed(rec)],
               if st.index.Some? then Some(st.index.value + [rec.id]) else None)
  }

  /**
   * Which `setItem` call of a store the browser refuses with a
   * `QuotaExceededError` (a data URL of a 5 MiB file is larger than the usual
   * quota): none, the record's, or the index's. A refused `setItem` leaves
   * its key as it was.
   */
  datatype Quota = Fits | RecordRefused | IndexRefused

  /** Why a store throws: the index text is not a JSON array, or a `setItem` was refused. */
  datatype StoreError = IndexNotArray | QuotaExceeded

  /**
   * The write shared by `storeImage` and the YouTube and HTML handlers, step
   * by step: `setItem` of the record, `JSON.parse` of the index, `push`, and
   * `setItem` of the index. The first step that throws ends the write, and
   * what it already wrote stays.
   */
  function Store(st: StoreState, rec: MediaRecord, quota: Quota): (r: (StoreState, Option<StoreError>))
    ensures r.1.None? <==> quota == Fits && st.index.Some?
    ensures r.1.None? ==> r.0 == Put(st, rec)
    ensures quota == RecordRefused ==> r == (st, Some(QuotaExceeded))
    ensures quota != RecordRefused ==> r.0.records == st.records[rec.id := Parsed(rec)]
    ensures r.1.Some? ==> r.0.index == st.index
    ensures r.1 == Some(IndexNotArray) <==> quota != RecordRefused && st.index.None?
  {
    if quota.RecordRefused? then (st, Some(QuotaExceeded))
    else if st.index.None? then (Put(st, rec), Some(IndexNotArray))
    else if quota.IndexRefused? then (st.(records := st.records[rec.id := Parsed(rec)]), Some(QuotaExceeded))
    else (Put(st, rec), None)
  }

  /**
   * When the index write is refused, the new record stays under its key but
   * no index entry names it: `getAllImages` never lists it, and cleanup,
   * which only visits indexed records, never deletes it.
   */
  lemma RefusedIndexOrphansRecord(st: StoreState, rec: MediaRecord, content: string)
    requires WellKeyed(st) && st.index.Some? && rec.id !in st.index.value
    ensures var after := Store(st, rec, IndexRefused).0;
      Lookup(after, rec.id) == Some(rec)
      && rec !in AllImages(after)
      && Lookup(Cleaned(after, content), rec.id) == Some(rec)
  {
    var after := Store(st, rec, IndexRefused).0;
    assert WellKeyed(after);
    ResolveMembers(after.index.value, after.records, rec);
    CleanedDeletesExactly(after, content, rec.id);
  }

  /** `getImage`: the parsed record under the id's key, or `null` when the key is absent or unparsable. */
  function Lookup(st: StoreState, id: string): (r: Option<MediaRecord>)
    ensures r.Some? <==> id in st.records && st.records[id].Parsed?
    ensures r.Some? ==> st.records[id] == Parsed(r.value)
  {
    if id in st.records && st.records[id].Parsed? then Some(st.records[id].rec) else None
  }

  /** `ids.map(getImage).filter(Boolean)`. */
  function Resolve(ids: seq<string>, records: map<string, Stored>): (r: seq<MediaRecord>)
    ensures |r| <= |ids|
    decreases |ids|
  {
    if |ids| == 0 then []
    else if ids[0] in records && records[ids[0]].Parsed? then [records[ids[0]].rec] + Resolve(ids[1..], records)
    else Resolve(ids[1..], records)
  }

  /** A record is resolved exactly when some indexed id points at it. */
  lemma {:induction false} ResolveMembers(ids: seq<string>, records: map<string, Stored>, m: MediaRecord)
    ensures m in Resolve(ids, records) <==>
            exists k :: 0 <= k < |ids| && ids[k] in records && records[ids[k]] == Parsed(m)
    decreases |ids|
  {
    if |ids| > 0 {
      ResolveMembers(ids[1..], records, m);
      if exists k :: 0 <= k < |ids| && ids[k] in records && records[ids[k]] == Parsed(m) {
        var k :| 0 <= k < |ids| && ids[k] in records && records[ids[k]] == Parsed(m);
        if k > 0 { assert ids[1..][k - 1] == ids[k]; }
      }
      if exists k :: 0 <= k < |ids| - 1 && ids[1..][k] in records && records[ids[1..][k]] == Parsed(m) {
        var k :| 0 <= k < |ids| - 1 && ids[1..][k] in records && records[ids[1..][k]] == Parsed(m);
        assert ids[k + 1] == ids[1..][k];
      }
    }
  }

  /** Resolving keeps index order: resolving a concatenation concatenates the results. */
  lemma {:induction false} ResolveAppend(a: seq<string>, b: seq<string>, records: map<string, Stored>)
    ensures Resolve(a + b, records) == Resolve(a, records) + Resolve(b, records)
    decreases |a|
  {
    if |a| == 0 {
      assert a + b == b;
    } else {
      assert (a + b)[1..] == a[1..] + b;
      ResolveAppend(a[1..], b, records);
    }
  }

  /** `getAllImages`: the records of the indexed ids in index order, or `[]` when the index cannot be parsed. */
  function AllImages(st: StoreState): seq<MediaRecord> {
    if st.index.Some? then Resolve(st.index.value, st.records) else []
  }

  /** Removal of a set of ids: their record keys and every occurrence in the index. */
  function DeleteAll(st: StoreState, gone: set<string>): (r: StoreState)
    ensures r.records.Keys == st.records.Keys - gone
    ensures forall id :: id in r.records ==> r.records[id] == st.records[id]
    ensures st.index.Some? ==> r.index == Some(FilterOut(st.index.value, gone))
    ensures st.index.None? ==> r.index == None
  {
    StoreState(st.records - gone, if st.index.Some? then Some(FilterOut(st.index.value, gone)) else None)
  }

  /** `deleteImage`: the record key goes, and so does every occurrence of the id in the index. */
  function Delete(st: StoreState, id: string): StoreState {
    DeleteAll(st, {id})
  }

  /** Deleting one set after another is deleting their union. */
  lemma DeleteAllTwice(st: StoreState, a: set<string>, b: set<string>)
    ensures DeleteAll(DeleteAll(st, a), b) == DeleteAll(st, a + b)
  {
    if st.index.Some? { FilterOutTwice(st.index.value, a, b); }
    assert (st.records - a) - b == st.records - (a + b);
  }

  // ---------------------------------------------------------------------
  // Scanning content for `data-image-id="..."` (the global regex of cleanup)
  // ---------------------------------------------------------------------

  const ImageIdAttr := "data-image-id=\""

  /**
   * The regex `data-image-id="([^"]+)"` tried at the start of `s`: the
   * captured id and the length of the whole match. `[^"]+` cannot pass a
   * quote, so the id runs up to the first quote after the attribute name and
   * must be non-empty.
   */
  function MatchAt(s: string): (r: Option<(string, nat)>)
    ensures r.Some? ==> 0 < r.value.1 <= |s|
    ensures r.Some? ==> s[..r.value.1] == ImageIdAttr + r.value.0 + "\""
    ensures r.Some? ==> r.value.0 != "" && '"' !in r.value.0
  {
    if ImageIdAttr <= s then
      var rest := s[|ImageIdAttr|..];
      var q := IndexOf(rest, '"');
      if 0 < q < |rest| then
        assert s[..|ImageIdAttr| + q + 1] == ImageIdAttr + rest[..q] + "\"";
        Some((rest[..q], |ImageIdAttr| + q + 1))
      else None
    else None
  }

  /** The ids named by `data-image-id="..."` attributes in `s`, in order of appearance (the `usedImageIds` list). */
  function ImageIdRefs(s: string): (r: seq<string>)
    ensures forall id :: id in r ==> id != "" && '"' !in id && Contains(s, ImageIdAttr + id + "\"")
    decreases |s|
  {
    if |s| == 0 then []
    else match MatchAt(s)
      case Some((id, len)) =>
        var rest := ImageIdRefs(s[len..]);
        assert OccursAt(s, ImageIdAttr + id + "\"", 0);
        ContainsIffOccurs(s, ImageIdAttr + id + "\"");
        forall x | x in rest ensures Contains(s, ImageIdAttr + x + "\"") {
          ContainsSuffix(s, len, ImageIdAttr + x + "\"");
        }
        [id] + rest
      case None =>
        var rest := ImageIdRefs(s[1..]);
        forall x | x in rest ensures Contains(s, ImageIdAttr + x + "\"") {
          ContainsSuffix(s, 1, ImageIdAttr + x + "\"");
        }
        rest
  }

  /** What occurs in a suffix occurs in the whole string. */
  lemma ContainsSuffix(s: string, n: nat, t: string)
    requires n <= |s|
    ensures Contains(s[n..], t) ==> Contains(s, t)
  {
    if Contains(s[n..], t) {
      ContainsIffOccurs(s[n..], t);
      var i :| OccursAt(s[n..], t, i);
      assert OccursAt(s, t, n + i);
      ContainsIffOccurs(s, t);
    }
  }

  /** An attribute written as `data-image-id="<id>"` at the front of the content is the first id found. */
  lemma RefFoundAtFront(id: string, rest: string)
    requires id != "" && '"' !in id
    ensures ImageIdRefs(ImageIdAttr + id + "\"" + rest) == [id] + ImageIdRefs(rest)
  {
    var s := ImageIdAttr + id + "\"" + rest;
    assert ImageIdAttr <= s;
    var tail := s[|ImageIdAttr|..];
    assert tail == id + "\"" + rest;
    assert IndexOf(tail, '"') == |id| by {
      assert tail[|id|] == '"';
      assert forall k :: 0 <= k < |id| ==> tail[k] == id[k];
    }
    assert tail[..|id|] == id;
    assert s[|ImageIdAttr| + |id| + 1..] == rest;
  }

  /**
   * `imageIdRegex.exec(content)` with `lastIndex == from`: the first match at
   * or after `from`, as (captured id, index just past the match).
   */
  function Exec(content: string, from: nat): (r: Option<(string, nat)>)
    requires from <= |content|
    ensures r.Some? ==> from < r.value.1 <= |content|
    decreases |content| - from
  {
    if from == |content| then None
    else match MatchAt(content[from..])
      case Some((id, len)) => Some((id, from + len))
      case None => Exec(content, from + 1)
  }

  /** One `exec` step peels the next id off the remaining references. */
  lemma {:induction false} ExecStep(content: string, from: nat)
    requires from <= |content|
    ensures Exec(content, from).None? ==> ImageIdRefs(content[from..]) == []
    ensures Exec(content, from).Some? ==>
      ImageIdRefs(content[from..]) == [Exec(content, from).value.0] + ImageIdRefs(content[Exec(content, from).value.1..])
    decreases |content| - from
  {
    if from < |content| {
      match MatchAt(content[from..])
      case Some((id, len)) =>
        assert content[from..][len..] == content[from + len..];
      case None =>
        assert content[from..][1..] == content[from + 1..];
        ExecStep(content, from + 1);
    }
  }

  /** The ids of the first `n` records of `all` that `used` does not name. */
  function DoomedUpTo(all: seq<MediaRecord>, used: seq<string>, n: nat): set<string>
    requires n <= |all|
  {
    set k | 0 <= k < n && all[k].id !in used :: all[k].id
  }

  lemma DoomedUpToStep(all: seq<MediaRecord>, used: seq<string>, n: nat)
    requires n < |all|
    ensures DoomedUpTo(all, used, n + 1) ==
            DoomedUpTo(all, used, n) + (if all[n].id !in used then {all[n].id} else {})
  {
  }

  /** The ids `cleanupUnusedImages` deletes: records it can read whose id no attribute names. */
  function Doomed(st: StoreState, content: string): set<string> {
    DoomedUpTo(AllImages(st), ImageIdRefs(content), |AllImages(st)|)
  }

  /** The store after `cleanupUnusedImages(content)`. */
  function Cleaned(st: StoreState, content: string): StoreState {
    DeleteAll(st, Doomed(st, content))
  }

  /**
   * Cleanup deletes exactly the stored, parsable, indexed records whose id no
   * `data-image-id` attribute names, keeps every other record unchanged, and
   * drops only those ids from the index.
   */
  lemma CleanedDeletesExactly(st: StoreState, content: string, id: string)
    requires WellKeyed(st)
    ensures var after := Cleaned(st, content);
      (id in after.records <==>
        id in st.records &&
        !(st.index.Some? && id in st.index.value && st.records[id].Parsed? && id !in ImageIdRefs(content)))
      && (id in after.records ==> after.records[id] == st.records[id])
  {
    var all := AllImages(st);
    if st.index.Some? {
      var ids := st.index.value;
      if id in Doomed(st, content) {
        var k :| 0 <= k < |all| && all[k].id !in ImageIdRefs(content) && all[k].id == id;
        ResolveMembers(ids, st.records, all[k]);
      }
      if id in st.records && id in ids && st.records[id].Parsed? && id !in ImageIdRefs(content) {
        var m := st.records[id].rec;
        ResolveMembers(ids, st.records, m);
        var k :| 0 <= k < |all| && all[k] == m;
        assert id in Doomed(st, content);
      }
    }
  }

  /** Markup that names an image id carries a `data-image-id` attribute. */
  lemma RefsNeedImageIdAttr(s: string)
    ensures ImageIdRefs(s) != [] ==> Contains(s, ImageIdAttr)
  {
    if ImageIdRefs(s) != [] {
      var id := ImageIdRefs(s)[0];
      assert ImageIdAttr + id + "\"" == ImageIdAttr + (id + "\"");
      ContainsHead(s, ImageIdAttr, id + "\"");
    }
  }

  /**
   * Cleanup against markup that carries no `data-image-id` attribute deletes
   * every stored, parsable, indexed record.
   */
  lemma CleanupWithoutImageIdsDeletesIndexed(st: StoreState, content: string, id: string)
    requires WellKeyed(st) && !Contains(content, ImageIdAttr)
    requires st.index.Some? && id in st.index.value && id in st.records && st.records[id].Parsed?
    ensures id !in Cleaned(st, content).records
  {
    RefsNeedImageIdAttr(content);
    CleanedDeletesExactly(st, content, id);
  }

  /** Running cleanup twice on the same content equals running it once. */
  lemma CleanedIdempotent(st: StoreState, content: string)
    requires WellKeyed(st)
    ensures Cleaned(Cleaned(st, content), content) == Cleaned(st, content)
  {
    var once := Cleaned(st, content);
    var d := Doomed(st, content);
    if st.index.Some? {
      var all' := AllImages(once);
      forall k | 0 <= k < |all'| ensures all'[k].id in ImageIdRefs(content) {
        var m := all'[k];
        ResolveMembers(once.index.value, once.records, m);
        var j :| 0 <= j < |once.index.value| && once.index.value[j] in once.records && once.records[once.index.value[j]] == Parsed(m);
        var x := once.index.value[j];
        assert x in st.index.value && x !in d;
        assert st.records[x] == Parsed(m);
        assert m.id == x;
        ResolveMembers(st.index.value, st.records, m);
        var i :| 0 <= i < |AllImages(st)| && AllImages(st)[i] == m;
      }
      assert Doomed(once, content) == {};
    } else {
      assert Doomed(once, content) == {};
    }
    DeleteAllTwice(st, d, {});
    assert d + {} == d;
  }

  /** Cleanup and deletion keep every record under its own id. */
  lemma DeleteAllWellKeyed(st: StoreState, gone: set<string>)
    requires WellKeyed(st)
    ensures WellKeyed(DeleteAll(st, gone))
  {
  }

  /**
   * YouTube and HTML records share the image prefix and index, so cleanup
   * removes them too unless their id happens to be named by a
   * `data-image-id` attribute.
   */
  lemma EmbedRecordsAreCleanedUp(st: StoreState, content: string, id: string)
    requires WellKeyed(st) && st.index.Some?
    requires id in st.index.value && id in st.records && st.records[id].Parsed?
    requires st.records[id].rec.YouTube? || st.records[id].rec.Html?
    requires id !in ImageIdRefs(content)
    ensures id !in Cleaned(st, content).records
    ensures Lookup(Cleaned(st, content), id) == None
  {
    CleanedDeletesExactly(st, content, id);
  }

  /** Storing the same id twice leaves it in the index twice: `Put` never checks for presence. */
  lemma {:induction false} PutTwiceDuplicates(st: StoreState, r1: MediaRecord, r2: MediaRecord)
    requires st.index.Some? && r1.id == r2.id
    ensures var after := Put(Put(st, r1), r2);
      after.index.Some? && multiset(after.index.value)[r1.id] == multiset(st.index.value)[r1.id] + 2
      && Lookup(after, r1.id) == Some(r2)
  {
    var ids := st.index.value;
    assert Put(Put(st, r1), r2).index.value == ids + [r1.id] + [r2.id];
    assert multiset(ids + [r1.id] + [r2.id]) == multiset(ids) + multiset{r1.id, r2.id};
  }

  /** After `Delete(id)` the id is nowhere in the index and its record is gone; other ids keep their counts. */
  lemma {:induction false} DeleteRemovesEveryOccurrence(st: StoreState, id: string, other: string)
    requires st.index.Some? && other != id
    ensures Delete(st, id).index.Some?
    ensures multiset(Delete(st, id).index.value)[id] == 0
    ensures multiset(Delete(st, id).index.value)[other] == multiset(st.index.value)[other]
    ensures Lookup(Delete(st, id), id) == None
  {
    FilterOutCounts(st.index.value, {id}, other);
  }

  /** Filtering keeps the multiplicity of every surviving id. */
  lemma {:induction false} FilterOutCounts(ids: seq<string>, gone: set<string>, x: string)
    ensures multiset(FilterOut(ids, gone))[x] == if x in gone then 0 else multiset(ids)[x]
    decreases |ids|
  {
    if |ids| > 0 {
      FilterOutCounts(ids[1..], gone, x);
      assert ids == [ids[0]] + ids[1..];
      if ids[0] !in gone {
        assert multiset([ids[0]] + FilterOut(ids[1..], gone)) == multiset([ids[0]]) + multiset(FilterOut(ids[1..], gone));
      }
    }
  }

  /**
   * The blob store as the page sees it: one object whose methods read, parse,
   * modify and write back the index, and set or remove record keys.
   */
  class BlobStore {
    var records: map<string, Stored>
    var index: Option<seq<string>>

    function State(): StoreState
      reads this
    {
      StoreState(records, index)
    }

    ghost predicate Valid()
      reads this
    {
      WellKeyed(State())
    }

    /** An empty localStorage. */
    constructor ()
      ensures Valid() && State() == StoreState(map[], Some([]))
    {
      records := map[];
      index := Some([]);
    }

    /**
     * The write shared by `storeImage` and the YouTube and HTML handlers:
     * `setItem` of the record, then read-modify-write of the index. `quota`
     * says which `setItem`, if any, the browser refuses; `err` is what the
     * write throws.
     */
    method StoreRecord(rec: MediaRecord, quota: Quota) returns (err: Option<StoreError>)
      requires Valid()
      modifies this
      ensures Valid()
      ensures (State(), err) == Store(old(State()), rec, quota)
    {
      if quota == RecordRefused {
        return Some(QuotaExceeded);
      }
      records := records[rec.id := Parsed(rec)];
      match index {
        case Some(ids) =>
          var stored := ids;
          stored := stored + [rec.id];
          if quota == IndexRefused {
            err := Some(QuotaExceeded);
          } else {
            index := Some(stored);
            err := None;
          }
        case None =>
          err := Some(IndexNotArray);
      }
    }

    /**
     * `storeImage(file, imageId)` once the file has been read as the data URL
     * `data`: builds the image record and stores it; resolves with the record
     * when the whole write went through, and rejects with what it threw
     * otherwise.
     */
    method StoreImage(file: FileInfo, imageId: string, data: string, timestamp: string, quota: Quota)
      returns (r: Result<MediaRecord, StoreError>)
      requires Valid()
      modifies this
      ensures Valid()
      ensures var rec := Image(imageId, file.name, file.mime, file.size, data, timestamp);
        var (after, err) := Store(old(State()), rec, quota);
        State() == after
        && (r.Ok? <==> err.None?)
        && (r.Ok? ==> r.value == rec)
        && (r.Err? ==> err == Some(r.error))
    {
      var rec := Image(imageId, file.name, file.mime, file.size, data, timestamp);
      var err := StoreRecord(rec, quota);
      if err.None? {
        r := Ok(rec);
      } else {
        r := Err(err.value);
      }
    }

    /** `getImage(imageId)`: never throws; `None` stands for `null`. */
    method GetImage(imageId: string) returns (r: Option<MediaRecord>)
      ensures r == Lookup(State(), imageId)
    {
      if imageId in records && records[imageId].Parsed? {
        r := Some(records[imageId].rec);
      } else {
        r := None;
      }
    }

    /** `getAllImages()`: never throws. */
    method GetAllImages() returns (all: seq<MediaRecord>)
      requires Valid()
      ensures all == AllImages(State())
      ensures forall m :: m in all ==> index.Some? && m.id in index.value && Lookup(State(), m.id) == Some(m)
    {
      all := AllImages(State());
      forall m | m in all ensures index.Some? && m.id in index.value && Lookup(State(), m.id) == Some(m) {
        ResolveMembers(index.value, records, m);
        var k :| 0 <= k < |index.value| && index.value[k] in records && records[index.value[k]] == Parsed(m);
        assert m.id == index.value[k];
      }
    }

    /** `deleteImage(imageId)`: removes the key, then filters the index; a parse error is swallowed. */
    method DeleteImage(imageId: string)
      requires Valid()
      modifies this
      ensures Valid()
      ensures State() == Delete(old(State()), imageId)
    {
      records := records - {imageId};
      match index {
        case Some(ids) => index := Some(FilterOut(ids, {imageId}));
        case None =>
      }
    }

    /**
     * The `while (regex.exec(...))` loop of `cleanupUnusedImages`: every
     * `data-image-id` value of the content, in order of appearance.
     */
    static method CollectImageIds(editorContent: string) returns (usedImageIds: seq<string>)
      ensures usedImageIds == ImageIdRefs(editorContent)
    {
      usedImageIds := [];
      var lastIndex: nat := 0;
      var found := Exec(editorContent, lastIndex);
      while found.Some?
        invariant lastIndex <= |editorContent|
        invariant found == Exec(editorContent, lastIndex)
        invariant usedImageIds + ImageIdRefs(editorContent[lastIndex..]) == ImageIdRefs(editorContent)
        decreases |editorContent| - lastIndex
      {
        ExecStep(editorContent, lastIndex);
        usedImageIds := usedImageIds + [found.value.0];
        lastIndex := found.value.1;
        found := Exec(editorContent, lastIndex);
      }
      ExecStep(editorContent, lastIndex);
    }

    /**
     * `cleanupUnusedImages(editorContent)`: collect every `data-image-id`
     * value, then delete each readable record whose id was not collected.
     */
    method CleanupUnusedImages(editorContent: string)
      requires Valid()
      modifies this
      ensures Valid()
      ensures State() == Cleaned(old(State()), editorContent)
    {
      var allImages := AllImages(State());
      var usedImageIds := CollectImageIds(editorContent);
      ghost var start := State();
      if index.Some? { FilterOutNothing(index.value); }
      assert DeleteAll(start, {}) == start by { assert records - {} == records; }
      var i := 0;
      assert DoomedUpTo(allImages, usedImageIds, 0) == {};
      while i < |allImages|
        invariant i <= |allImages|
        invariant Valid()
        invariant State() == DeleteAll(start, DoomedUpTo(allImages, usedImageIds, i))
      {
        ghost var done := DoomedUpTo(allImages, usedImageIds, i);
        DoomedUpToStep(allImages, usedImageIds, i);
        if allImages[i].id !in usedImageIds {
          DeleteAllTwice(start, done, {allImages[i].id});
          DeleteImage(allImages[i].id);
          assert State() == DeleteAll(start, done + {allImages[i].id});
        } else {
          assert DoomedUpTo(allImages, usedImageIds, i + 1) == done;
        }
        i := i + 1;
      }
    }
  }
}

=== FILE: metadata.dfy ===
/**
 * The field choices of src/utils/metadataFetcher.js, given what the network
 * produced: the fallback metadata synthesised from a hostname and a path
 * (`getEnhancedFallbackMetadata`), the metadata picked from a scraped page's
 * tags by either proxy, and the last-resort record of the outer `catch`.
 * Hostname and pathname are inputs, as the URL parser gives them.
 */
module Metadata {
  import opened Wrappers
  import opened Strings

  datatype Meta = Meta(title: string, description: string, image: string, favicon: string, site: string, url: string)

  /** Google's favicon service for `domain` at size `size`. */
  function FaviconUrl(size: string, domain: string): string {
    "https://www.google.com/s2/favicons?sz=" + size + "&domain=" + domain
  }

  // ---------------------------------------------------------------------
  // Known domains
  // ---------------------------------------------------------------------

  /** The ten hostnames with a canned title and description. */
  const DomainMappings: map<string, (string, string)> := map[
    "github.com" := ("GitHub Repository", "Explore code, issues, and pull requests on GitHub"),
    "stackoverflow.com" := ("Stack Overflow Question", "Programming Q&A and developer community"),
    "medium.com" := ("Medium Article", "Read stories and ideas from writers and experts"),
    "dev.to" := ("DEV Community Post", "The constructive and inclusive social network for software developers"),
    "youtube.com" := ("YouTube Video", "Watch videos on YouTube"),
    "twitter.com" := ("Twitter Post", "See what's happening on Twitter"),
    "x.com" := ("X (Twitter) Post", "See what's happening on X"),
    "linkedin.com" := ("LinkedIn Post", "Professional networking and career content"),
    "reddit.com" := ("Reddit Post", "Dive into anything on Reddit"),
    "wikipedia.org" := ("Wikipedia Article", "Free encyclopedia that anyone can edit")
  ]

  /**
   * `domainMappings[domain] || {title: domain, description: ...}`, reading
   * only the table's own entries.
   */
  function BaseMapping(domain: string): (r: (string, string))
    ensures domain in DomainMappings ==> r == DomainMappings[domain]
    ensures domain !in DomainMappings ==> r == (domain, "Visit " + domain + " for more information")
  {
    if domain in DomainMappings then DomainMappings[domain] else (domain, "Visit " + domain + " for more information")
  }

  /**
   * The names an object literal inherits from `Object.prototype`, which
   * `domainMappings[domain]` then finds. A hostname can be one of them:
   * `http://constructor/` names a lower-case one, and the opaque host of a
   * non-special URL keeps its case (`foo://toString/`, `foo://valueOf/`).
   */
  const InheritedNames: set<string> := {
    "constructor", "__proto__", "toString", "toLocaleString", "valueOf",
    "hasOwnProperty", "isPrototypeOf", "propertyIsEnumerable",
    "__defineGetter__", "__defineSetter__", "__lookupGetter__", "__lookupSetter__"
  }

  /**
   * The mapping as written: an inherited member is truthy but has no
   * `title` or `description`, so both read as `undefined` (`None`).
   */
  function BaseMappingAsWritten(domain: string): (r: (Option<string>, Option<string>))
    ensures r.0.None? <==> domain in InheritedNames
    ensures r.1.None? <==> r.0.None?
    ensures domain !in DomainMappings && domain !in InheritedNames ==>
      r == (Some(domain), Some("Visit " + domain + " for more information"))
  {
    InheritedNotMapped();
    if domain in DomainMappings then (Some(DomainMappings[domain].0), Some(DomainMappings[domain].1))
    else if domain in InheritedNames then (None, None)
    else (Some(domain), Some("Visit " + domain + " for more information"))
  }

  /**
   * As written, a hostname that names an inherited member gets neither a
   * title nor a description, where every other unmapped hostname gets both.
   */
  lemma InheritedHostHasNoTitle(domain: string)
    requires domain in InheritedNames
    ensures domain !in DomainMappings
    ensures BaseMappingAsWritten(domain) == (None, None)
    ensures BaseMapping(domain).0 == domain
  {
    InheritedNotMapped();
  }

  /** No inherited name is a mapped hostname. */
  lemma InheritedNotMapped()
    ensures forall d :: d in InheritedNames ==> d !in DomainMappings
  {
    forall d | d in InheritedNames
      ensures d !in DomainMappings
    {
      assert |d| >= 2 && d[0] in "_chiptv" && (d[0] == 't' ==> d[1] == 'o');
      NotMapped(d);
    }
  }

  /**
   * Every mapped hostname starts with one of these letters; only
   * `wikipedia.org` starts with "wi" and only `twitter.com` with "tw".
   */
  lemma NotMapped(d: string)
    requires |d| >= 2 && d[0] !in "gsmdyxlr"
    requires d[0] == 'w' ==> d[1] != 'i'
    requires d[0] == 't' ==> d[1] != 'w'
    ensures d !in DomainMappings
  {
  }

  /** Away from the inherited names, the table lookup as written is the own-entry lookup. */
  lemma BaseMappingAgrees(domain: string)
    requires domain !in InheritedNames
    ensures BaseMappingAsWritten(domain) == (Some(BaseMapping(domain).0), Some(BaseMapping(domain).1))
  {
  }

  // ---------------------------------------------------------------------
  // Titles from the path
  // ---------------------------------------------------------------------

  /** `\w`: ASCII letters, digits and `_`. */
  predicate IsWordChar(c: char) {
    'A' <= c <= 'Z' || 'a' <= c <= 'z' || '0' <= c <= '9' || c == '_'
  }

  /** `\b\w` matches at `i`: a word character not preceded by one. */
  predicate WordStart(s: string, i: nat)
    requires i < |s|
  {
    IsWordChar(s[i]) && (i == 0 || !IsWordChar(s[i - 1]))
  }

  /** `.replace(/\b\w/g, l => l.toUpperCase())`. */
  function Capitalise(s: string): (r: string)
    ensures |r| == |s|
    ensures forall i :: 0 <= i < |s| ==> r[i] == if WordStart(s, i) then UpperChar(s[i]) else s[i]
  {
    seq(|s|, i requires 0 <= i < |s| => if WordStart(s, i) then UpperChar(s[i]) else s[i])
  }

  /** Upper-casing keeps word characters word characters, so capitalising twice changes nothing more. */
  lemma CapitaliseIdempotent(s: string)
    ensures Capitalise(Capitalise(s)) == Capitalise(s)
  {
    var c := Capitalise(s);
    assert forall i :: 0 <= i < |s| ==> (IsWordChar(c[i]) <==> IsWordChar(s[i]));
    assert forall i :: 0 <= i < |s| ==> (WordStart(c, i) <==> WordStart(s, i));
  }

  /** A one-character replacement keeps the length. */
  lemma {:induction false} ReplaceCharLength(s: string, c: char, rep: string)
    requires |rep| == 1
    ensures |ReplaceChar(s, c, rep)| == |s|
    decreases |s|
  {
    if |s| > 0 {
      ReplaceCharLength(s[1..], c, rep);
    }
  }

  /** The last path segment made readable: '-' and '_' to spaces, then each word capitalised. */
  function CleanTitle(seg: string): (r: string)
    ensures |r| == |seg|
    ensures '-' !in r && '_' !in r
  {
    var spaced := ReplaceChar(ReplaceChar(seg, '-', " "), '_', " ");
    ReplaceCharLength(seg, '-', " ");
    ReplaceCharChars(ReplaceChar(seg, '-', " "), '_', " ");
    ReplaceCharLength(ReplaceChar(seg, '-', " "), '_', " ");
    var r := Capitalise(spaced);
    assert forall i :: 0 <= i < |r| ==> r[i] == spaced[i] || ('a' <= spaced[i] <= 'z');
    r
  }

  /** `.filter(part => part.length > 0)`. */
  function NonEmpty(parts: seq<string>): (r: seq<string>)
    ensures forall p :: p in r <==> p in parts && p != []
    decreases |parts|
  {
    if |parts| == 0 then [] else (if parts[0] == [] then [] else [parts[0]]) + NonEmpty(parts[1..])
  }

  /** Filtering distributes over concatenation. */
  lemma {:induction false} NonEmptyAppend(a: seq<string>, b: seq<string>)
    ensures NonEmpty(a + b) == NonEmpty(a) + NonEmpty(b)
    decreases |a|
  {
    if |a| > 0 {
      assert (a + b)[1..] == a[1..] + b;
      NonEmptyAppend(a[1..], b);
    } else {
      assert a + b == b;
    }
  }

  /**
   * The title after the path is looked at: unchanged for an empty path or
   * '/', or when the path has no non-empty segment, or when the cleaned last
   * segment is at most 3 characters long; otherwise '<clean> - <base>'.
   */
  function PathTitle(path: string, base: string): string {
    if path == [] || path == "/" then base
    else
      var parts := NonEmpty(Split(path, '/'));
      if |parts| == 0 then base
      else
        var clean := CleanTitle(parts[|parts| - 1]);
        if |clean| > 3 then clean + " - " + base else base
  }

  /** Splitting at a separator splits each side on its own. */
  lemma {:induction false} SplitConcat(x: string, y: string, sep: char)
    ensures Split(x + [sep] + y, sep) == Split(x, sep) + Split(y, sep)
    decreases |x|
  {
    var i := IndexOf(x, sep);
    if i == |x| {
      SplitAt(x, y, sep);
      SplitNone(x, sep);
    } else {
      var x1, x2 := x[..i], x[i + 1..];
      assert x == x1 + [sep] + x2;
      assert sep !in x1 by {
        assert forall k :: 0 <= k < |x1| ==> x1[k] == x[k];
      }
      calc {
        Split(x + [sep] + y, sep);
        { assert x + [sep] + y == x1 + [sep] + x2 + [sep] + y; }
        Split(x1 + [sep] + x2 + [sep] + y, sep);
        { SplitRegroup(x1, x2, y, sep); }
        [x1] + Split(x2 + [sep] + y, sep);
        { SplitConcat(x2, y, sep); }
        [x1] + (Split(x2, sep) + Split(y, sep));
        ([x1] + Split(x2, sep)) + Split(y, sep);
        { SplitAt(x1, x2, sep); }
        Split(x, sep) + Split(y, sep);
      }
    }
  }

  /** Splitting `x1 + sep + x2 + sep + y` peels off `x1` first. */
  lemma SplitRegroup(x1: string, x2: string, y: string, sep: char)
    requires sep !in x1
    ensures Split(x1 + [sep] + x2 + [sep] + y, sep) == [x1] + Split(x2 + [sep] + y, sep)
  {
    var rest := x2 + [sep] + y;
    assert x1 + [sep] + x2 + [sep] + y == x1 + [sep] + rest;
    SplitAt(x1, rest, sep);
  }

  /**
   * The title comes from the last non-empty segment of the path, with or
   * without a trailing '/'.
   */
  lemma PathTitleLastSegment(dir: string, seg: string, trailing: bool, base: string)
    requires seg != [] && '/' !in seg
    ensures var path := dir + "/" + seg + (if trailing then "/" else "");
      PathTitle(path, base) == if |seg| > 3 then CleanTitle(seg) + " - " + base else base
  {
    var path := dir + "/" + seg + (if trailing then "/" else "");
    LastSegment(dir, seg, trailing);
    assert path != "/" by { assert |path| >= 2; }
  }

  /** The non-empty segments of such a path end with `seg`. */
  lemma LastSegment(dir: string, seg: string, trailing: bool)
    requires seg != [] && '/' !in seg
    ensures var parts := NonEmpty(Split(dir + "/" + seg + (if trailing then "/" else ""), '/'));
      |parts| > 0 && parts[|parts| - 1] == seg
  {
    var path := dir + "/" + seg + (if trailing then "/" else "");
    var tail := if trailing then seg + ['/'] + "" else seg;
    assert path == dir + ['/'] + tail;
    SplitConcat(dir, tail, '/');
    SegmentsOfTail(seg, trailing);
    NonEmptyAppend(Split(dir, '/'), Split(tail, '/'));
  }

  /** A final segment, with or without a trailing '/', filters down to itself. */
  lemma SegmentsOfTail(seg: string, trailing: bool)
    requires seg != [] && '/' !in seg
    ensures NonEmpty(Split(if trailing then seg + ['/'] + "" else seg, '/')) == [seg]
  {
    SplitNone(seg, '/');
    assert NonEmpty([seg]) == [seg] + NonEmpty([]);
    if trailing {
      SplitConcat(seg, "", '/');
      SplitNone("", '/');
      NonEmptyAppend([seg], [""]);
      assert [seg, ""] == [seg] + [""];
    }
  }

  /**
   * `getEnhancedFallbackMetadata(url, domain)` with `path` the URL's
   * pathname: the domain's mapping, its title refined by the path, and the
   * favicon service for the images.
   */
  function EnhancedFallback(url: string, domain: string, path: string): (m: Meta)
    ensures m.image == FaviconUrl("64", domain) && m.favicon == FaviconUrl("16", domain)
    ensures m.site == domain && m.url == url
    ensures m.description == BaseMapping(domain).1
    ensures path == [] || path == "/" ==> m.title == BaseMapping(domain).0
  {
    var mapping := BaseMapping(domain);
    Meta(PathTitle(path, mapping.0), mapping.1, FaviconUrl("64", domain), FaviconUrl("16", domain), domain, url)
  }

  /** `github.com` itself is mapped to its table title. */
  lemma GitHubMapped(url: string)
    ensures EnhancedFallback(url, "github.com", "/").title == "GitHub Repository"
  {
  }

  /** `www.github.com` is not in the table, so its title is its own name. */
  lemma WwwGitHubTitle(url: string)
    ensures EnhancedFallback(url, "www.github.com", "/").title == "www.github.com"
  {
    NotMapped("www.github.com");
  }

  /** `www.github.com` is not in the table, so its description is the generic one. */
  lemma WwwGitHubDescription(url: string)
    ensures EnhancedFallback(url, "www.github.com", "/").description == "Visit " + "www.github.com" + " for more information"
  {
    NotMapped("www.github.com");
  }

  /**
   * Only an exact hostname match is mapped: `www.github.com` falls back to
   * its own name.
   */
  lemma ExactHostnameOnly(url: string)
    ensures EnhancedFallback(url, "github.com", "/").title == "GitHub Repository"
    ensures EnhancedFallback(url, "www.github.com", "/").title == "www.github.com"
    ensures EnhancedFallback(url, "www.github.com", "/").description == "Visit " + "www.github.com" + " for more information"
  {
    GitHubMapped(url);
    WwwGitHubTitle(url);
    WwwGitHubDescription(url);
  }

  // ---------------------------------------------------------------------
  // Scraped pages and the last resort
  // ---------------------------------------------------------------------

  /** The tags a proxy's page may carry; `None` when absent. */
  datatype PageTags = PageTags(
    ogTitle: Option<string>, twitterTitle: Option<string>, titleText: Option<string>,
    ogDescription: Option<string>, twitterDescription: Option<string>, metaDescription: Option<string>,
    ogImage: Option<string>, twitterImage: Option<string>)

  /** `a || b || ... || fallback` over optional strings: the first one that is neither absent nor ''. */
  function FirstTruthy(cands: seq<Option<string>>, fallback: string): (r: string)
    ensures (forall i :: 0 <= i < |cands| ==> cands[i].None? || cands[i].value == []) ==> r == fallback
    ensures forall i :: (0 <= i < |cands| && cands[i].Some? && cands[i].value != []
              && (forall j :: 0 <= j < i ==> cands[j].None? || cands[j].value == [])) ==> r == cands[i].value
    decreases |cands|
  {
    if |cands| == 0 then fallback
    else if cands[0].Some? && cands[0].value != [] then cands[0].value
    else FirstTruthy(cands[1..], fallback)
  }

  /** `s.substring(0, n)`. */
  function Prefix(s: string, n: nat): (r: string)
    ensures |r| <= n && r <= s
    ensures |s| <= n ==> r == s
  {
    if |s| <= n then s else s[..n]
  }

  /** The record built from a page fetched through the first proxy. */
  function Scraped(tags: PageTags, domain: string, url: string): (m: Meta)
    ensures |m.title| <= 100 && |m.description| <= 200
    ensures m.favicon == FaviconUrl("16", domain) && m.site == domain && m.url == url
    ensures tags.ogTitle.Some? && tags.ogTitle.value != [] ==> m.title == Prefix(Trim(tags.ogTitle.value), 100)
  {
    var title := FirstTruthy([tags.ogTitle, tags.twitterTitle, tags.titleText], "Content from " + domain);
    var description := FirstTruthy([tags.ogDescription, tags.twitterDescription, tags.metaDescription],
                                   "Visit " + domain + " for more information");
    var image := FirstTruthy([tags.ogImage, tags.twitterImage], FaviconUrl("64", domain));
    Meta(Prefix(Trim(title), 100), Prefix(Trim(description), 200), image, FaviconUrl("16", domain), domain, url)
  }

  /** The record built from a page fetched through the second proxy, which reads no Twitter tags. */
  function ScrapedAlt(tags: PageTags, domain: string, url: string): (m: Meta)
    ensures |m.title| <= 100 && |m.description| <= 200
    ensures m.favicon == FaviconUrl("16", domain) && m.site == domain && m.url == url
  {
    var title := FirstTruthy([tags.ogTitle, tags.titleText], "Content from " + domain);
    var description := FirstTruthy([tags.ogDescription, tags.metaDescription], "Visit " + domain + " for more information");
    var image := FirstTruthy([tags.ogImage], FaviconUrl("64", domain));
    Meta(Prefix(Trim(title), 100), Prefix(Trim(description), 200), image, FaviconUrl("16", domain), domain, url)
  }

  /** The second proxy's record does not depend on the Twitter tags. */
  lemma ScrapedAltIgnoresTwitter(tags: PageTags, domain: string, url: string)
    ensures ScrapedAlt(tags, domain, url)
         == ScrapedAlt(tags.(twitterTitle := None, twitterDescription := None, twitterImage := None), domain, url)
  {
  }

  /** A page without title tags is titled after its domain. */
  lemma ScrapedUntitledPage(tags: PageTags, domain: string, url: string)
    requires tags.ogTitle.None? && tags.twitterTitle.None? && tags.titleText.None?
    ensures Scraped(tags, domain, url).title == Prefix(Trim("Content from " + domain), 100)
  {
    var fallback := "Content from " + domain;
    var cands := [tags.ogTitle, tags.twitterTitle, tags.titleText];
    assert FirstTruthy(cands, fallback) == fallback;
  }

  /**
   * The record of the outer `catch`, for a given hostname. As written it is
   * never returned: the `catch` is entered only when `new URL(url)` throws
   * before the hostname is known, and the `catch` then calls `new URL(url)`
   * again, which throws the same error out of `fetchMetadata`.
   */
  function ErrorFallback(url: string, domain: string): (m: Meta)
    ensures m.image == FaviconUrl("64", domain) && m.favicon == FaviconUrl("16", domain)
    ensures m.site == domain && m.url == url
  {
    Meta("Link from " + domain, "Click to visit this link", FaviconUrl("64", domain), FaviconUrl("16", domain), domain, url)
  }
}

=== FILE: photo_store.dfy ===
/**
 * The second, index-free image store of src/utils/imageStorage.js. Every
 * photo sits in localStorage under `ghost_image_<id>`; nothing records which
 * ids exist. The model keys entries by id (`PhotoKey` is injective), and the
 * key prefix is disjoint from the blob store's `blog-image-` prefix and its
 * `blog-images` index, so the two stores never touch each other's keys.
 */
module PhotoStore {
  import opened Wrappers
  import opened Strings
  import MediaStore

  const PhotoPrefix := "ghost_image_"

  /** The localStorage key of a photo. */
  function PhotoKey(id: string): string {
    PhotoPrefix + id
  }

  /**
   * Photo keys are injective and never collide with a key of the blob store
   * (a record key or its index key).
   */
  lemma PhotoKeysDisjoint(a: string, b: string)
    ensures PhotoKey(a) == PhotoKey(b) ==> a == b
    ensures PhotoKey(a) != MediaStore.RecordKey(b)
    ensures PhotoKey(a) != MediaStore.IndexKey
  {
    if PhotoKey(a) == PhotoKey(b) {
      assert a == PhotoKey(a)[|PhotoPrefix|..];
      assert b == PhotoKey(b)[|PhotoPrefix|..];
    }
    assert PhotoKey(a)[0] == 'g';
    assert MediaStore.RecordKey(b)[0] == 'b';
    assert MediaStore.IndexKey[0] == 'b';
  }

  /**
   * `img_${Date.now()}_${suffix}`, where the suffix stands for the up to nine
   * base-36 digits `Math.random()` contributes.
   */
  function GenerateId(now: nat, suffix: string): (id: string)
    ensures |id| > |"img_"| && id[..4] == "img_"
  {
    "img_" + NatToString(now) + "_" + suffix
  }

  /**
   * Two generated ids are equal only when both the clock reading and the
   * random suffix are: the decimal clock reading holds no '_'.
   */
  lemma GenerateIdInjective(n1: nat, s1: string, n2: nat, s2: string)
    ensures GenerateId(n1, s1) == GenerateId(n2, s2) <==> n1 == n2 && s1 == s2
  {
    if GenerateId(n1, s1) == GenerateId(n2, s2) {
      var d1, d2 := NatToString(n1), NatToString(n2);
      var g := GenerateId(n1, s1);
      assert '_' !in d1 && '_' !in d2 by {
        assert forall k :: 0 <= k < |d1| ==> d1[k] != '_';
        assert forall k :: 0 <= k < |d2| ==> d2[k] != '_';
      }
      var t := g[4..];
      assert t == d1 + "_" + s1 && t == d2 + "_" + s2;
      SplitAt(d1, s1, '_');
      SplitAt(d2, s2, '_');
      assert t == d1 + ['_'] + s1 && t == d2 + ['_'] + s2;
      assert Split(t, '_')[0] == d1 && Split(t, '_')[0] == d2;
      assert s1 == t[|d1| + 1..] && s2 == t[|d2| + 1..];
      assert d1 == d2;
      assert n1 == DecimalValue(d1) == n2;
    }
  }

  /** A stored photo: the data URL and the file's name, size and MIME type. */
  datatype Photo = Photo(id: string, data: string, name: string, size: nat, mime: string, timestamp: nat)

  /** The text under a photo key: a photo, or text that is empty or not JSON. */
  datatype Entry = PhotoJson(photo: Photo) | NotAPhoto

  /** Every photo sits under the key of its own id. */
  predicate WellKeyed(m: map<string, Entry>) {
    forall id :: id in m && m[id].PhotoJson? ==> m[id].photo.id == id
  }

  /** `getImage`: the photo under the id's key, `None` (null) when absent or unreadable. */
  function Fetch(m: map<string, Entry>, id: string): (r: Option<Photo>)
    ensures r.Some? <==> id in m && m[id].PhotoJson?
    ensures r.Some? ==> m[id] == PhotoJson(r.value)
  {
    if id in m && m[id].PhotoJson? then Some(m[id].photo) else None
  }

  /**
   * The store after a photo is written, or unchanged when the write throws
   * (a full quota); `ok` says whether the write went through.
   */
  function Write(m: map<string, Entry>, p: Photo, ok: bool): (r: map<string, Entry>)
    ensures ok ==> r.Keys == m.Keys + {p.id} && Fetch(r, p.id) == Some(p)
    ensures !ok ==> r == m
    ensures forall id :: id != p.id ==> Fetch(r, id) == Fetch(m, id)
  {
    if ok then m[p.id := PhotoJson(p)] else m
  }

  /** `deleteImage`: only that key goes; every other entry stays as it was. */
  function Remove(m: map<string, Entry>, id: string): (r: map<string, Entry>)
    ensures r.Keys == m.Keys - {id}
    ensures Fetch(r, id).None?
    ensures forall other :: other != id ==> Fetch(r, other) == Fetch(m, other)
  {
    m - {id}
  }

  /** Writing, then deleting, a fresh id leaves the store as it was. */
  lemma WriteThenRemove(m: map<string, Entry>, p: Photo)
    requires p.id !in m
    ensures Remove(Write(m, p, true), p.id) == m
  {
    assert Remove(Write(m, p, true), p.id).Keys == m.Keys;
  }

  /** Writing and removing keep every photo under its own id. */
  lemma WritesKeepKeys(m: map<string, Entry>, p: Photo, ok: bool, id: string)
    requires WellKeyed(m)
    ensures WellKeyed(Write(m, p, ok)) && WellKeyed(Remove(m, id))
  {
  }

  /** The browser's `ghost_image_` entries, as the static methods see them. */
  class PhotoStorage {
    var entries: map<string, Entry>

    ghost predicate Valid()
      reads this
    {
      WellKeyed(entries)
    }

    constructor ()
      ensures Valid() && entries == map[]
    {
      entries := map[];
    }

    /**
     * `storeImage(file)` once the file is read as `data`: a fresh id from the
     * clock reading `idTime` and the random `suffix`, then one write. A write
     * that throws rejects the promise and changes nothing.
     */
    method StoreImage(file: MediaStore.FileInfo, data: string, idTime: nat, suffix: string, timestamp: nat, writeOk: bool)
      returns (r: Result<Photo, string>)
      requires Valid()
      modifies this
      ensures Valid()
      ensures var p := Photo(GenerateId(idTime, suffix), data, file.name, file.size, file.mime, timestamp);
        entries == Write(old(entries), p, writeOk)
        && (writeOk ==> r == Ok(p))
        && (!writeOk ==> r.Err?)
    {
      var imageId := GenerateId(idTime, suffix);
      var imageData := Photo(imageId, data, file.name, file.size, file.mime, timestamp);
      if writeOk {
        entries := entries[imageId := PhotoJson(imageData)];
        r := Ok(imageData);
      } else {
        r := Err("localStorage.setItem threw");
      }
    }

    /** `getImage(imageId)`: never throws. */
    method GetImage(imageId: string) returns (r: Option<Photo>)
      requires Valid()
      ensures r == Fetch(entries, imageId)
      ensures r.Some? ==> r.value.id == imageId
    {
      if imageId in entries && entries[imageId].PhotoJson? {
        r := Some(entries[imageId].photo);
      } else {
        r := None;
      }
    }

    /** `deleteImage(imageId)`: removes that one key; errors are swallowed. */
    method DeleteImage(imageId: string)
      requires Valid()
      modifies this
      ensures Valid()
      ensures entries == Remove(old(entries), imageId)
    {
      entries := entries - {imageId};
    }
  }
}

=== FILE: posts_list.dfy ===
/**
 * The list of posts of src/components/PostsList.jsx: the case-insensitive
 * search filter, the relative "time ago" label, the plain-text preview, and
 * the delete confirmation dialog's state together with the `deletePost` it
 * dispatches. The clock is a parameter (`now`, in milliseconds), and a date
 * string reaches the label already parsed.
 */
module PostsList {
  import opened Wrappers
  import opened Strings
  import opened PostsSlice

  // ---------------------------------------------------------------------
  // Search
  // ---------------------------------------------------------------------

  /**
   * `post` is listed for `query`: the lower-cased query occurs in the
   * lower-cased title, excerpt or content (each '' when missing) or in one
   * of the tags.
   */
  predicate Matches(post: Post, query: string) {
    var q := ToLower(query);
    Contains(ToLower(post.title.GetOr("")), q)
    || Contains(ToLower(post.excerpt.GetOr("")), q)
    || Contains(ToLower(post.content.GetOr("")), q)
    || exists tag :: tag in post.tags.GetOr([]) && Contains(ToLower(tag), q)
  }

  /** The fields the search looks in: title, excerpt and content ('' when missing), then the tags. */
  function SearchFields(post: Post): seq<string> {
    [post.title.GetOr(""), post.excerpt.GetOr(""), post.content.GetOr("")] + post.tags.GetOr([])
  }

  /**
   * A post is listed exactly when the lower-cased query occurs, at some
   * index, in one of its lower-cased fields.
   */
  lemma MatchesIffOccurs(post: Post, query: string)
    ensures Matches(post, query) <==>
      exists f, i :: f in SearchFields(post) && OccursAt(ToLower(f), ToLower(query), i)
  {
    var q := ToLower(query);
    forall f | f in SearchFields(post)
      ensures Contains(ToLower(f), q) <==> exists i :: OccursAt(ToLower(f), q, i)
    {
      ContainsIffOccurs(ToLower(f), q);
    }
  }

  /** The search ignores the case of the query's letters. */
  lemma QueryCaseIgnored(post: Post, query: string)
    ensures Matches(post, ToLower(query)) == Matches(post, query)
  {
    assert ToLower(ToLower(query)) == ToLower(query);
  }

  /** `posts.filter(...)`: the matching posts, in order. */
  function Filter(posts: seq<Post>, query: string): (r: seq<Post>)
    ensures |r| <= |posts|
    ensures forall p :: p in r <==> p in posts && Matches(p, query)
    decreases |posts|
  {
    if |posts| == 0 then []
    else (if Matches(posts[0], query) then [posts[0]] else []) + Filter(posts[1..], query)
  }

  /** The filter keeps the listed posts in the store's order. */
  lemma {:induction false} FilterKeepsOrder(posts: seq<Post>, query: string)
    ensures SubsequenceOf(Filter(posts, query), posts)
    decreases |posts|
  {
    if |posts| > 0 {
      FilterKeepsOrder(posts[1..], query);
      var rest := Filter(posts[1..], query);
      if Matches(posts[0], query) {
        assert Filter(posts, query) == [posts[0]] + rest;
        assert Filter(posts, query)[1..] == rest;
      } else {
        assert Filter(posts, query) == rest;
        SubsequenceOfDropFront(rest, posts);
      }
    }
  }

  /** A subsequence of a list's tail is a subsequence of the list. */
  lemma SubsequenceOfDropFront(a: seq<Post>, b: seq<Post>)
    requires |b| > 0 && SubsequenceOf(a, b[1..])
    ensures SubsequenceOf(a, b)
  {
  }

  /** The empty search lists every post. */
  lemma {:induction false} EmptyQueryListsAll(posts: seq<Post>)
    ensures Filter(posts, "") == posts
    decreases |posts|
  {
    if |posts| > 0 {
      ContainsEmpty(ToLower(posts[0].title.GetOr("")));
      assert ToLower("") == "";
      assert Matches(posts[0], "");
      EmptyQueryListsAll(posts[1..]);
      assert posts == [posts[0]] + posts[1..];
    }
  }

  /** Lower-casing twice is lower-casing once. */
  lemma ToLowerIdempotent(s: string)
    ensures ToLower(ToLower(s)) == ToLower(s)
  {
  }

  /** The search ignores the case of the query. */
  lemma {:induction false} FilterIgnoresQueryCase(posts: seq<Post>, query: string)
    ensures Filter(posts, ToLower(query)) == Filter(posts, query)
    decreases |posts|
  {
    ToLowerIdempotent(query);
    if |posts| > 0 {
      assert Matches(posts[0], ToLower(query)) == Matches(posts[0], query);
      FilterIgnoresQueryCase(posts[1..], query);
    }
  }

  // ---------------------------------------------------------------------
  // Relative time
  // ---------------------------------------------------------------------

  /** What `new Date(dateString)` gives: nothing, an invalid date, or a time in ms. */
  datatype DateInput = Missing | Invalid | At(ms: int)

  /** The label `formatRelativeTime` shows; `CalendarDate` stands for the locale date text. */
  datatype Label = Unknown | JustNow | MinutesAgo(n: int) | HoursAgo(n: int) | DaysAgo(n: int) | CalendarDate(ms: int)

  const MsPerMinute := 60000
  const MsPerHour := 3600000
  const MsPerDay := 86400000

  /**
   * `formatRelativeTime` at time `now`. The three divisions floor, as
   * `Math.floor` does (Dafny's `/` by a positive divisor is floor division);
   * a date in the future is 'Just now'.
   */
  function RelativeTime(now: int, d: DateInput): (l: Label)
    ensures !d.At? <==> l == Unknown
    ensures d.At? && now - d.ms < MsPerMinute <==> l == JustNow
    ensures l.MinutesAgo? ==> 1 <= l.n < 60 && l.n * MsPerMinute <= now - d.ms < (l.n + 1) * MsPerMinute
    ensures l.HoursAgo? ==> 1 <= l.n < 24 && l.n * MsPerHour <= now - d.ms < (l.n + 1) * MsPerHour
    ensures l.DaysAgo? ==> 1 <= l.n < 7 && l.n * MsPerDay <= now - d.ms < (l.n + 1) * MsPerDay
    ensures l.CalendarDate? ==> l.ms == d.ms && now - d.ms >= 7 * MsPerDay
  {
    match d
    case Missing => Unknown
    case Invalid => Unknown
    case At(ms) =>
      var mins := (now - ms) / MsPerMinute;
      var hours := mins / 60;
      var days := hours / 24;
      FloorBounds(now - ms, mins, hours, days);
      if mins < 1 then JustNow
      else if mins < 60 then MinutesAgo(mins)
      else if hours < 24 then HoursAgo(hours)
      else if days < 7 then DaysAgo(days)
      else CalendarDate(ms)
  }

  /** The chained floors are the floors of the difference by a minute, an hour and a day. */
  lemma FloorBounds(diff: int, mins: int, hours: int, days: int)
    requires mins == diff / MsPerMinute && hours == mins / 60 && days == hours / 24
    ensures mins * MsPerMinute <= diff < (mins + 1) * MsPerMinute
    ensures hours * MsPerHour <= diff < (hours + 1) * MsPerHour
    ensures days * MsPerDay <= diff < (days + 1) * MsPerDay
  {
    assert hours * 60 <= mins < (hours + 1) * 60;
    assert days * 24 <= hours < (days + 1) * 24;
    assert hours * MsPerHour == (hours * 60) * MsPerMinute;
    assert (hours + 1) * MsPerHour == ((hours + 1) * 60) * MsPerMinute;
    assert days * MsPerDay == (days * 24) * MsPerHour;
    assert (days + 1) * MsPerDay == ((days + 1) * 24) * MsPerHour;
  }

  /** The text shown for a label; `calendar` is the locale date text, not modelled. */
  function LabelText(l: Label, calendar: string): (t: string)
    ensures l == Unknown ==> t == "Unknown"
    ensures l == JustNow ==> t == "Just now"
    ensures l.MinutesAgo? ==> t == IntToString(l.n) + " minutes ago"
    ensures l.HoursAgo? ==> t == IntToString(l.n) + " hours ago"
    ensures l.DaysAgo? ==> t == IntToString(l.n) + " days ago"
    ensures l.CalendarDate? ==> t == calendar
  {
    match l
    case Unknown => "Unknown"
    case JustNow => "Just now"
    case MinutesAgo(n) => IntToString(n) + " minutes ago"
    case HoursAgo(n) => IntToString(n) + " hours ago"
    case DaysAgo(n) => IntToString(n) + " days ago"
    case CalendarDate(_) => calendar
  }

  /** Floor division is pinned down by its bounds. */
  lemma DivByBounds(a: int, d: int, q: int)
    requires d > 0 && q * d <= a < (q + 1) * d
    ensures a / d == q
  {
    var r := a / d;
    assert r * d <= a < (r + 1) * d;
    var k := r - q;
    assert k * d == r * d - q * d;
    MultipleBounds(k, d);
  }

  /** A non-zero multiple of a positive `d` is at least `d` away from 0. */
  lemma MultipleBounds(k: int, d: int)
    requires d > 0
    ensures k >= 1 ==> k * d >= d
    ensures k <= -1 ==> k * d <= -d
  {
  }

  /** The label of a time in the first week, with the unit count as a floor of the difference. */
  lemma RelativeTimeCounts(now: int, ms: int)
    ensures var l := RelativeTime(now, At(ms));
      var diff := now - ms;
      (MsPerMinute <= diff < MsPerHour ==> l == MinutesAgo(diff / MsPerMinute))
      && (MsPerHour <= diff < MsPerDay ==> l == HoursAgo(diff / MsPerHour))
      && (MsPerDay <= diff < 7 * MsPerDay ==> l == DaysAgo(diff / MsPerDay))
  {
    var diff := now - ms;
    var mins := diff / MsPerMinute;
    var hours := mins / 60;
    var days := hours / 24;
    FloorBounds(diff, mins, hours, days);
    DivByBounds(diff, MsPerHour, hours);
    DivByBounds(diff, MsPerDay, days);
  }

  /**
   * Within the first week the text names the number of whole minutes, hours
   * or days elapsed, in the largest unit that is at least one.
   */
  lemma LabelTextNamesElapsed(now: int, ms: int, calendar: string)
    ensures var t := LabelText(RelativeTime(now, At(ms)), calendar);
      var diff := now - ms;
      (diff < MsPerMinute ==> t == "Just now")
      && (MsPerMinute <= diff < MsPerHour ==> t == IntToString(diff / MsPerMinute) + " minutes ago")
      && (MsPerHour <= diff < MsPerDay ==> t == IntToString(diff / MsPerHour) + " hours ago")
      && (MsPerDay <= diff < 7 * MsPerDay ==> t == IntToString(diff / MsPerDay) + " days ago")
      && (7 * MsPerDay <= diff ==> t == calendar)
  {
    RelativeTimeCounts(now, ms);
  }

  /** Ninety seconds ago reads "1 minutes ago"; the unit is never singular. */
  lemma NinetySecondsAgo(now: int)
    ensures RelativeTime(now, At(now - 90000)) == MinutesAgo(1)
  {
  }

  /**
   * The date the list passes: `post.updatedAt || post.createdAt || nowIso`.
   * A post always has one, so its label is never 'Unknown' for lack of a date.
   */
  function ShownDate(post: Post, nowIso: string): (r: string)
    ensures post.updatedAt.Some? && post.updatedAt.value != [] ==> r == post.updatedAt.value
    ensures nowIso != [] ==> r != []
  {
    if post.updatedAt.Some? && post.updatedAt.value != [] then post.updatedAt.value
    else if post.createdAt.Some? && post.createdAt.value != [] then post.createdAt.value
    else nowIso
  }

  // ---------------------------------------------------------------------
  // Preview
  // ---------------------------------------------------------------------

  /**
   * `.replace(/<[^>]*>/g, '')`: from each '<' that has a '>' after it,
   * through the first such '>', the text is dropped; a '<' with no '>'
   * after it stays.
   */
  function StripTags(s: string): (r: string)
    ensures |r| <= |s|
    ensures forall c :: c in r ==> c in s
    ensures forall i, j :: 0 <= i < j < |r| && r[i] == '<' ==> r[j] != '>'
    decreases |s|
  {
    if |s| == 0 then ""
    else if s[0] == '<' && '>' in s then StripTags(s[IndexOf(s, '>') + 1..])
    else
      var rest := StripTags(s[1..]);
      assert forall c :: c in rest ==> c in s[1..];
      [s[0]] + rest
  }

  /** Text without '<' is shown as it is. */
  lemma {:induction false} StripTagsPlainText(s: string)
    requires '<' !in s
    ensures StripTags(s) == s
    decreases |s|
  {
    if |s| > 0 {
      StripTagsPlainText(s[1..]);
      assert s == [s[0]] + s[1..];
    }
  }

  /** A tag after plain text is dropped and the text on both sides kept. */
  lemma {:induction false} StripTagsDropsTag(a: string, t: string, b: string)
    requires '<' !in a && '>' !in t
    ensures StripTags(a + "<" + t + ">" + b) == a + StripTags(b)
    decreases |a|
  {
    var s := a + "<" + t + ">" + b;
    if |a| == 0 {
      assert s == "<" + t + ">" + b;
      assert IndexOf(s, '>') == |t| + 1 by {
        assert s[|t| + 1] == '>';
        assert forall k :: 0 <= k <= |t| ==> s[k] != '>' by {
          assert forall k :: 1 <= k <= |t| ==> s[k] == t[k - 1];
        }
      }
      assert s[|t| + 2..] == b;
    } else {
      assert s[1..] == a[1..] + "<" + t + ">" + b;
      StripTagsDropsTag(a[1..], t, b);
      assert a == [a[0]] + a[1..];
    }
  }

  /** `post.content ? <content without tags> : 'No content available'`. */
  function Preview(content: Option<string>): (r: string)
    ensures content.None? || content.value == [] ==> r == "No content available"
    ensures content.Some? && content.value != [] ==> |r| <= |content.value|
  {
    if content.Some? && content.value != [] then StripTags(content.value) else "No content available"
  }

  /**
   * The content of an emptied editor, `<p></p>`, is truthy and strips to
   * nothing: its preview is blank rather than 'No content available'.
   */
  lemma EmptyParagraphPreview()
    ensures Preview(Some("<p></p>")) == ""
  {
    var close := "</p>";
    assert StripTags(close) == "" by {
      assert close == "" + "<" + "/p" + ">" + "";
      StripTagsDropsTag("", "/p", "");
    }
    assert "<p></p>" == "" + "<" + "p" + ">" + close;
    StripTagsDropsTag("", "p", close);
  }

  // ---------------------------------------------------------------------
  // Delete confirmation
  // ---------------------------------------------------------------------

  /**
   * The dialog state `{isOpen, postId, postTitle}`; `postTitle` is `None`
   * when it was read from a post without a title.
   */
  datatype DeleteModal = DeleteModal(isOpen: bool, postId: Option<int>, postTitle: Option<string>)

  const ClosedModal := DeleteModal(false, None, Some(""))

  /** `handleDeletePost(postId)`: open the dialog on the first post with the id. */
  function OpenDelete(posts: seq<Post>, postId: int): (m: DeleteModal)
    ensures m.isOpen && m.postId == Some(postId)
    ensures (forall k :: 0 <= k < |posts| ==> posts[k].id != postId) ==> m.postTitle == Some("Untitled Post")
    ensures forall k :: (0 <= k < |posts| && posts[k].id == postId
              && (forall j :: 0 <= j < k ==> posts[j].id != postId)) ==> m.postTitle == posts[k].title
  {
    var i := FindIndex(posts, postId);
    DeleteModal(true, Some(postId), if i >= 0 then posts[i].title else Some("Untitled Post"))
  }

  /** The id is truthy: set and not 0. */
  predicate Truthy(id: Option<int>) {
    id.Some? && id.value != 0
  }

  /**
   * `confirmDelete`: dispatch `deletePost` when the dialog holds a truthy
   * id, then close the dialog.
   */
  function ConfirmDelete(m: DeleteModal, s: Slice): (r: (DeleteModal, Slice))
    ensures r.0 == ClosedModal
    ensures Truthy(m.postId) ==> r.1 == s.(posts := WithoutId(s.posts, m.postId.value))
    ensures !Truthy(m.postId) ==> r.1 == s
  {
    (ClosedModal, if Truthy(m.postId) then s.(posts := WithoutId(s.posts, m.postId.value)) else s)
  }

  /** `cancelDelete`: close the dialog and clear its id and title; the store is not touched. */
  function CancelDelete(m: DeleteModal): (r: DeleteModal)
    ensures !r.isOpen && r.postId.None? && r.postTitle == Some("")
    ensures r == ConfirmDelete(m, InitialSlice).0
  {
    ClosedModal
  }

  /**
   * Opening the dialog on a post and confirming removes every post with
   * that id and keeps the others in order; cancelling keeps all of them.
   */
  lemma OpenThenConfirm(s: Slice, postId: int)
    requires postId != 0
    ensures var r := ConfirmDelete(OpenDelete(s.posts, postId), s).1;
      (forall p :: p in r.posts <==> p in s.posts && p.id != postId)
      && SubsequenceOf(r.posts, s.posts)
      && r.(posts := s.posts) == s
  {
    DeletePostSpec(s.posts, postId);
  }

  /** A post whose id is 0 is never deleted through the dialog. */
  lemma ZeroIdIsKept(s: Slice)
    ensures ConfirmDelete(OpenDelete(s.posts, 0), s).1 == s
  {
  }
}

=== FILE: posts_slice.dfy ===
/**
 * The `posts` slice of the Redux store (src/store/postsSlice.js): an ordered
 * list of posts, the post being edited, a loading flag and the time of the
 * last save. Each reducer mutates the draft state in place; here the slice is
 * a class and each reducer a method whose new state is given by a function of
 * the old one. ISO timestamps from `new Date().toISOString()` are parameters.
 */
module PostsSlice {
  import opened Wrappers

  /**
   * A post as the editor builds it. Fields a payload may lack are `Option`s;
   * `id` is the `Date.now()` number the editor assigns.
   */
  datatype Post = Post(
    id: int,
    title: Option<string>,
    excerpt: Option<string>,
    content: Option<string>,
    status: string,
    createdAt: Option<string>,
    updatedAt: Option<string>,
    coverImage: Option<string>,
    tags: Option<seq<string>>,
    imageIds: Option<seq<string>>)

  /** The slice state: `posts`, `currentPost`, `isLoading`, `lastSaved`. */
  datatype Slice = Slice(posts: seq<Post>, currentPost: Option<Post>, isLoading: bool, lastSaved: Option<string>)

  const InitialSlice := Slice([], None, false, None)

  /** `{...payload, imageIds: payload.imageIds || []}`. */
  function Normalised(p: Post): (r: Post)
    ensures r.imageIds == Some(p.imageIds.GetOr([]))
    ensures r.(imageIds := p.imageIds) == p
    ensures p.imageIds.Some? ==> r == p
  {
    p.(imageIds := Some(p.imageIds.GetOr([])))
  }

  /** `posts.findIndex(post => post.id === id)`: the first match, or -1. */
  function FindIndex(posts: seq<Post>, id: int): (i: int)
    ensures -1 <= i < |posts|
    ensures i == -1 <==> forall k :: 0 <= k < |posts| ==> posts[k].id != id
    ensures i >= 0 ==> posts[i].id == id && forall k :: 0 <= k < i ==> posts[k].id != id
    decreases |posts|
  {
    if |posts| == 0 then -1
    else if posts[0].id == id then 0
    else
      var j := FindIndex(posts[1..], id);
      if j == -1 then -1 else j + 1
  }

  /** How many posts carry `id`. */
  function CountId(posts: seq<Post>, id: int): nat
    decreases |posts|
  {
    if |posts| == 0 then 0 else (if posts[0].id == id then 1 else 0) + CountId(posts[1..], id)
  }

  /** `addPost`: the payload stamped with both times, normalised, put in front. */
  function WithAdded(posts: seq<Post>, payload: Post, created: string, updated: string): (r: seq<Post>)
    ensures |r| == |posts| + 1 && r[1..] == posts
    ensures r[0].(createdAt := payload.createdAt, updatedAt := payload.updatedAt, imageIds := payload.imageIds) == payload
    ensures r[0].createdAt == Some(created) && r[0].updatedAt == Some(updated)
    ensures r[0].imageIds == Some(payload.imageIds.GetOr([]))
  {
    [Normalised(payload.(createdAt := Some(created), updatedAt := Some(updated)))] + posts
  }

  /**
   * `updatePost`: the first post with the payload's id becomes the payload
   * itself (no merge with the old post), stamped and normalised; every other
   * position, and every id, stays as it was; no match leaves the list alone.
   */
  function WithUpdated(posts: seq<Post>, payload: Post, updated: string): (r: seq<Post>)
    ensures |r| == |posts|
    ensures forall k :: 0 <= k < |posts| ==> r[k].id == posts[k].id
    ensures FindIndex(posts, payload.id) == -1 ==> r == posts
    ensures var i := FindIndex(posts, payload.id);
      i >= 0 ==>
        r[i] == Normalised(payload.(updatedAt := Some(updated)))
        && r[i].(updatedAt := payload.updatedAt, imageIds := payload.imageIds) == payload
        && r[i].updatedAt == Some(updated) && r[i].imageIds == Some(payload.imageIds.GetOr([]))
        && forall k :: 0 <= k < |posts| && k != i ==> r[k] == posts[k]
  {
    var i := FindIndex(posts, payload.id);
    if i == -1 then posts else posts[i := Normalised(payload.(updatedAt := Some(updated)))]
  }

  /** `deletePost`: `posts.filter(post => post.id !== id)`. */
  function WithoutId(posts: seq<Post>, id: int): (r: seq<Post>)
    ensures |r| <= |posts|
    ensures forall k :: 0 <= k < |r| ==> r[k].id != id
    ensures forall p :: p in r <==> p in posts && p.id != id
    decreases |posts|
  {
    if |posts| == 0 then [] else (if posts[0].id == id then [] else [posts[0]]) + WithoutId(posts[1..], id)
  }

  /** `setCurrentPost`: a missing payload clears it, any other is normalised. */
  function CurrentPost(payload: Option<Post>): (r: Option<Post>)
    ensures r.None? <==> payload.None?
    ensures r.Some? ==> r.value == Normalised(payload.value)
  {
    match payload
    case None => None
    case Some(p) => Some(Normalised(p))
  }

  /** `a` is `b` with some elements dropped, the rest in their order. */
  predicate SubsequenceOf(a: seq<Post>, b: seq<Post>)
    decreases |b|
  {
    |a| == 0 || (|b| > 0 && ((a[0] == b[0] && SubsequenceOf(a[1..], b[1..])) || SubsequenceOf(a, b[1..])))
  }

  /**
   * `addPost` puts the stamped, normalised payload at index 0 with the old
   * posts after it in their order; it is what `findIndex` then finds first.
   */
  lemma AddPostAtFront(posts: seq<Post>, payload: Post, created: string, updated: string)
    ensures var r := WithAdded(posts, payload, created, updated);
      |r| == |posts| + 1 && r[1..] == posts
      && FindIndex(r, payload.id) == 0
      && r[0].createdAt == Some(created) && r[0].updatedAt == Some(updated)
      && r[0].imageIds == Some(payload.imageIds.GetOr([]))
      && r[0].title == payload.title && r[0].content == payload.content && r[0].status == payload.status
  {
    var r := WithAdded(posts, payload, created, updated);
    assert r[1..] == posts;
  }

  /** `addPost` checks nothing: every add makes one more post with that id. */
  lemma AddPostDuplicates(posts: seq<Post>, payload: Post, created: string, updated: string)
    ensures CountId(WithAdded(posts, payload, created, updated), payload.id) == CountId(posts, payload.id) + 1
  {
    var r := WithAdded(posts, payload, created, updated);
    assert r[1..] == posts;
  }

  /** Updating a post that was just added rewrites the front and nothing else. */
  lemma UpdateAfterAdd(posts: seq<Post>, p: Post, q: Post, created: string, t1: string, t2: string)
    requires q.id == p.id
    ensures WithUpdated(WithAdded(posts, p, created, t1), q, t2)
         == [Normalised(q.(updatedAt := Some(t2)))] + posts
  {
    AddPostAtFront(posts, p, created, t1);
  }

  /**
   * Two lists that hold the same ids position by position have the same first
   * match and the same count for every id.
   */
  lemma {:induction false} SameIds(a: seq<Post>, b: seq<Post>, id: int)
    requires |a| == |b| && forall k :: 0 <= k < |a| ==> a[k].id == b[k].id
    ensures FindIndex(a, id) == FindIndex(b, id)
    ensures CountId(a, id) == CountId(b, id)
    decreases |a|
  {
    if |a| > 0 {
      SameIds(a[1..], b[1..], id);
    }
  }

  /** An update keeps the count of every id: it never duplicates or drops a post. */
  lemma UpdateKeepsCounts(posts: seq<Post>, payload: Post, updated: string, id: int)
    ensures CountId(WithUpdated(posts, payload, updated), id) == CountId(posts, id)
    ensures FindIndex(WithUpdated(posts, payload, updated), id) == FindIndex(posts, id)
  {
    SameIds(WithUpdated(posts, payload, updated), posts, id);
  }

  /**
   * `deletePost` removes every post with the id, keeps every other post, and
   * keeps the survivors in their order.
   */
  lemma {:induction false} DeletePostSpec(posts: seq<Post>, id: int)
    ensures var r := WithoutId(posts, id);
      (forall p :: p in r <==> p in posts && p.id != id)
      && |r| == |posts| - CountId(posts, id)
      && SubsequenceOf(r, posts)
    decreases |posts|
  {
    if |posts| > 0 {
      DeletePostSpec(posts[1..], id);
      var rest := WithoutId(posts[1..], id);
      var r := WithoutId(posts, id);
      if posts[0].id == id {
        assert r == rest;
      } else {
        assert r == [posts[0]] + rest;
        assert r[1..] == rest;
      }
      assert forall p :: p in posts <==> p == posts[0] || p in posts[1..];
    }
  }

  /** Deleting twice is deleting once; deleting an absent id changes nothing. */
  lemma {:induction false} DeletePostIdempotent(posts: seq<Post>, id: int)
    ensures WithoutId(WithoutId(posts, id), id) == WithoutId(posts, id)
    ensures CountId(posts, id) == 0 ==> WithoutId(posts, id) == posts
    decreases |posts|
  {
    if |posts| > 0 {
      DeletePostIdempotent(posts[1..], id);
      var rest := WithoutId(posts[1..], id);
      if posts[0].id != id {
        assert WithoutId(posts, id) == [posts[0]] + rest;
        var r := [posts[0]] + rest;
        assert r[0] == posts[0] && r[1..] == rest;
        assert WithoutId(r, id) == [posts[0]] + WithoutId(rest, id);
        if CountId(posts, id) == 0 {
          assert rest == posts[1..];
          assert posts == [posts[0]] + posts[1..];
        }
      } else {
        assert WithoutId(posts, id) == rest;
      }
    }
  }

  /** Deleting a just-added id removes the new post and every older post with that id. */
  lemma DeleteAfterAdd(posts: seq<Post>, payload: Post, created: string, updated: string)
    ensures WithoutId(WithAdded(posts, payload, created, updated), payload.id) == WithoutId(posts, payload.id)
  {
    var r := WithAdded(posts, payload, created, updated);
    assert r[1..] == posts;
  }

  /** The slice, mutated by the reducers. */
  class PostsStore {
    var posts: seq<Post>
    var currentPost: Option<Post>
    var isLoading: bool
    var lastSaved: Option<string>

    function State(): Slice
      reads this
    {
      Slice(posts, currentPost, isLoading, lastSaved)
    }

    constructor ()
      ensures State() == InitialSlice
    {
      posts := [];
      currentPost := None;
      isLoading := false;
      lastSaved := None;
    }

    /** `setPosts`: replaces the list, nothing else. */
    method SetPosts(payload: seq<Post>)
      modifies this
      ensures State() == old(State()).(posts := payload)
    {
      posts := payload;
    }

    /** `addPost`: `state.posts.unshift(newPost)`. */
    method AddPost(payload: Post, created: string, updated: string)
      modifies this
      ensures State() == old(State()).(posts := WithAdded(old(posts), payload, created, updated))
    {
      var newPost := Normalised(payload.(createdAt := Some(created), updatedAt := Some(updated)));
      posts := [newPost] + posts;
    }

    /** `updatePost`: `state.posts[index] = …` when the id is found. */
    method UpdatePost(payload: Post, updated: string)
      modifies this
      ensures State() == old(State()).(posts := WithUpdated(old(posts), payload, updated))
    {
      var index := FindIndex(posts, payload.id);
      if index != -1 {
        posts := posts[index := Normalised(payload.(updatedAt := Some(updated)))];
      }
    }

    /** `deletePost`: keeps the posts whose id differs. */
    method DeletePost(id: int)
      modifies this
      ensures State() == old(State()).(posts := WithoutId(old(posts), id))
    {
      posts := WithoutId(posts, id);
    }

    /** `setCurrentPost`. */
    method SetCurrentPost(payload: Option<Post>)
      modifies this
      ensures State() == old(State()).(currentPost := CurrentPost(payload))
    {
      currentPost := if payload.Some? then Some(Normalised(payload.value)) else None;
    }

    /** `setLoading`: replaces the flag, nothing else. */
    method SetLoading(payload: bool)
      modifies this
      ensures State() == old(State()).(isLoading := payload)
    {
      isLoading := payload;
    }

    /** `setLastSaved`: replaces the save time, nothing else. */
    method SetLastSaved(payload: Option<string>)
      modifies this
      ensures State() == old(State()).(lastSaved := payload)
    {
      lastSaved := payload;
    }
  }
}

=== FILE: raw_html.dfy ===
/**
 * The `rawHTML` node of src/extensions/RawHTMLExtension.js: an atom block
 * whose one attribute, `htmlContent`, carries a snippet of HTML. It is read
 * from and written to the `data-html-content` attribute of a
 * `<div data-raw-html>`. A missing attribute reads as `null` (`None`), and a
 * `null` attribute is not written out.
 */
module RawHtml {
  import opened Wrappers
  import Dom
  import BlogEditor

  const NodeName := "rawHTML"
  const NodeGroup := "block"
  const NodeIsAtom := true

  datatype RawHtmlNode = RawHtmlNode(htmlContent: Option<string>)

  /** A node created without attributes: `htmlContent` defaults to ''. */
  const DefaultNode := RawHtmlNode(Some(""))

  /**
   * `parseHTML`: the rule `div[data-raw-html]` with `getAttrs` reading
   * `data-html-content`.
   */
  function ParseRawHtml(e: Dom.Element): (r: Option<RawHtmlNode>)
    ensures r.Some? <==> e.tag == "div" && Dom.HasAttr(e, "data-raw-html")
    ensures r.Some? ==> r.value.htmlContent == Dom.Attr(e, "data-html-content")
  {
    if e.tag == "div" && Dom.HasAttr(e, "data-raw-html") then
      Some(RawHtmlNode(Dom.Attr(e, "data-html-content")))
    else None
  }

  /**
   * The attribute-level `renderHTML` of `htmlContent`: no attributes at all.
   * Only the node-level render below writes `data-html-content`.
   */
  function HtmlContentAttrs(n: RawHtmlNode): (m: map<string, string>)
    ensures "data-html-content" !in m
  {
    map[]
  }

  /**
   * The node-level `renderHTML`: a `div` marked `data-raw-html="true"` that
   * carries the content in `data-html-content`.
   */
  function RenderRawHtml(n: RawHtmlNode): (e: Dom.Element)
    ensures e.tag == "div"
    ensures "data-raw-html" in e.attrs && e.attrs["data-raw-html"] == "true"
    ensures Dom.Attr(e, "data-html-content") == n.htmlContent
  {
    var base := map["data-raw-html" := "true"];
    Dom.Element("div", if n.htmlContent.Some? then base["data-html-content" := n.htmlContent.value] else base)
  }

  /** Rendering a node and parsing the result gives the node back. */
  lemma RawHtmlRoundTrip(n: RawHtmlNode)
    ensures ParseRawHtml(RenderRawHtml(n)) == Some(n)
  {
  }

  /**
   * As written, the element the browser builds from the editor's wrapper
   * for the snippet `&amp;` parses into a node holding `&`.
   */
  lemma WrapperAsWrittenLosesReference()
    ensures var v := BlogEditor.EscapeAsWritten(BlogEditor.AmpEntity);
      ParseRawHtml(Dom.Element("div", map["data-raw-html" := "true", "data-html-content" := BlogEditor.DecodeAttr(v)]))
        == Some(RawHtmlNode(Some("&")))
  {
    BlogEditor.EscapeAsWrittenLosesReferences();
  }

  /**
   * With the corrected escape, the element the browser builds from the
   * wrapper parses into a node holding the original snippet.
   */
  lemma WrapperParsesBack(data: string)
    ensures var v := BlogEditor.Escape(data);
      ParseRawHtml(Dom.Element("div", map["data-raw-html" := "true", "data-html-content" := BlogEditor.DecodeAttr(v)]))
        == Some(RawHtmlNode(Some(data)))
  {
    BlogEditor.EscapeRoundTrip(data);
  }
}

=== FILE: strings.dfy ===
/**
 * The string operations of JavaScript that the editor relies on, restricted
 * to what the model needs: `trim`, `toLowerCase`/`toUpperCase` on ASCII
 * letters, `includes`, `startsWith`, `split` on one character, `replace` of
 * one character everywhere, and decimal rendering of numbers.
 */
module Strings {

  /**
   * The characters `String.prototype.trim` removes and `parseInt` skips: the
   * WhiteSpace of the ECMA-262 grammar (tab, vertical tab, form feed,
   * the space separators of Unicode category Zs and the byte order mark)
   * and its LineTerminator characters.
   */
  predicate IsSpace(c: char) {
    c == ' ' || c == '\t' || c == '\n' || c == '\r' || c == '\U{000B}' || c == '\U{000C}'
    || c == '\U{00A0}' || c == '\U{1680}' || '\U{2000}' <= c <= '\U{200A}' || c == '\U{2028}'
    || c == '\U{2029}' || c == '\U{202F}' || c == '\U{205F}' || c == '\U{3000}' || c == '\U{FEFF}'
  }

  /** Every character of `s` is white space (so `s.trim()` is the empty string). */
  predicate Blank(s: string) {
    forall k :: 0 <= k < |s| ==> IsSpace(s[k])
  }

  /** The index of the first non-space character of `s` at or after `i` (or `|s|`). */
  function SkipSpaces(s: string, i: nat): (j: nat)
    requires i <= |s|
    ensures i <= j <= |s|
    ensures forall k :: i <= k < j ==> IsSpace(s[k])
    ensures j < |s| ==> !IsSpace(s[j])
    decreases |s| - i
  {
    if i < |s| && IsSpace(s[i]) then SkipSpaces(s, i + 1) else i
  }

  /** The end of `s[..j]` once its trailing white space is dropped. */
  function SkipSpacesBack(s: string, j: nat): (e: nat)
    requires j <= |s|
    ensures e <= j
    ensures forall k :: e <= k < j ==> IsSpace(s[k])
    ensures e > 0 ==> !IsSpace(s[e - 1])
    decreases j
  {
    if j > 0 && IsSpace(s[j - 1]) then SkipSpacesBack(s, j - 1) else j
  }

  /** `s` without its leading white space. */
  function TrimStart(s: string): (r: string)
    ensures |r| <= |s| && r == s[|s| - |r|..]
    ensures r == [] || !IsSpace(r[0])
    ensures Blank(s[..|s| - |r|])
  {
    s[SkipSpaces(s, 0)..]
  }

  /** `s.trim()`: white space removed from both ends. */
  function Trim(s: string): (r: string)
    ensures |r| <= |s|
    ensures r == [] || (!IsSpace(r[0]) && !IsSpace(r[|r| - 1]))
    ensures exists i :: OccursAt(s, r, i)
  {
    var i := SkipSpaces(s, 0);
    var e := SkipSpacesBack(s, |s|);
    if e <= i then
      assert OccursAt(s, [], 0);
      []
    else
      assert OccursAt(s, s[i..e], i);
      s[i..e]
  }

  /** `s.trim()` is empty exactly when `s` is blank (the source's `!s.trim()` test). */
  lemma TrimEmptyIffBlank(s: string)
    ensures Trim(s) == [] <==> Blank(s)
  {
    var i := SkipSpaces(s, 0);
    if i < |s| {
      assert SkipSpacesBack(s, |s|) > i;
    }
  }

  /** A string that neither starts nor ends with white space is its own trim. */
  lemma TrimUnchanged(s: string)
    requires s == [] || (!IsSpace(s[0]) && !IsSpace(s[|s| - 1]))
    ensures Trim(s) == s
  {
    assert s[0..|s|] == s;
  }

  /** ASCII upper-case letters to lower case; every other character is kept. */
  function LowerChar(c: char): char {
    if 'A' <= c <= 'Z' then (c as int + 32) as char else c
  }

  /** ASCII lower-case letters to upper case; every other character is kept. */
  function UpperChar(c: char): char {
    if 'a' <= c <= 'z' then (c as int - 32) as char else c
  }

  /** `s.toLowerCase()` on ASCII letters. */
  function ToLower(s: string): (r: string)
    ensures |r| == |s|
    ensures forall k :: 0 <= k < |s| ==> r[k] == LowerChar(s[k])
  {
    seq(|s|, k requires 0 <= k < |s| => LowerChar(s[k]))
  }

  /** `t` occurs in `s` starting at index `i`. */
  predicate OccursAt(s: string, t: string, i: int) {
    0 <= i <= |s| - |t| && s[i..i + |t|] == t
  }

  /** `s.includes(t)`: `t` occurs in `s` as a contiguous run. */
  predicate Contains(s: string, t: string)
    decreases |s|
  {
    t <= s || (|s| > 0 && Contains(s[1..], t))
  }

  /** Where `a + b` occurs, `a` occurs. */
  lemma {:induction false} ContainsHead(s: string, a: string, b: string)
    requires Contains(s, a + b)
    ensures Contains(s, a)
    decreases |s|
  {
    if !(a + b <= s) {
      ContainsHead(s[1..], a, b);
    }
  }

  /** The recursive `Contains` agrees with "`t` occurs in `s` at some index". */
  lemma {:induction false} ContainsIffOccurs(s: string, t: string)
    ensures Contains(s, t) <==> exists i :: OccursAt(s, t, i)
    decreases |s|
  {
    if t <= s {
      assert OccursAt(s, t, 0);
    } else if |s| == 0 {
    } else {
      ContainsIffOccurs(s[1..], t);
      if exists i :: OccursAt(s, t, i) {
        var i :| OccursAt(s, t, i);
        assert i != 0;
        OccursShift(s, t, i);
      }
      if Contains(s[1..], t) {
        var i :| OccursAt(s[1..], t, i);
        OccursShift(s, t, i + 1);
      }
    }
  }

  /** An occurrence after the first character is an occurrence in the rest of the string. */
  lemma OccursShift(s: string, t: string, i: int)
    requires |s| > 0 && 1 <= i
    ensures OccursAt(s, t, i) <==> OccursAt(s[1..], t, i - 1)
  {
    if 0 <= i - 1 <= |s[1..]| - |t| {
      var a, b := s[i..i + |t|], s[1..][i - 1..i - 1 + |t|];
      assert |a| == |b| && forall k :: 0 <= k < |a| ==> a[k] == b[k];
    }
  }

  /** Every string contains the empty string: an empty query matches everything. */
  lemma ContainsEmpty(s: string)
    ensures Contains(s, "")
  {
  }

  /** Index of the first `c` in `s`, or `|s|` when there is none. */
  function IndexOf(s: string, c: char): (i: nat)
    ensures i <= |s|
    ensures forall k :: 0 <= k < i ==> s[k] != c
    ensures i < |s| ==> s[i] == c
    decreases |s|
  {
    if |s| == 0 then 0 else if s[0] == c then 0 else 1 + IndexOf(s[1..], c)
  }

  /** `parts.join(sep)`. */
  function Join(parts: seq<string>, sep: char): string
    decreases |parts|
  {
    if |parts| == 0 then "" else if |parts| == 1 then parts[0] else parts[0] + [sep] + Join(parts[1..], sep)
  }

  /** `s.split(sep)`: never empty, and no piece contains `sep`. */
  function Split(s: string, sep: char): (parts: seq<string>)
    ensures |parts| >= 1
    ensures forall p :: p in parts ==> sep !in p
    decreases |s|
  {
    var i := IndexOf(s, sep);
    if i == |s| then
      assert sep !in s;
      [s]
    else
      var rest := Split(s[i + 1..], sep);
      assert sep !in s[..i];
      [s[..i]] + rest
  }

  /** Joining a piece in front of a non-empty list puts one separator between them. */
  lemma JoinCons(a: string, tail: seq<string>, sep: char)
    requires |tail| >= 1
    ensures Join([a] + tail, sep) == a + [sep] + Join(tail, sep)
  {
    assert ([a] + tail)[1..] == tail;
  }

  /** Joining the pieces of `s.split(sep)` back with `sep` gives `s`. */
  lemma {:induction false} SplitJoin(s: string, sep: char)
    ensures Join(Split(s, sep), sep) == s
    decreases |s|
  {
    var i := IndexOf(s, sep);
    if i == |s| {
      SplitNone(s, sep);
    } else {
      var head, rest := s[..i], s[i + 1..];
      assert s == head + [sep] + rest;
      SplitAt(head, rest, sep);
      SplitJoin(rest, sep);
      JoinCons(head, Split(rest, sep), sep);
    }
  }

  /** Splitting at the first separator peels off the text before it. */
  lemma SplitAt(a: string, b: string, sep: char)
    requires sep !in a
    ensures Split(a + [sep] + b, sep) == [a] + Split(b, sep)
  {
    var s := a + [sep] + b;
    assert s[|a|] == sep;
    assert s[..|a|] == a;
    assert s[|a| + 1..] == b;
  }

  /** A string without the separator splits into itself alone. */
  lemma SplitNone(a: string, sep: char)
    requires sep !in a
    ensures Split(a, sep) == [a]
  {
    assert IndexOf(a, sep) == |a|;
  }

  /** `s.replace(/c/g, rep)`: every `c` becomes `rep`. */
  function ReplaceChar(s: string, c: char, rep: string): (r: string)
    ensures c !in rep ==> c !in r
    ensures c !in s ==> r == s
    decreases |s|
  {
    if |s| == 0 then "" else (if s[0] == c then rep else [s[0]]) + ReplaceChar(s[1..], c, rep)
  }

  /** Every character of the result is a kept character of `s` or one of `rep`. */
  lemma {:induction false} ReplaceCharChars(s: string, c: char, rep: string)
    ensures forall x :: x in ReplaceChar(s, c, rep) ==> (x in s && x != c) || x in rep
    decreases |s|
  {
    if |s| > 0 {
      ReplaceCharChars(s[1..], c, rep);
    }
  }

  /** `ReplaceChar` distributes over concatenation. */
  lemma {:induction false} ReplaceCharAppend(a: string, b: string, c: char, rep: string)
    ensures ReplaceChar(a + b, c, rep) == ReplaceChar(a, c, rep) + ReplaceChar(b, c, rep)
    decreases |a|
  {
    if |a| > 0 {
      assert (a + b)[1..] == a[1..] + b;
      ReplaceCharAppend(a[1..], b, c, rep);
    } else {
      assert a + b == b;
    }
  }

  predicate IsDigit(c: char) {
    '0' <= c <= '9'
  }

  /** A non-empty run of decimal digits. */
  predicate AllDigits(s: string) {
    |s| > 0 && forall k :: 0 <= k < |s| ==> IsDigit(s[k])
  }

  /** The number a run of decimal digits denotes. */
  function DecimalValue(s: string): (n: nat)
    requires forall k :: 0 <= k < |s| ==> IsDigit(s[k])
    decreases |s|
  {
    if |s| == 0 then 0
    else
      assert IsDigit(s[|s| - 1]);
      10 * DecimalValue(s[..|s| - 1]) + (s[|s| - 1] as int - '0' as int)
  }

  /** The decimal rendering of `n` (`String(n)` for a non-negative integer). */
  function NatToString(n: nat): (s: string)
    ensures AllDigits(s)
    ensures DecimalValue(s) == n
    ensures |s| == 1 || s[0] != '0'
    decreases n
  {
    var d := ['0' + (n % 10) as char];
    if n < 10 then d
    else
      var p := NatToString(n / 10);
      var s := p + d;
      assert s[..|s| - 1] == p;
      s
  }

  /** The decimal rendering of an integer, with a leading '-' when it is negative. */
  function IntToString(n: int): (s: string)
    ensures |s| > 0
  {
    if n < 0 then "-" + NatToString(-n) else NatToString(n)
  }
}

=== FILE: styled_paragraph.dfy ===
/**
 * The paragraph of src/extensions/StyledParagraph.js that keeps an inline
 * `style`: its parse and render rules, and the node view that copies the
 * style onto the `<p>` and forces each `property: value` declaration with
 * `!important`. The view is seen as its `style` attribute and the map of
 * forced properties; setting the attribute anew replaces every earlier
 * inline declaration, and removing it clears them.
 */
module StyledParagraph {
  import opened Wrappers
  import opened Strings
  import Dom

  /** JavaScript truthiness of the style: neither `null` nor ''. */
  predicate Truthy(style: Option<string>) {
    style.Some? && style.value != []
  }

  // ---------------------------------------------------------------------
  // Parse and render
  // ---------------------------------------------------------------------

  /**
   * `parseHTML`: a `p` element becomes a paragraph whose `style` is the
   * element's style when it is non-empty and `null` otherwise; other
   * elements are not paragraphs.
   */
  function ParseParagraph(e: Dom.Element): (r: Option<Option<string>>)
    ensures r.Some? <==> e.tag == "p"
    ensures r.Some? ==> (r.value.Some? <==> Truthy(Dom.Attr(e, "style")))
    ensures r.Some? && r.value.Some? ==> r.value == Dom.Attr(e, "style")
  {
    if e.tag == "p" then
      var style := Dom.Attr(e, "style");
      Some(if Truthy(style) then style else None)
    else None
  }

  /** `renderHTML`: the `style` attribute only when the style is truthy, unchanged. */
  function RenderParagraph(style: Option<string>): (e: Dom.Element)
    ensures e.tag == "p"
    ensures "style" in e.attrs <==> Truthy(style)
    ensures Truthy(style) ==> e.attrs["style"] == style.value
  {
    Dom.Element("p", if Truthy(style) then map["style" := style.value] else map[])
  }

  /** Render then parse keeps a truthy style and turns a falsy one into `null`. */
  lemma ParagraphRoundTrip(style: Option<string>)
    ensures ParseParagraph(RenderParagraph(style)) == Some(if Truthy(style) then style else None)
  {
  }

  // ---------------------------------------------------------------------
  // Declarations
  // ---------------------------------------------------------------------

  /** `c` does not occur in a piece of `s` that `Trim` cut out. */
  lemma TrimKeepsAbsence(s: string, c: char)
    requires c !in s
    ensures c !in Trim(s)
  {
    var r := Trim(s);
    var i :| OccursAt(s, r, i);
    assert forall k :: 0 <= k < |r| ==> r[k] == s[i + k];
  }

  /**
   * One `;`-separated piece: `const [property, value] = piece.split(':')`
   * with both parts trimmed, kept only when both are non-empty. Only the
   * first two `:`-pieces count.
   */
  function Declaration(piece: string): (r: Option<(string, string)>)
    ensures r.Some? ==> r.value.0 != [] && r.value.1 != []
    ensures r.Some? ==> ':' !in r.value.0 && ':' !in r.value.1
  {
    var parts := Split(piece, ':');
    if |parts| >= 2 then
      var property := Trim(parts[0]);
      var value := Trim(parts[1]);
      TrimKeepsAbsence(parts[0], ':');
      TrimKeepsAbsence(parts[1], ':');
      if property != [] && value != [] then Some((property, value)) else None
    else None
  }

  /** The value of `d` as a one-element sequence, or nothing. */
  function Present<T>(d: Option<T>): seq<T> {
    if d.Some? then [d.value] else []
  }

  /** The declarations of the pieces, in order, skipping those that do not count. */
  function DeclarationsOf(pieces: seq<string>): (ds: seq<(string, string)>)
    ensures |ds| <= |pieces|
    ensures forall k :: 0 <= k < |ds| ==> ds[k].0 != [] && ds[k].1 != [] && ':' !in ds[k].0
    decreases |pieces|
  {
    if |pieces| == 0 then []
    else
      DeclarationsOf(pieces[..|pieces| - 1]) + Present(Declaration(pieces[|pieces| - 1]))
  }

  /** `style.split(';')` and the declaration of each piece. */
  function Declarations(style: string): seq<(string, string)> {
    DeclarationsOf(Split(style, ';'))
  }

  /** The declaration a piece `p:v` makes: both parts trimmed, kept only when both are non-empty. */
  function TrimmedPair(p: string, v: string): Option<(string, string)> {
    if Trim(p) != [] && Trim(v) != [] then Some((Trim(p), Trim(v))) else None
  }

  /** A piece without `:` declares nothing. */
  lemma DeclarationWithoutColon(p: string)
    requires ':' !in p
    ensures Declaration(p) == None
  {
    SplitNone(p, ':');
  }

  /** `property: value` declares the trimmed property as the trimmed value when both are non-empty. */
  lemma DeclarationOfPair(p: string, v: string)
    requires ':' !in p && ':' !in v
    ensures Declaration(p + ":" + v) == TrimmedPair(p, v)
  {
    assert p + ":" + v == p + [':'] + v;
    SplitAt(p, v, ':');
    SplitNone(v, ':');
  }

  /**
   * Text after a second ':' in a declaration is dropped: `p:v:w` declares
   * what `p:v` declares.
   */
  lemma DeclarationDropsThirdPiece(p: string, v: string, w: string)
    requires ':' !in p && ':' !in v
    ensures Declaration(p + ":" + v + ":" + w) == TrimmedPair(p, v)
  {
    SplitAt(v, w, ':');
    assert p + ":" + v + ":" + w == p + [':'] + (v + [':'] + w);
    SplitAt(p, v + [':'] + w, ':');
  }

  /** One space before a trimmed string is trimmed away. */
  lemma TrimLeadingSpace(s: string)
    requires s != [] && !IsSpace(s[0]) && !IsSpace(s[|s| - 1])
    ensures Trim([' '] + s) == s
  {
    var t := [' '] + s;
    assert SkipSpaces(t, 1) == 1;
    assert SkipSpaces(t, 0) == 1;
    assert SkipSpacesBack(t, |t|) == |t|;
    assert t[1..|t|] == s;
  }

  /** The everyday form `property: value` (as in `color: red`) forces the property to the value. */
  lemma SpacedDeclaration(p: string, v: string)
    requires p != [] && v != [] && ':' !in p && ':' !in v
    requires !IsSpace(p[0]) && !IsSpace(p[|p| - 1]) && !IsSpace(v[0]) && !IsSpace(v[|v| - 1])
    ensures Declaration(p + ": " + v) == Some((p, v))
  {
    var sv := [' '] + v;
    SpaceAfterColon(p, v);
    DeclarationOfPair(p, sv);
    TrimUnchanged(p);
    TrimLeadingSpace(v);
  }

  /** `p: v` is `p`, the colon, and `v` with its space in front. */
  lemma SpaceAfterColon(p: string, v: string)
    ensures p + ": " + v == p + ":" + ([' '] + v)
  {
  }

  /** The declarations of `a;b` are those of `a` followed by those of `b`, for a single piece `a`. */
  lemma {:induction false} DeclarationsOfAppend(xs: seq<string>, ys: seq<string>)
    ensures DeclarationsOf(xs + ys) == DeclarationsOf(xs) + DeclarationsOf(ys)
    decreases |ys|
  {
    if |ys| == 0 {
      assert xs + ys == xs;
    } else {
      var init, y := ys[..|ys| - 1], ys[|ys| - 1];
      assert ys == init + [y];
      DeclarationsOfSnocAfter(xs, init, y);
      DeclarationsOfAppend(xs, init);
      DeclarationsOfSnoc(init, y);
      AppendAssoc(DeclarationsOf(xs), DeclarationsOf(init), Present(Declaration(y)));
    }
  }

  /** One more piece after `xs + init` adds its declaration, if it has one, at the end. */
  lemma DeclarationsOfSnocAfter(xs: seq<string>, init: seq<string>, y: string)
    ensures DeclarationsOf(xs + (init + [y])) == DeclarationsOf(xs + init) + Present(Declaration(y))
  {
    assert xs + (init + [y]) == (xs + init) + [y];
    DeclarationsOfSnoc(xs + init, y);
  }

  /** Concatenation of sequences is associative. */
  lemma AppendAssoc<T>(a: seq<T>, b: seq<T>, c: seq<T>)
    ensures a + b + c == a + (b + c)
  {
  }

  /** One more piece adds its declaration, if it has one, at the end. */
  lemma DeclarationsOfSnoc(init: seq<string>, x: string)
    ensures DeclarationsOf(init + [x]) == DeclarationsOf(init) + Present(Declaration(x))
  {
    var zs := init + [x];
    assert zs[..|zs| - 1] == init;
  }

  /** A style of two `;`-separated pieces declares what each piece declares, in order. */
  lemma DeclarationsSplit(a: string, b: string)
    requires ';' !in a
    ensures Declarations(a + ";" + b) == DeclarationsOf([a]) + Declarations(b)
  {
    assert a + ";" + b == a + [';'] + b;
    SplitAt(a, b, ';');
    DeclarationsOfAppend([a], Split(b, ';'));
  }

  // ---------------------------------------------------------------------
  // The node view
  // ---------------------------------------------------------------------

  /** The properties `setProperty(property, value, 'important')` forced, the later one winning. */
  function Forced(ds: seq<(string, string)>): map<string, string>
    decreases |ds|
  {
    if |ds| == 0 then map[]
    else
      var last := ds[|ds| - 1];
      Forced(ds[..|ds| - 1])[last.0 := last.1]
  }

  /** Exactly the declared properties are forced. */
  lemma {:induction false} ForcedKeys(ds: seq<(string, string)>)
    ensures forall k :: k in Forced(ds) <==> exists i :: 0 <= i < |ds| && ds[i].0 == k
    decreases |ds|
  {
    if |ds| > 0 {
      var init := ds[..|ds| - 1];
      ForcedKeys(init);
      assert forall i :: 0 <= i < |init| ==> init[i] == ds[i];
    }
  }

  /** A property ends with the value of its last declaration. */
  lemma {:induction false} ForcedLastWins(ds: seq<(string, string)>, i: nat)
    requires i < |ds|
    requires forall j :: i < j < |ds| ==> ds[j].0 != ds[i].0
    ensures ds[i].0 in Forced(ds) && Forced(ds)[ds[i].0] == ds[i].1
    decreases |ds|
  {
    if i < |ds| - 1 {
      var init := ds[..|ds| - 1];
      assert init[i] == ds[i];
      ForcedLastWins(init, i);
    }
  }

  /** One more piece forces its declaration, if it has one, over what came before. */
  lemma ApplyStep(pieces: seq<string>, i: nat)
    requires i < |pieces|
    ensures var d := Declaration(pieces[i]);
      Forced(DeclarationsOf(pieces[..i + 1]))
        == if d.Some? then Forced(DeclarationsOf(pieces[..i]))[d.value.0 := d.value.1] else Forced(DeclarationsOf(pieces[..i]))
  {
    var before := DeclarationsOf(pieces[..i]);
    var d := Declaration(pieces[i]);
    assert pieces[..i + 1][..i] == pieces[..i] && pieces[..i + 1][i] == pieces[i];
    assert DeclarationsOf(pieces[..i + 1]) == before + (if d.Some? then [d.value] else []);
    if d.Some? {
      assert (before + [d.value])[..|before|] == before;
    } else {
      assert before + [] == before;
    }
  }

  /** What the `<p>` shows: its `style` attribute and the forced properties. */
  datatype View = View(styleAttr: Option<string>, forced: map<string, string>)

  /**
   * The view that displays `style`: the attribute and every declaration of
   * a truthy style, nothing for a falsy one.
   */
  function Shown(style: Option<string>): (v: View)
    ensures Truthy(style) ==> v.styleAttr == style
    ensures !Truthy(style) ==> v == View(None, map[])
  {
    if Truthy(style) then View(style, Forced(Declarations(style.value))) else View(None, map[])
  }

  /**
   * `update(updatedNode)` as written: the new style is compared with the
   * style of the node the view was CREATED for, and the update is always
   * accepted.
   */
  function UpdateAsWritten(created: Option<string>, v: View, newStyle: Option<string>): (r: (View, bool))
    ensures r.1
    ensures newStyle != created ==> r.0 == Shown(newStyle)
    ensures newStyle == created ==> r.0 == v
  {
    if newStyle != created then (Shown(newStyle), true) else (v, true)
  }

  /**
   * As written, styling a paragraph A, then B, then A again leaves B on
   * screen: the last update compares A with the creation style A and does
   * nothing.
   */
  lemma UpdateAsWrittenKeepsStaleStyle(a: string, b: string)
    requires a != [] && b != [] && a != b
    ensures var v1 := UpdateAsWritten(Some(a), Shown(Some(a)), Some(b)).0;
      var v2 := UpdateAsWritten(Some(a), v1, Some(a)).0;
      v2 == Shown(Some(b)) && v2 != Shown(Some(a))
  {
  }

  /**
   * `update` comparing the new style with the style the view shows now,
   * which is then the new style.
   */
  function UpdateView(shownStyle: Option<string>, v: View, newStyle: Option<string>): (r: (Option<string>, View, bool))
    ensures r.2 && r.0 == newStyle
    ensures v == Shown(shownStyle) ==> r.1 == Shown(newStyle)
  {
    if newStyle != shownStyle then (newStyle, Shown(newStyle), true) else (newStyle, v, true)
  }

  /** With the fix, any sequence of updates shows the style of the last one. */
  lemma {:induction false} UpdatesTrackLastStyle(initial: Option<string>, styles: seq<Option<string>>)
    requires |styles| > 0
    ensures UpdateAll(initial, Shown(initial), styles) == (styles[|styles| - 1], Shown(styles[|styles| - 1]))
    decreases |styles|
  {
    if |styles| > 1 {
      UpdatesTrackLastStyle(initial, styles[..|styles| - 1]);
      assert styles[..|styles| - 1][|styles| - 2] == styles[|styles| - 2];
    }
  }

  /** The state after the view, created for `initial`, receives each style in turn. */
  function UpdateAll(initial: Option<string>, v: View, styles: seq<Option<string>>): (Option<string>, View)
    decreases |styles|
  {
    if |styles| == 0 then (initial, v)
    else
      var (shown, w) := UpdateAll(initial, v, styles[..|styles| - 1]);
      var r := UpdateView(shown, w, styles[|styles| - 1]);
      (r.0, r.1)
  }

  /** The `<p>` the node view manages. */
  class ParagraphView {
    /** The style the view shows now. */
    var shownStyle: Option<string>
    var styleAttr: Option<string>
    var forced: map<string, string>

    function ViewOf(): View
      reads this
    {
      View(styleAttr, forced)
    }

    ghost predicate Valid()
      reads this
    {
      ViewOf() == Shown(shownStyle)
    }

    /** `addNodeView` for a node with `style`: the style is applied once, if truthy. */
    constructor (style: Option<string>)
      ensures Valid() && shownStyle == style
    {
      shownStyle := style;
      styleAttr := None;
      forced := map[];
      new;
      if Truthy(style) {
        ApplyStyle(style.value);
      }
    }

    /**
     * `dom.setAttribute('style', s)` followed by the `forEach` that forces
     * every declaration of `s`.
     */
    method ApplyStyle(s: string)
      modifies this
      ensures shownStyle == old(shownStyle)
      ensures styleAttr == Some(s) && forced == Forced(Declarations(s))
    {
      styleAttr := Some(s);
      forced := map[];
      var pieces := Split(s, ';');
      var i := 0;
      assert pieces[..0] == [];
      while i < |pieces|
        invariant i <= |pieces|
        invariant styleAttr == Some(s) && shownStyle == old(shownStyle)
        invariant forced == Forced(DeclarationsOf(pieces[..i]))
      {
        var d := Declaration(pieces[i]);
        ApplyStep(pieces, i);
        if d.Some? {
          forced := forced[d.value.0 := d.value.1];
        }
        i := i + 1;
      }
      assert pieces[..i] == pieces;
    }

    /** `update(updatedNode)`, comparing with the style shown now; always returns true. */
    method Update(newStyle: Option<string>) returns (handled: bool)
      requires Valid()
      modifies this
      ensures Valid() && shownStyle == newStyle
      ensures (shownStyle, ViewOf(), handled) == UpdateView(old(shownStyle), old(ViewOf()), newStyle)
    {
      if newStyle != shownStyle {
        if Truthy(newStyle) {
          ApplyStyle(newStyle.value);
        } else {
          styleAttr := None;
          forced := map[];
        }
      }
      shownStyle := newStyle;
      handled := true;
    }
  }
}

=== FILE: wrappers.dfy ===
/** Option and Result: the model's stand-ins for JavaScript's `null` and for thrown errors. */
module Wrappers {

  /** A value that may be missing (`null` or `undefined` in the source). */
  datatype Option<+T> = None | Some(value: T) {

    /** The value if present, otherwise `default` (the source's `x || default` for a present, truthy x). */
    function GetOr(default: T): T {
      match this
      case Some(v) => v
      case None => default
    }
  }

  /** The outcome of an operation that may throw: `Ok` carries the result, `Err` the error. */
  datatype Result<+R, +E> = Ok(value: R) | Err(error: E)
}
